=== FILE: README.md ===
# Acurast job marketplace — a verified model

Acurast lets consumers register jobs: a script (an `ipfs://` URL), a
schedule of executions and a reward. Processors ("sources") advertise
their resources and prices, and anyone may propose a matching of sources
to job slots. The marketplace pallet checks every proposed slot against
the processor's advertisement, pricing, remaining storage capacity,
whitelists and already assigned schedules, and then locks in the fees.
Matched sources acknowledge their assignments, report each execution and
are paid per report. The acurast pallet stores the registrations and
calls the marketplace through hooks. The fee-manager pallet keeps a
versioned table of fee percentages.

This project models those three pallets as Dafny values and functions,
plus a class that holds the storage and updates it in place:

- `Types` holds the storage items (`Store`) and the runtime's
  collaborators (`Config`). The collaborators are the schedule functions,
  attestation, the asset validator, the reward manager, the revocation
  barrier and the storage iteration order.
- `Arith`, `Scripts` and `Whitelist` cover checked integer arithmetic,
  the script format and the whitelist predicates.
- `Pricing` holds `fee_per_execution` and `total_reward_amount`.
- `ScheduleFit` and `MatchEngine` model `fits_schedule` and
  `process_matching`. `MatchingProps` proves what a successful matching
  guarantees.
- `Acurast`, `Marketplace` and `Chain` hold the extrinsics and hooks as
  transition functions on `Store`. `Chain.Step` runs any call, and
  `Chain.Valid` is the storage invariant every call keeps. Among other
  things it says that no assignment has more met executions than its
  total, so the bound `report` keeps one call at a time holds across calls.
- `Node.Runtime` is the storage as a class. Its methods update the fields
  in place and are proved to end in the store the transition functions
  compute.
- `Fees` holds the fee manager: the value model and the `FeeManager`
  class.

Failing calls revert: every transition returns a `Result`, and the class
methods commit only on success.

Where the code and its documentation disagree, the model follows the code:

- `deregister` removes the registration before it runs the marketplace
  hook, so an overdue matched job is refused (see "## Findings").
  `Chain.Step` and `Node.Runtime.Deregister` run it in this written order.
  `Chain.Deregister` is the corrected order, stated and proved separately.

- The documented ban on changing pricing while a processor holds
  assignments is not enforced by `advertise`. Pricing of assets missing
  from a new advertisement is kept.
- The reward of each match is compared with the first as a whole value
  (asset and amount) for `MultipleRewardAssetsInMatch`.
- A `u16` or `u8` counter incremented with `+= 1` wraps around, as in a
  release build.

## Model

| member | source | states |
|---|---|---|
| Arith.AddU64 | pallets/marketplace/src/lib.rs:658-681 | checked `u64` addition: defined exactly when the sum fits, and then equal to it |
| Arith.MulU64 | pallets/marketplace/src/lib.rs:696-705 | checked `u64` multiplication: defined exactly when the product fits, and then equal to it |
| Arith.MulU128 | pallets/marketplace/src/lib.rs:900-917 | checked `u128` multiplication: defined exactly when the product fits |
| Arith.AddU128 | pallets/marketplace/src/lib.rs:900-917 | checked `u128` addition: defined exactly when the sum fits |
| Arith.SubU128 | pallets/marketplace/src/lib.rs:787-793 | checked `u128` subtraction: defined exactly when no underflow, then the difference |
| Arith.AddI64 | pallets/marketplace/src/lib.rs:255-264 | checked `i64` addition, defined exactly when the sum is in range |
| Arith.SubI64 | pallets/marketplace/src/lib.rs:780-783 | checked `i64` subtraction, defined exactly when the difference is in range |
| Arith.WrappingIncU8 | pallets/marketplace/src/lib.rs:364 | `count + 1` on a `u8`: one more below 255, 0 at 255 |
| Arith.WrappingIncU16 | pallets/fee-manager/src/lib.rs:77-81 | `version += 1` on a `u16`: one more below 65535, 0 at 65535 |
| Scripts.ValidScriptShape | pallets/acurast/common/src/types.rs:12-22 | a valid script is 53 bytes long and starts with the bytes of `ipfs://` |
| Scripts.ValidScriptComplete | pallets/acurast/common/src/types.rs:12-22 | conversely, 53 bytes starting with `ipfs://` form a valid script |
| Scripts.WrongLengthInvalid | pallets/acurast/common/src/types.rs:19-22 | a script of any other length is invalid |
| Whitelist.IsConsumerWhitelisted | pallets/marketplace/src/utils.rs:6-18 | no list admits every consumer; a list admits exactly its members |
| Whitelist.IsSourceWhitelisted | pallets/marketplace/src/utils.rs:21-34 | no list admits every source; a list admits exactly its members |
| Whitelist.EmptyListRejectsAll | pallets/marketplace/src/utils.rs:6-34 | an empty list admits nobody |
| Whitelist.WhitelistsIgnoreOrder | pallets/marketplace/src/utils.rs:6-34 | two lists with the same elements admit the same accounts |
| Pricing.FeePerExecution | pallets/marketplace/src/lib.rs:900-917 | Ok exactly when `fee_per_ms * duration + fee_per_byte * storage + base` fits in `u128`, and then equals it; any overflow is `CalculationOverflow` |
| Pricing.TotalRewardAmount | pallets/marketplace/src/lib.rs:880-897 | Ok exactly when both products fit in `u128`, and then equals reward × slots × executions |
| ScheduleFit.Windows | pallets/marketplace/src/lib.rs:849-863 | one checked window `[start, start + interval)` per execution start |
| ScheduleFit.FoldEnds | pallets/marketplace/src/lib.rs:865-873 | the fold fails only with `CalculationOverflow` or `ScheduleOverlapInMatch` |
| ScheduleFit.PairFits | pallets/marketplace/src/lib.rs:841-873 | schedules with disjoint periods always fit; failures are overflow or overlap |
| ScheduleFit.LeTotal | pallets/marketplace/src/lib.rs:849-865 | the merge order is total |
| ScheduleFit.LeTrans | pallets/marketplace/src/lib.rs:849-865 | the merge order is transitive |
| ScheduleFit.MergePermutes | pallets/marketplace/src/lib.rs:849-865 | the merged sequence is a permutation of the two window sequences |
| ScheduleFit.MergeSorted | pallets/marketplace/src/lib.rs:849-865 | merging two sorted sequences gives a sorted sequence |
| ScheduleFit.HeadIsLeast | pallets/marketplace/src/lib.rs:849-865 | in a sorted sequence the head precedes every other element |
| ScheduleFit.ConsSorted | pallets/marketplace/src/lib.rs:849-865 | a head below every element of a sorted tail gives a sorted sequence |
| ScheduleFit.AboveHead | pallets/marketplace/src/lib.rs:849-865 | every element of a sorted sequence is above its head |
| ScheduleFit.MergeAbove | pallets/marketplace/src/lib.rs:849-865 | a bound below both heads bounds the whole merge |
| ScheduleFit.SortedTail | pallets/marketplace/src/lib.rs:849-865 | the tail of a sorted sequence is sorted |
| ScheduleFit.TwoPositions | pallets/marketplace/src/lib.rs:849-865 | an element occurring twice sits at two distinct positions |
| ScheduleFit.FoldOkIffChained | pallets/marketplace/src/lib.rs:865-873 | the fold succeeds exactly when no window overflowed and each starts at or after the previous end |
| ScheduleFit.FoldFailsOnlyByOverlap | pallets/marketplace/src/lib.rs:865-873 | with no overflowed window the only failure is `ScheduleOverlapInMatch` |
| ScheduleFit.ChainedOrdered | pallets/marketplace/src/lib.rs:865-873 | chained non-empty windows are ordered pairwise, not only neighbour to neighbour |
| ScheduleFit.SortedDisjointChained | pallets/marketplace/src/lib.rs:865-873 | sorted, pairwise disjoint, non-negative windows are chained from 0 |
| ScheduleFit.FoldDecidesDisjointness | pallets/marketplace/src/lib.rs:849-873 | for strictly increasing starts and positive intervals, the fold succeeds exactly when all merged windows are pairwise disjoint |
| ScheduleFit.MergePositions | pallets/marketplace/src/lib.rs:849-865 | each window of either input has its own position in the merge |
| ScheduleFit.MergeNonEmpty | pallets/marketplace/src/lib.rs:849-865 | with positive intervals every merged window is non-empty |
| ScheduleFit.FoldOkSeparatesSchedules | pallets/marketplace/src/lib.rs:849-873 | a successful fold means every execution of one schedule is disjoint from every execution of the other, with no overflow |
| ScheduleFit.PairFitsDecides | pallets/marketplace/src/lib.rs:841-873 | for overlapping periods the pair check passes exactly when the merged windows are pairwise disjoint, and otherwise fails with overlap |
| ScheduleFit.PairFitsSeparates | pallets/marketplace/src/lib.rs:841-873 | a passed pair check keeps every two executions of the two schedules apart |
| MatchEngine.FitsFrom | pallets/marketplace/src/lib.rs:831-877 | the loop fails only with a missing registration, overflow or overlap |
| MatchEngine.FitsFromOk | pallets/marketplace/src/lib.rs:831-877 | the loop from position `i` passes exactly when every later assigned job is registered and fits |
| MatchEngine.FitsAllMeaning | pallets/marketplace/src/lib.rs:831-877 | when storage lists each assigned job once, the check passes exactly when every job assigned to the source is registered and fits |
| MatchEngine.FitsSchedule | pallets/marketplace/src/lib.rs:831-877 | the loop computes the fold, and passes exactly when every assignment fits |
| MatchEngine.WindowCheck | pallets/marketplace/src/lib.rs:658-681 | overflow exactly when the last execution's end or the window's end overflows; otherwise admits exactly when the job ends inside the scheduling window |
| MatchEngine.QuotaCheck | pallets/marketplace/src/lib.rs:690-707 | the advertised network request quota covers the job's requests |
| MatchEngine.AdmitSlot | pallets/marketplace/src/lib.rs:642-724 | a slot is admitted exactly when every test passes (attestation, advertisement, pricing, window, memory, quota, capacity, both whitelists); each error names a test that failed |
| MatchEngine.SourceCount | pallets/marketplace/src/lib.rs:614-619 | `len().try_into().unwrap_or(0)`: the count when at most 255, else 0 |
| MatchEngine.JobStep | pallets/marketplace/src/lib.rs:603-810 | the errors of one match in source order: `JobRegistrationNotFound`, `OverdueMatch` for a started job, `IncorrectSourceCountInMatch`, `AssetRejected`, the slot loop's error, the total reward's error, `InsufficientRewardInMatch` when the fees exceed the total reward, and `MultipleRewardAssetsInMatch` for a reward other than the first |
| MatchEngine.Matching | pallets/marketplace/src/lib.rs:812-820 | an empty matching fails with `EmptyMatching` |
| MatchEngine.AssignSlot | pallets/marketplace/src/lib.rs:640-784 | one slot iteration computes the slot step |
| MatchEngine.MatchJob | pallets/marketplace/src/lib.rs:603-810 | one match iteration (slot loop, reward check, status) computes the job step |
| MatchEngine.ProcessMatching | pallets/marketplace/src/lib.rs:597-821 | the loop over matches computes the matching fold |
| MatchingProps.SlotStepOk | pallets/marketplace/src/lib.rs:710-783 | an admitted slot had positive capacity and no prior assignment; its fee is at most the reward; the total grows by fee × executions; only that assignment and capacity change |
| MatchingProps.SlotsFromNext | pallets/marketplace/src/lib.rs:640-784 | a successful slot loop passes its first slot and continues from the resulting state |
| MatchingProps.SlotStepKeys | pallets/marketplace/src/lib.rs:756-779 | a slot adds exactly one new assignment key |
| MatchingProps.SlotStepAdmits | pallets/marketplace/src/lib.rs:642-731 | an admitted slot passed the static tests and the schedule check |
| MatchingProps.SlotsFromFrame | pallets/marketplace/src/lib.rs:640-784 | the slot loop changes only assignments and capacities, keeps old assignments and adds only this job's listed sources |
| MatchingProps.SlotsFromAssigns | pallets/marketplace/src/lib.rs:640-784 | every slot of the loop was admitted and assigned with its slot, delay and fee |
| MatchingProps.CommittedFeesStable | pallets/marketplace/src/lib.rs:640-784 | later additions do not change the fees committed to assigned slots |
| MatchingProps.SlotsFromFees | pallets/marketplace/src/lib.rs:734-750 | the total fee is the committed fees times the executions |
| MatchingProps.SlotsFromCapacity | pallets/marketplace/src/lib.rs:780-783 | each provider's capacity drops by the storage of the slots it took |
| MatchingProps.InsertSeparated | pallets/marketplace/src/lib.rs:727-731 | adding an assignment that fits every existing one keeps the provider's schedules separated |
| MatchingProps.SlotStepSeparated | pallets/marketplace/src/lib.rs:727-779 | one slot step keeps the assignments separated |
| MatchingProps.SlotsFromSeparated | pallets/marketplace/src/lib.rs:640-784 | the slot loop keeps the assignments separated |
| MatchingProps.SlotsFromDistinct | pallets/marketplace/src/lib.rs:756-779 | a successful slot loop never names one source twice |
| MatchingProps.JobStepOk | pallets/marketplace/src/lib.rs:603-810 | an accepted match names a registered, not yet started job with as many sources as slots and a valid asset; its fees stay within the budget, the rest is added to the remaining reward, and the job is marked `Matched` |
| MatchingProps.MatchesFromFrame | pallets/marketplace/src/lib.rs:603-810 | the match loop changes only assignments, capacities and statuses, as stated for `MatchingChanges` |
| MatchingProps.MatchesFromAccepts | pallets/marketplace/src/lib.rs:795-806 | every match is of a registered job asking for the same reward as the first |
| MatchingProps.SlotPlannedMoves | pallets/marketplace/src/lib.rs:756-779 | a planned slot stays planned as assignments are added |
| MatchingProps.MatchPlannedMoves | pallets/marketplace/src/lib.rs:640-784 | a planned match stays planned as assignments are added |
| MatchingProps.MatchesFromAssigns | pallets/marketplace/src/lib.rs:603-810 | every slot of every match is planned in the final assignments |
| MatchingProps.MatchesFromCapacity | pallets/marketplace/src/lib.rs:780-783 | capacities drop by the total demand of all matches |
| MatchingProps.MatchesFromConserves | pallets/marketplace/src/lib.rs:787-806 | the remaining reward plus committed fees equals the budget of the matched jobs |
| MatchingProps.MatchesFromSeparated | pallets/marketplace/src/lib.rs:603-810 | the match loop keeps assignments separated |
| MatchingProps.MatchingAccepts | pallets/marketplace/src/lib.rs:603-633 | a successful matching is non-empty; every match names a registered job that has not started, with as many sources as slots, a valid asset and the same reward; no source appears twice |
| MatchingProps.MatchSourcesDistinct | pallets/marketplace/src/lib.rs:756-779 | no source appears twice in one match of a successful matching |
| MatchingProps.MatchingChanges | pallets/marketplace/src/lib.rs:597-821 | only assignments, capacities and statuses change; old assignments stay; new ones come from proposed slots; capacity keys stay; exactly the matched jobs become `Matched` |
| MatchingProps.MatchingAssigns | pallets/marketplace/src/lib.rs:756-779 | every proposed slot is assigned with its slot, start delay, fee (at most the reward), not acknowledged, expecting every execution |
| MatchingProps.MatchingCapacity | pallets/marketplace/src/lib.rs:780-783 | every provider's capacity drops by the storage of its matched slots |
| MatchingProps.MatchingConservesReward | pallets/marketplace/src/lib.rs:787-820 | the returned reward plus all committed fees equals the budget of the matched jobs |
| MatchingProps.MatchingKeepsSeparated | pallets/marketplace/src/lib.rs:727-731 | if storage lists each assigned job once, every two jobs of one provider stay accepted by the schedule check |
| MatchingProps.MatchingRejectsOverdue | pallets/marketplace/src/lib.rs:609-613 | a matching naming an already started job fails, and with `OverdueMatch` when that job is the first match |
| MatchingProps.MatchingRejectsDuplicate | pallets/marketplace/src/lib.rs:756-776 | a matching naming one source twice for a job fails |
| Acurast.CheckRegistration | pallets/acurast/src/lib.rs:168-183 | Ok exactly for a valid script and a list of 1..`MaxAllowedSources` sources or none; the errors are `InvalidScriptValue`, `TooFewAllowedSources`, `TooManyAllowedSources`, in that order |
| Acurast.Position | pallets/acurast/src/lib.rs:220-222 | the first position holding the item |
| Acurast.RemoveFirst | pallets/acurast/src/lib.rs:227-229 | removing the first occurrence drops exactly one copy of the item |
| Acurast.LastOperation | pallets/acurast/src/lib.rs:219-233 | none exactly when no update names the item; otherwise the operation of the last update that names it |
| Acurast.SourceUpdateKeepsNoDuplicates | pallets/acurast/src/lib.rs:219-233 | an update keeps a list free of duplicates |
| Acurast.SourceUpdateMembership | pallets/acurast/src/lib.rs:219-233 | an update decides the membership of its item and no other |
| Acurast.SourceUpdatesKeepNoDuplicates | pallets/acurast/src/lib.rs:219-233 | the update loop keeps a list free of duplicates |
| Acurast.SourceUpdatesLastWins | pallets/acurast/src/lib.rs:219-233 | the last update naming an account decides its membership; unnamed accounts keep theirs |
| Acurast.RevocationLastWins | pallets/acurast/src/lib.rs:307-316 | the last update naming a serial number decides whether it is revoked |
| Marketplace.ScheduleCheck | pallets/marketplace/src/lib.rs:489-523 | Ok exactly when the schedule is acceptable; each error names the test that failed |
| Marketplace.RegisterHook | pallets/marketplace/src/lib.rs:482-554 | Ok exactly when the schedule passes, the job is new or open, the instant match (if any) succeeds, the budget is computable and the reward manager locks it; otherwise schedule errors, `JobRegistrationUnmodifiable`, the matching's error, the budget's error or `RewardManagerFailed`, in that order; on success the job is open (or matched by the instant match) and the reward locked is its whole budget |
| Marketplace.DeregisterHook | pallets/marketplace/src/lib.rs:557-575 | Ok exactly when the job is open or overdue, and then only its status goes; a missing status or (for a non-open job) registration is an error |
| Marketplace.UpdateAllowedSourcesHook | pallets/marketplace/src/lib.rs:578-594 | Ok exactly for an open job; `JobStatusNotFound` or `JobRegistrationUnmodifiable` otherwise |
| Marketplace.AdjustCapacity | pallets/marketplace/src/lib.rs:253-267 | the remaining capacity moves by the change of total capacity; an overflowing sum saturates at `i64::MAX`, and an underflowing difference gives 0 |
| Marketplace.FirstRejected | pallets/marketplace/src/lib.rs:279-282 | none exactly when every asset is valid, else the index of a rejected one |
| Marketplace.Advertise | pallets/marketplace/src/lib.rs:245-286 | Ok exactly for a non-empty pricing with valid assets; the restriction is replaced, capacity set or adjusted, each variant stored, nothing else changes |
| Marketplace.PricingAfterLastWins | pallets/marketplace/src/lib.rs:279-282 | after advertising, an asset's price is the last variant listed for it; others are unchanged |
| Marketplace.HasMatches | pallets/marketplace/src/lib.rs:824-828 | true exactly when the source holds some assignment |
| Marketplace.DeleteAdvertisement | pallets/marketplace/src/lib.rs:291-310 | Ok exactly for an advertised source with no assignment; its restriction, capacity and all its pricing go |
| Marketplace.ProposeMatching | pallets/marketplace/src/lib.rs:314-329 | the matching's result, provided the matcher's reward is paid; any failure reverts |
| Marketplace.Acknowledged | pallets/marketplace/src/lib.rs:360-365 | open jobs cannot be acknowledged; matched becomes `Assigned(1)`; `Assigned(n)` counts one more, and `Assigned(255)` wraps to `Assigned(0)` |
| Marketplace.AcknowledgeMatch | pallets/marketplace/src/lib.rs:335-380 | Ok exactly for an assigned source whose assignment is already acknowledged or whose job is matched or assigned; a repeat changes nothing; the first sets the flag and counts the slot |
| Marketplace.Report | pallets/marketplace/src/lib.rs:386-471 | Ok exactly for an acknowledged, not yet complete assignment reported inside the schedule and paid; each failing test gives its own error in source order (`ReportFromUnassignedSource`, `CannotReportWhenNotAcknowledged`, `MoreReportsThanExpected`, `JobRegistrationNotFound`, `CalculationOverflow`, `ReportOutsideSchedule`, `RewardManagerFailed`); one more execution is met; the last report removes the assignment, status and registration, returns the storage to the capacity (removing the capacity entry when the sum overflows `i64`) and changes nothing else |
| Chain.Register | pallets/acurast/src/lib.rs:163-193 | script and source errors come first; after them the result is the marketplace hook run on the store with the registration inserted; on success the registration is stored, the job is open or matched, and the locked reward is its budget |
| Chain.DeregisterAsWritten | pallets/acurast/src/lib.rs:196-204 | with the registration removed first, the call succeeds exactly for open jobs |
| Chain.DeregisterAsWrittenRefusesOverdue | pallets/marketplace/src/lib.rs:557-571 | an overdue matched job, which the hook means to allow, is refused with `JobRegistrationNotFound` |
| Chain.Deregister | pallets/acurast/src/lib.rs:196-204 | Ok exactly for open or overdue jobs; registration and status are both removed |
| Chain.DeregisterAgreesOnOpenJobs | pallets/acurast/src/lib.rs:196-204 | on open jobs the corrected and the written order agree and succeed |
| Chain.UpdatedSources | pallets/acurast/src/lib.rs:240-244 | an empty list becomes none, otherwise the list |
| Chain.UpdateAllowedSources | pallets/acurast/src/lib.rs:209-262 | Ok exactly for a registered open job whose updated list is within the maximum; the registration's list is replaced and nothing else changes |
| Chain.UpdateAllowedSourcesLastWins | pallets/acurast/src/lib.rs:219-233 | the last update naming an account decides whether it may run the job |
| Chain.RemovingAllSourcesOpensJob | pallets/acurast/src/lib.rs:240-244 | removing every listed source leaves no list, so every source is admitted |
| Chain.AddingSourceRestrictsOpenJob | pallets/acurast/src/lib.rs:219-244 | adding one source to a job open to all restricts it to that source |
| Chain.UpdateCertificateRevocationList | pallets/acurast/src/lib.rs:299-320 | Ok exactly when the barrier allows; then the updates apply in order |
| Chain.LastReportStrandsOtherAssignments | pallets/marketplace/src/lib.rs:437-451 | after one source's last report, others' assignments of the job remain but can no longer report or acknowledge |
| Chain.StoreOf | pallets/marketplace/src/lib.rs:314-329 | forgets the reward and keeps the store or the error |
| Chain.Genesis | pallets/marketplace/src/lib.rs:89-125 | empty storage satisfies the storage invariant |
| Chain.MatchedJobsRegistered | pallets/marketplace/src/lib.rs:808 | every job marked matched is registered |
| Chain.MatchingKeepsValid | pallets/marketplace/src/lib.rs:597-821 | matching keeps the storage invariant |
| Chain.RegisterKeepsValid | pallets/acurast/src/lib.rs:163-193 | register keeps the storage invariant |
| Chain.AdvertiseKeepsValid | pallets/marketplace/src/lib.rs:245-286 | advertise keeps the storage invariant |
| Chain.ReportKeepsValid | pallets/marketplace/src/lib.rs:386-471 | report keeps the storage invariant |
| Chain.DeregisterKeepsValid | pallets/acurast/src/lib.rs:196-204 | deregister keeps the storage invariant |
| Chain.UpdateAllowedSourcesKeepsValid | pallets/acurast/src/lib.rs:209-262 | updating the allowed sources keeps the storage invariant |
| Chain.DeleteAdvertisementKeepsValid | pallets/marketplace/src/lib.rs:291-310 | deleting an advertisement keeps the storage invariant |
| Chain.AcknowledgeMatchKeepsValid | pallets/marketplace/src/lib.rs:335-380 | acknowledging keeps the storage invariant |
| Chain.StepKeepsValid | pallets/acurast/src/lib.rs:163-320 | every call of either pallet keeps the storage invariant, including `met <= total` for every assignment |
| Chain.DeregisterAsWrittenKeepsValid | pallets/acurast/src/lib.rs:196-204 | deregister in the written order keeps the storage invariant |
| Chain.Step | pallets/acurast/src/lib.rs:163-320 | deregister succeeds exactly for open jobs and removes registration and status only; the revocation list call succeeds exactly for allowed callers and changes only the list; each other call changes only its own storage items |
| Chain.StepFrame | pallets/acurast/src/lib.rs:163-320 | only the revocation list call changes the revocation list; only advertise and delete change advertisements and pricing |
| Chain.Run | pallets/acurast/src/lib.rs:163-320 | any sequence of calls from a valid store ends in a valid store |
| Node.Runtime.constructor | pallets/acurast/src/lib.rs:62-84 | a new runtime has empty storage and is valid |
| Node.Runtime.Register | pallets/acurast/src/lib.rs:163-193 | ends in the store `Chain.Register` computes, or reverts with its error; keeps the invariant |
| Node.Runtime.Deregister | pallets/acurast/src/lib.rs:196-204 | removes the registration, then runs the hook; ends in the store `Chain.DeregisterAsWritten` computes, or reverts the removal; keeps the invariant |
| Node.Runtime.UpdateAllowedSources | pallets/acurast/src/lib.rs:209-262 | the update loop ends in the store `Chain.UpdateAllowedSources` computes, or reverts; keeps the invariant |
| Node.Runtime.UpdateCertificateRevocationList | pallets/acurast/src/lib.rs:299-320 | the loop updates the revocation list in place to the computed set, or reverts |
| Node.Runtime.StorePricing | pallets/marketplace/src/lib.rs:279-282 | the pricing loop fails exactly on a rejected asset, else stores every variant under its asset |
| Node.Runtime.Advertise | pallets/marketplace/src/lib.rs:245-286 | ends in the store `Marketplace.Advertise` computes, or reverts; keeps the invariant |
| Node.Runtime.DeleteAdvertisement | pallets/marketplace/src/lib.rs:291-310 | ends in the computed store, or reverts; keeps the invariant |
| Node.Runtime.ProposeMatching | pallets/marketplace/src/lib.rs:314-329 | runs the matching loop and ends in the computed store, or reverts; keeps the invariant |
| Node.Runtime.AcknowledgeMatch | pallets/marketplace/src/lib.rs:335-380 | ends in the computed store, or reverts; keeps the invariant |
| Node.Runtime.Report | pallets/marketplace/src/lib.rs:386-471 | ends in the computed store and pays the fee, or reverts; keeps the invariant |
| Fees.SetFee | pallets/fee-manager/src/lib.rs:77-84 | the version advances by one (0 after 65535); the new version reads the new fee; every other version reads as before |
| Fees.FeeHistory | pallets/fee-manager/src/lib.rs:38-84 | after fewer than 65536 updates the version counts them, version `v` holds the `v`-th fee, and all other versions read the default |
| Fees.CounterWraps | pallets/fee-manager/src/lib.rs:77-84 | the 65536th update writes version 0, and the next overwrites version 1 |
| Fees.FeeManager.FeePercentage | pallets/fee-manager/src/lib.rs:38-46 | the stored fee of a version, or the default when never written |
| Fees.FeeManager.FeeVersion | pallets/fee-manager/src/lib.rs:48-50 | the current version |
| Fees.FeeManager.constructor | pallets/fee-manager/src/lib.rs:38-50 | version 0, nothing written, no events |
| Fees.FeeManager.SetFeePercentage | pallets/fee-manager/src/lib.rs:75-84 | updates the table as `SetFee` does and returns the new version |
| Fees.FeeManager.UpdateFeePercentage | pallets/fee-manager/src/lib.rs:62-70 | refuses non-root origins with `BadOrigin` and changes nothing; for root, sets the fee and records `FeeUpdated` with the new version |

## Left out

- Events other than `FeeUpdated` are not modelled. Weights are not modelled, nor is `set_fee_percentage`'s weight result.
- `ensure_signed` is assumed: every call is made by a signed account.
  `ensure_root` is modelled in `Fees.FeeManager.UpdateFeePercentage`.
- Attestation checking (`submit_attestation`, `ensure_source_verified`) is
  not part of this model. Whether a source is verified is the
  `Config.isVerified` collaborator.
- `Schedule::execution_count`, `Schedule::iter`, `Schedule::overlaps` and
  `MAX_EXECUTIONS_PER_JOB` are defined in
  `pallets/marketplace/src/types.rs`, which is not part of this model. They are `Config` collaborators, left
  uninterpreted.
- The asset validator, the reward manager (lock and pay) and the
  revocation barrier are `Config` predicates. Their side effects outside
  this storage are not modelled.
- Storage iteration order of `StoredMatches` is a `Config` function of the
  key set. The separation results assume it lists each key once.
- Reward amounts (`T::AssetAmount`, generic in the pallet) are taken as
  `u128`, so every amount computation overflows at 2^128.
- `now()` is a parameter, so `FailedTimestampConversion` does not arise.
- Reward conversion (`try_get_asset_id`, `try_get_amount`, `with_amount`)
  cannot fail in the model, so `JobRegistrationUnsupportedReward` and
  `RewardConversionFailed` do not arise.
- `clear_prefix` with `MAX_PRICING_VARIANTS`: `delete_advertisement`
  removes every pricing variant of the provider, whatever their number.
- The debug-build panic of `u8`/`u16` counter overflow is not modelled;
  counters wrap as in release builds.
- `Acurast.SourceUpdatesLastWins`: holds only for a list free of
  duplicates, because `register` does not reject duplicate allowed
  sources and `position` then removes one copy only.
- The XCM adapters, payments, proxy and processor-manager pallets, and the
  fulfillment receiver are outside the core and not modelled.

## Findings

| source | as written | input that shows it | evidently intended | confidence | as-written member | corrected member |
|---|---|---|---|---|---|---|
| pallets/acurast/src/lib.rs:196-204 | `deregister` removes the registration before `deregister_hook`, whose overdue check (pallets/marketplace/src/lib.rs:561-566) then finds no registration | a job in status `Matched` or `Assigned(n)` whose start time has passed: the call fails with `JobRegistrationNotFound` | overdue jobs may be deregistered, as the hook's comment says | not executed | Chain.DeregisterAsWritten, Chain.DeregisterAsWrittenRefusesOverdue | Chain.Deregister |

=== FILE: acurast.dfy ===
/**
  The acurast pallet's own logic: the checks `register` makes, and the list
  updates of `update_allowed_sources` and `update_certificate_revocation_list`.
  Each list update is a left fold over the update list; the loops of the
  calls (in `Node.Runtime`) are proved to compute these folds.
  */
module Acurast {
  import opened Wrappers
  import opened Arith
  import opened Scripts
  import opened Types

  /** What `register` demands of a registration before storing it. */
  predicate RegistrationAcceptable(cfg: Config, registration: JobRegistration)
  {
    && IsValidScript(registration.script)
    && (registration.allowedSources.Some? ==>
          0 < |registration.allowedSources.value| <= cfg.maxAllowedSources)
  }

  /**
    The checks of `register`: a valid script first, then a non-empty allowed
    sources list no longer than `MaxAllowedSources`.
    */
  function CheckRegistration(cfg: Config, registration: JobRegistration): (r: Result<(), Error>)
    ensures r.Ok? <==> RegistrationAcceptable(cfg, registration)
    ensures !IsValidScript(registration.script) ==> r == Err(InvalidScriptValue)
    ensures IsValidScript(registration.script) && registration.allowedSources == Some([]) ==>
      r == Err(TooFewAllowedSources)
    ensures IsValidScript(registration.script) && registration.allowedSources.Some? &&
            |registration.allowedSources.value| > cfg.maxAllowedSources ==>
              r == Err(TooManyAllowedSources)
  {
    if !IsValidScript(registration.script) then Err(InvalidScriptValue)
    else match registration.allowedSources
      case None => Ok(())
      case Some(sources) =>
        if !(|sources| > 0) then Err(TooFewAllowedSources)
        else if !(|sources| <= cfg.maxAllowedSources) then Err(TooManyAllowedSources)
        else Ok(())
  }

  // ---------------------------------------------------------------------------
  // Allowed sources

  /** No account appears twice. */
  predicate NoDuplicates(list: seq<AccountId>)
  {
    forall i, j :: 0 <= i < j < |list| ==> list[i] != list[j]
  }

  /** The index of the first occurrence (`iter().position`). */
  function Position(list: seq<AccountId>, x: AccountId): (p: nat)
    requires x in list
    ensures p < |list| && list[p] == x && x !in list[..p]
  {
    if list[0] == x then 0 else 1 + Position(list[1..], x)
  }

  /** `Vec::remove` at the first occurrence of `x`. */
  function RemoveFirst(list: seq<AccountId>, x: AccountId): (r: seq<AccountId>)
    requires x in list
    ensures |r| == |list| - 1
    ensures multiset(r) == multiset(list) - multiset{x}
  {
    var p := Position(list, x);
    assert list == list[..p] + [x] + list[p + 1..];
    list[..p] + list[p + 1..]
  }

  /** One update of the allowed sources: add when absent, remove the first occurrence when present. */
  function ApplySourceUpdate(list: seq<AccountId>, update: ListUpdate<AccountId>): seq<AccountId>
  {
    match update.operation
    case Add => if update.item in list then list else list + [update.item]
    case Remove => if update.item in list then RemoveFirst(list, update.item) else list
  }

  /** The allowed sources after the updates, applied from first to last. */
  function ApplySourceUpdates(list: seq<AccountId>, updates: seq<ListUpdate<AccountId>>): seq<AccountId>
    decreases |updates|
  {
    if updates == [] then list
    else ApplySourceUpdate(ApplySourceUpdates(list, updates[..|updates| - 1]), updates[|updates| - 1])
  }

  /** The operation of the last update about `x`, if any. */
  function LastOperation<T(==)>(updates: seq<ListUpdate<T>>, x: T): (r: Option<ListUpdateOperation>)
    ensures r.None? <==> forall i :: 0 <= i < |updates| ==> updates[i].item != x
    ensures r.Some? ==>
      exists i :: 0 <= i < |updates| && updates[i].item == x && updates[i].operation == r.value &&
        forall j :: i < j < |updates| ==> updates[j].item != x
    decreases |updates|
  {
    if updates == [] then None
    else if updates[|updates| - 1].item == x then Some(updates[|updates| - 1].operation)
    else
      var prefix := updates[..|updates| - 1];
      var r := LastOperation(prefix, x);
      assert forall i :: 0 <= i < |prefix| ==> prefix[i] == updates[i];
      r
  }

  /** One source update keeps a duplicate-free list duplicate-free. */
  lemma SourceUpdateKeepsNoDuplicates(list: seq<AccountId>, update: ListUpdate<AccountId>)
    requires NoDuplicates(list)
    ensures NoDuplicates(ApplySourceUpdate(list, update))
  {
    if update.operation == Remove && update.item in list {
      var p := Position(list, update.item);
      var r := ApplySourceUpdate(list, update);
      assert r == list[..p] + list[p + 1..];
      forall i, j | 0 <= i < j < |r|
        ensures r[i] != r[j]
      {
        var i' := if i < p then i else i + 1;
        var j' := if j < p then j else j + 1;
        assert r[i] == list[i'] && r[j] == list[j'];
      }
    }
  }

  /** On a duplicate-free list, one update decides the membership of its item and no other. */
  lemma SourceUpdateMembership(list: seq<AccountId>, update: ListUpdate<AccountId>, x: AccountId)
    requires NoDuplicates(list)
    ensures x in ApplySourceUpdate(list, update) <==>
      if x == update.item then update.operation == Add else x in list
  {
    if update.operation == Remove && update.item in list {
      var p := Position(list, update.item);
      assert list == list[..p] + [update.item] + list[p + 1..];
      assert ApplySourceUpdate(list, update) == list[..p] + list[p + 1..];
      if x == update.item {
        assert x !in list[p + 1..] by {
          forall j | p + 1 <= j < |list|
            ensures list[j] != x
          {
            assert list[p] == x;
          }
        }
      }
    }
  }

  /** The updates keep a duplicate-free list duplicate-free. */
  lemma {:induction false} SourceUpdatesKeepNoDuplicates(list: seq<AccountId>, updates: seq<ListUpdate<AccountId>>)
    requires NoDuplicates(list)
    ensures NoDuplicates(ApplySourceUpdates(list, updates))
    decreases |updates|
  {
    if updates != [] {
      SourceUpdatesKeepNoDuplicates(list, updates[..|updates| - 1]);
      SourceUpdateKeepsNoDuplicates(ApplySourceUpdates(list, updates[..|updates| - 1]), updates[|updates| - 1]);
    }
  }

  /**
    On a duplicate-free list, the last update about an account decides
    whether it is allowed afterwards; an account no update names keeps its
    membership.
    */
  lemma {:induction false} SourceUpdatesLastWins(list: seq<AccountId>, updates: seq<ListUpdate<AccountId>>, x: AccountId)
    requires NoDuplicates(list)
    ensures x in ApplySourceUpdates(list, updates) <==>
      match LastOperation(updates, x)
      case Some(op) => op == Add
      case None => x in list
    decreases |updates|
  {
    if updates != [] {
      var prefix := updates[..|updates| - 1];
      SourceUpdatesLastWins(list, prefix, x);
      SourceUpdatesKeepNoDuplicates(list, prefix);
      SourceUpdateMembership(ApplySourceUpdates(list, prefix), updates[|updates| - 1], x);
    }
  }

  // ---------------------------------------------------------------------------
  // Certificate revocation list

  /** One update of the revocation list: insert or remove the serial number. */
  function ApplyRevocationUpdate(revoked: set<SerialNumber>, update: ListUpdate<SerialNumber>): set<SerialNumber>
  {
    match update.operation
    case Add => revoked + {update.item}
    case Remove => revoked - {update.item}
  }

  /** The revocation list after the updates, applied from first to last. */
  function ApplyRevocationUpdates(revoked: set<SerialNumber>, updates: seq<ListUpdate<SerialNumber>>): set<SerialNumber>
    decreases |updates|
  {
    if updates == [] then revoked
    else ApplyRevocationUpdate(ApplyRevocationUpdates(revoked, updates[..|updates| - 1]), updates[|updates| - 1])
  }

  /**
    The last update about a serial number decides whether it is revoked; a
    serial number no update names keeps its state.
    */
  lemma {:induction false} RevocationLastWins(revoked: set<SerialNumber>, updates: seq<ListUpdate<SerialNumber>>,
                                              x: SerialNumber)
    ensures x in ApplyRevocationUpdates(revoked, updates) <==>
      match LastOperation(updates, x)
      case Some(op) => op == Add
      case None => x in revoked
    decreases |updates|
  {
    if updates != [] {
      RevocationLastWins(revoked, updates[..|updates| - 1], x);
    }
  }
}

=== FILE: arith.dfy ===
/**
  Fixed-width integers of the source, as subsets of the unbounded `int`,
  and the checked operations (`checked_add`, `checked_sub`, `checked_mul`)
  it uses on them.
  */
module Arith {
  import opened Wrappers

  const U8_MAX: int := 0xFF
  const U16_MAX: int := 0xFFFF
  const U32_MAX: int := 0xFFFF_FFFF
  const U64_MAX: int := 0xFFFF_FFFF_FFFF_FFFF
  const U128_MAX: int := 0xFFFF_FFFF_FFFF_FFFF_FFFF_FFFF_FFFF_FFFF
  const I64_MAX: int := 0x7FFF_FFFF_FFFF_FFFF
  const I64_MIN: int := -0x8000_0000_0000_0000

  type U8 = x: int | 0 <= x <= U8_MAX
  type U16 = x: int | 0 <= x <= U16_MAX
  type U32 = x: int | 0 <= x <= U32_MAX
  type U64 = x: int | 0 <= x <= U64_MAX
  type U128 = x: int | 0 <= x <= U128_MAX
  type I64 = x: int | I64_MIN <= x <= I64_MAX

  /** `checked_add` on `u64`. */
  function AddU64(a: U64, b: U64): (r: Option<U64>)
    ensures r.Some? <==> a + b <= U64_MAX
    ensures r.Some? ==> r.value == a + b
  {
    if a + b <= U64_MAX then Some(a + b) else None
  }

  /** `checked_mul` on `u64`. */
  function MulU64(a: U64, b: U64): (r: Option<U64>)
    ensures r.Some? <==> a * b <= U64_MAX
    ensures r.Some? ==> r.value == a * b
  {
    if a * b <= U64_MAX then Some(a * b) else None
  }

  /** `checked_add` on the asset amount (`u128`). */
  function AddU128(a: U128, b: U128): (r: Option<U128>)
    ensures r.Some? <==> a + b <= U128_MAX
    ensures r.Some? ==> r.value == a + b
  {
    if a + b <= U128_MAX then Some(a + b) else None
  }

  /** `checked_sub` on the asset amount (`u128`): fails below zero. */
  function SubU128(a: U128, b: U128): (r: Option<U128>)
    ensures r.Some? <==> b <= a
    ensures r.Some? ==> r.value == a - b
  {
    if b <= a then Some(a - b) else None
  }

  /** `checked_mul` on the asset amount (`u128`). */
  function MulU128(a: U128, b: U128): (r: Option<U128>)
    ensures r.Some? <==> a * b <= U128_MAX
    ensures r.Some? ==> r.value == a * b
  {
    if a * b <= U128_MAX then Some(a * b) else None
  }

  /** `checked_add` on `i64`. */
  function AddI64(a: I64, b: I64): (r: Option<I64>)
    ensures r.Some? <==> I64_MIN <= a + b <= I64_MAX
    ensures r.Some? ==> r.value == a + b
  {
    if I64_MIN <= a + b <= I64_MAX then Some(a + b) else None
  }

  /** `checked_sub` on `i64`. */
  function SubI64(a: I64, b: I64): (r: Option<I64>)
    ensures r.Some? <==> I64_MIN <= a - b <= I64_MAX
    ensures r.Some? ==> r.value == a - b
  {
    if I64_MIN <= a - b <= I64_MAX then Some(a - b) else None
  }

  /** `+= 1` on a `u8` in a release build: wraps from 255 to 0. */
  function WrappingIncU8(a: U8): (r: U8)
    ensures a < U8_MAX ==> r == a + 1
    ensures a == U8_MAX ==> r == 0
  {
    (a + 1) % (U8_MAX + 1)
  }

  /** `+= 1` on a `u16` in a release build: wraps from 65535 to 0. */
  function WrappingIncU16(a: U16): (r: U16)
    ensures a < U16_MAX ==> r == a + 1
    ensures a == U16_MAX ==> r == 0
  {
    (a + 1) % (U16_MAX + 1)
  }
}

=== FILE: chain.dfy ===
/**
  The calls of the acurast pallet over the storage both pallets share:
  `register`, `deregister`, `update_allowed_sources` and
  `update_certificate_revocation_list`, each followed by the marketplace
  hook it calls. Every call of both pallets is then one transition of the
  store, and the invariants of the store are proved to hold across every
  transition. A call that fails reverts, leaving the store as it was.
  */
module Chain {
  import opened Wrappers
  import opened Arith
  import opened Scripts
  import opened Types
  import opened Whitelist
  import opened Pricing
  import opened Acurast
  import opened Marketplace
  import opened MatchEngine
  import opened MatchingProps

  // ---------------------------------------------------------------------------
  // register

  /**
    `register`: checks the script and the allowed sources, stores the
    registration under the caller and its script (replacing an earlier one),
    then runs `register_hook`. An instant match leaves the job `Matched`,
    otherwise it is `Open`; the locked reward is the job's whole budget.
    */
  function Register(cfg: Config, now: U64, st: Store, who: AccountId, registration: JobRegistration)
    : (r: Result<(Store, Reward), Error>)
    ensures CheckRegistration(cfg, registration).Err? ==> r == Err(CheckRegistration(cfg, registration).error)
    ensures CheckRegistration(cfg, registration).Ok? ==>
      r == RegisterHook(cfg, now, st.(registrations := st.registrations[JobId(who, registration.script) := registration]),
                        who, registration)
    ensures r.Ok? ==> RegistrationAcceptable(cfg, registration) && RegistrationSchedulable(cfg, now, registration)
    ensures r.Ok? ==>
      var key := JobId(who, registration.script);
      && r.value.0.registrations == st.registrations[key := registration]
      && key in r.value.0.jobStatus
      && r.value.0.jobStatus[key] == (if registration.extra.instantMatch.Some? then Matched else Open)
      && r.value.1.asset == registration.extra.reward.asset
      && r.value.1.amount == JobBudget(cfg, registration)
  {
    var checked := CheckRegistration(cfg, registration);
    if checked.Err? then Err(checked.error)
    else
      var key := JobId(who, registration.script);
      var stored := st.(registrations := st.registrations[key := registration]);
      var hooked := RegisterHook(cfg, now, stored, who, registration);
      if hooked.Ok? && registration.extra.instantMatch.Some? then
        var withStatus := stored.(jobStatus := stored.jobStatus[key := Open]);
        var ms := [Match(key, registration.extra.instantMatch.value)];
        MatchingChanges(cfg, now, withStatus, ms);
        assert MatchedJobs(withStatus.registrations, ms, 1) == {};
        assert MatchedJobs(withStatus.registrations, ms, 0) == {key};
        hooked
      else hooked
  }

  // ---------------------------------------------------------------------------
  // deregister

  /**
    `deregister` as the source orders it: the registration is removed first,
    and `deregister_hook` then runs against the store without it.
    */
  function DeregisterAsWritten(now: U64, st: Store, who: AccountId, script: Script): (r: Result<Store, Error>)
    ensures var key := JobId(who, script);
      r.Ok? <==> key in st.jobStatus && st.jobStatus[key] == Open
    ensures var key := JobId(who, script);
      r.Ok? ==> r.value == st.(registrations := st.registrations - {key}, jobStatus := st.jobStatus - {key})
  {
    DeregisterHook(now, st.(registrations := st.registrations - {JobId(who, script)}), who, script)
  }

  /**
    As written, the overdue test of the hook can never pass: it looks up the
    registration that was just removed, so a matched job whose schedule has
    started can never be deregistered.
    */
  lemma DeregisterAsWrittenRefusesOverdue(now: U64, st: Store, who: AccountId, script: Script)
    requires JobId(who, script) in st.jobStatus && st.jobStatus[JobId(who, script)] != Open
    requires JobId(who, script) in st.registrations
    requires now >= st.registrations[JobId(who, script)].schedule.startTime
    ensures DeregisterAsWritten(now, st, who, script) == Err(JobRegistrationNotFound)
    ensures Deregistrable(now, st, JobId(who, script))
  {
  }

  /**
    `deregister` with the hook evaluated against the registration it is
    about: an open job, or one whose schedule has started, loses its status
    and its registration.
    */
  function Deregister(now: U64, st: Store, who: AccountId, script: Script): (r: Result<Store, Error>)
    ensures r.Ok? <==> Deregistrable(now, st, JobId(who, script))
    ensures JobId(who, script) !in st.jobStatus ==> r == Err(JobStatusNotFound)
    ensures var key := JobId(who, script);
      r.Ok? ==> r.value == st.(registrations := st.registrations - {key}, jobStatus := st.jobStatus - {key})
  {
    match DeregisterHook(now, st, who, script)
    case Err(e) => Err(e)
    case Ok(st1) => Ok(st1.(registrations := st1.registrations - {JobId(who, script)}))
  }

  /** The two orders agree on open jobs; only the overdue, non-open ones tell them apart. */
  lemma DeregisterAgreesOnOpenJobs(now: U64, st: Store, who: AccountId, script: Script)
    requires JobId(who, script) in st.jobStatus && st.jobStatus[JobId(who, script)] == Open
    ensures Deregister(now, st, who, script) == DeregisterAsWritten(now, st, who, script)
    ensures Deregister(now, st, who, script).Ok?
  {
  }

  // ---------------------------------------------------------------------------
  // update_allowed_sources

  /** The allowed sources as a list; no list is the empty one. */
  function SourcesOf(registration: JobRegistration): seq<AccountId>
  {
    if registration.allowedSources.Some? then registration.allowedSources.value else []
  }

  /** The allowed sources after the updates: `None` when the list ends up empty. */
  function UpdatedSources(current: seq<AccountId>, updates: seq<ListUpdate<AccountId>>): (r: Option<seq<AccountId>>)
    ensures r.None? <==> ApplySourceUpdates(current, updates) == []
    ensures r.Some? ==> r.value == ApplySourceUpdates(current, updates)
  {
    var updated := ApplySourceUpdates(current, updates);
    if updated == [] then None else Some(updated)
  }

  /**
    `update_allowed_sources`: applies the updates to the stored list, refuses
    a list longer than `MaxAllowedSources`, stores the result (no list when it
    is empty) and runs `update_allowed_sources_hook`, which refuses a job that
    is no longer open.
    */
  function UpdateAllowedSources(cfg: Config, st: Store, who: AccountId, script: Script,
                                updates: seq<ListUpdate<AccountId>>): (r: Result<Store, Error>)
    ensures JobId(who, script) !in st.registrations ==> r == Err(JobRegistrationNotFound)
    ensures var key := JobId(who, script);
      r.Ok? <==>
        && key in st.registrations
        && |ApplySourceUpdates(SourcesOf(st.registrations[key]), updates)| <= cfg.maxAllowedSources
        && key in st.jobStatus && st.jobStatus[key] == Open
    ensures var key := JobId(who, script);
      key in st.registrations &&
      |ApplySourceUpdates(SourcesOf(st.registrations[key]), updates)| > cfg.maxAllowedSources ==>
        r == Err(TooManyAllowedSources)
    ensures var key := JobId(who, script);
      r.Ok? ==>
        var previous := st.registrations[key];
        r.value == st.(registrations := st.registrations[key :=
          previous.(allowedSources := UpdatedSources(SourcesOf(previous), updates))])
  {
    var key := JobId(who, script);
    if key !in st.registrations then Err(JobRegistrationNotFound)
    else
      var registration := st.registrations[key];
      var updated := ApplySourceUpdates(SourcesOf(registration), updates);
      if !(|updated| <= cfg.maxAllowedSources) then Err(TooManyAllowedSources)
      else
        var st1 := st.(registrations := st.registrations[key :=
          registration.(allowedSources := UpdatedSources(SourcesOf(registration), updates))]);
        match UpdateAllowedSourcesHook(st1, who, script)
        case Err(e) => Err(e)
        case Ok(_) => Ok(st1)
  }

  /**
    On a duplicate-free list, after `update_allowed_sources` an account is
    listed exactly when the last update about it adds it, or, when no update
    names it, when it was listed before.
    */
  lemma UpdateAllowedSourcesLastWins(cfg: Config, st: Store, who: AccountId, script: Script,
                                     updates: seq<ListUpdate<AccountId>>, x: AccountId)
    requires UpdateAllowedSources(cfg, st, who, script, updates).Ok?
    requires NoDuplicates(SourcesOf(st.registrations[JobId(who, script)]))
    ensures var previous := st.registrations[JobId(who, script)];
      var after := UpdateAllowedSources(cfg, st, who, script, updates).value.registrations[JobId(who, script)];
      x in SourcesOf(after) <==>
        match LastOperation(updates, x)
        case Some(op) => op == Add
        case None => x in SourcesOf(previous)
  {
    SourceUpdatesLastWins(SourcesOf(st.registrations[JobId(who, script)]), updates, x);
  }

  /**
    Removing every listed source, and adding none, leaves the job without a
    list: it is then open to every source.
    */
  lemma RemovingAllSourcesOpensJob(cfg: Config, st: Store, who: AccountId, script: Script,
                                   updates: seq<ListUpdate<AccountId>>)
    requires UpdateAllowedSources(cfg, st, who, script, updates).Ok?
    requires NoDuplicates(SourcesOf(st.registrations[JobId(who, script)]))
    requires forall i :: 0 <= i < |updates| ==> updates[i].operation == Remove
    requires forall x :: x in SourcesOf(st.registrations[JobId(who, script)]) ==>
      exists i :: 0 <= i < |updates| && updates[i].item == x
    ensures var after := UpdateAllowedSources(cfg, st, who, script, updates).value.registrations[JobId(who, script)];
      && after.allowedSources.None?
      && forall source :: IsSourceWhitelisted(source, after)
  {
    var previous := SourcesOf(st.registrations[JobId(who, script)]);
    var updated := ApplySourceUpdates(previous, updates);
    assert updated != [] ==> updated[0] in updated;
    forall x
      ensures x !in updated
    {
      SourceUpdatesLastWins(previous, updates, x);
    }
  }

  /**
    Adding a source to a job open to every source restricts the job to that
    one source.
    */
  lemma AddingSourceRestrictsOpenJob(cfg: Config, st: Store, who: AccountId, script: Script, source: AccountId)
    requires UpdateAllowedSources(cfg, st, who, script, [ListUpdate(Add, source)]).Ok?
    requires st.registrations[JobId(who, script)].allowedSources.None?
    ensures var after := UpdateAllowedSources(cfg, st, who, script, [ListUpdate(Add, source)]).value
                           .registrations[JobId(who, script)];
      && after.allowedSources == Some([source])
      && forall other :: IsSourceWhitelisted(other, after) <==> other == source
  {
    var updates := [ListUpdate(Add, source)];
    assert updates[..0] == [];
    assert ApplySourceUpdates([], updates) == [source];
  }

  // ---------------------------------------------------------------------------
  // update_certificate_revocation_list

  /**
    `update_certificate_revocation_list`: the barrier decides whether the
    caller may make these updates; if so, each serial number is revoked or
    reinstated in order.
    */
  function UpdateCertificateRevocationList(cfg: Config, st: Store, who: AccountId,
                                           updates: seq<ListUpdate<SerialNumber>>): (r: Result<Store, Error>)
    ensures r.Ok? <==> cfg.canUpdateRevocationList(who, updates)
    ensures r.Err? ==> r.error == CertificateRevocationListUpdateNotAllowed
    ensures r.Ok? ==> r.value == st.(revokedCertificates := ApplyRevocationUpdates(st.revokedCertificates, updates))
  {
    if !cfg.canUpdateRevocationList(who, updates) then Err(CertificateRevocationListUpdateNotAllowed)
    else Ok(st.(revokedCertificates := ApplyRevocationUpdates(st.revokedCertificates, updates)))
  }

  // ---------------------------------------------------------------------------
  // report

  /**
    The last report of one provider removes the job's registration and status
    while other providers may still hold assignments for it: those
    assignments stay, but no report for them succeeds any more, and one not
    yet acknowledged can no longer be acknowledged.
    */
  lemma LastReportStrandsOtherAssignments(cfg: Config, now: U64, st: Store, who: AccountId, other: AccountId,
                                          jobId: JobId, later: U64, last: bool)
    requires who != other && (other, jobId) in st.matches
    requires Report(cfg, now, st, who, jobId, true).Ok?
    ensures var st1 := Report(cfg, now, st, who, jobId, true).value.0;
      && (other, jobId) in st1.matches
      && Report(cfg, later, st1, other, jobId, last).Err?
      && (!st1.matches[(other, jobId)].acknowledged ==> AcknowledgeMatch(st1, other, jobId).Err?)
  {
    var st1 := Report(cfg, now, st, who, jobId, true).value.0;
    assert (other, jobId) in st1.matches;
    assert !ReportAccepted(cfg, later, st1, other, jobId);
  }

  // ---------------------------------------------------------------------------
  // Every call as one transition

  /** A call of either pallet, by a signed caller. */
  datatype Call =
    | RegisterCall(registration: JobRegistration)
    | DeregisterCall(script: Script)
    | UpdateAllowedSourcesCall(script: Script, sourceUpdates: seq<ListUpdate<AccountId>>)
    | UpdateRevocationListCall(revocationUpdates: seq<ListUpdate<SerialNumber>>)
    | AdvertiseCall(advertisement: Advertisement)
    | DeleteAdvertisementCall
    | ProposeMatchingCall(proposed: seq<Match>)
    | AcknowledgeMatchCall(jobId: JobId)
    | ReportCall(reportedJob: JobId, last: bool)

  /** The store after a call, dropping the reward it locks or pays. */
  function StoreOf(r: Result<(Store, Reward), Error>): (s: Result<Store, Error>)
    ensures s.Ok? <==> r.Ok?
    ensures s.Ok? ==> s.value == r.value.0
    ensures s.Err? ==> s.error == r.error
  {
    match r
    case Ok((st, _)) => Ok(st)
    case Err(e) => Err(e)
  }

  /**
    One call of `who` at time `now`. `deregister` runs in the order of the
    source: registration removed first, then the hook. Each call changes
    only the storage items of its own concern.
    */
  function Step(cfg: Config, now: U64, st: Store, who: AccountId, call: Call): (r: Result<Store, Error>)
    ensures call.DeregisterCall? ==>
      var key := JobId(who, call.script);
      && (r.Ok? <==> key in st.jobStatus && st.jobStatus[key] == Open)
      && (r.Ok? ==> r.value == st.(registrations := st.registrations - {key}, jobStatus := st.jobStatus - {key}))
    ensures call.UpdateRevocationListCall? ==>
      && (r.Ok? <==> cfg.canUpdateRevocationList(who, call.revocationUpdates))
      && (r.Ok? ==> r.value == st.(revokedCertificates := ApplyRevocationUpdates(st.revokedCertificates, call.revocationUpdates)))
    ensures r.Ok? && call.UpdateAllowedSourcesCall? ==>
      r.value == st.(registrations := r.value.registrations) && r.value.registrations.Keys == st.registrations.Keys
    ensures r.Ok? && (call.AdvertiseCall? || call.DeleteAdvertisementCall?) ==>
      r.value == st.(restrictions := r.value.restrictions, pricing := r.value.pricing, capacity := r.value.capacity)
    ensures r.Ok? && call.AcknowledgeMatchCall? ==>
      r.value == st.(matches := r.value.matches, jobStatus := r.value.jobStatus)
    ensures r.Ok? && call.ReportCall? ==>
      r.value == st.(matches := r.value.matches, jobStatus := r.value.jobStatus,
                     registrations := r.value.registrations, capacity := r.value.capacity)
  {
    match call
    case RegisterCall(registration) => StoreOf(Register(cfg, now, st, who, registration))
    case DeregisterCall(script) => DeregisterAsWritten(now, st, who, script)
    case UpdateAllowedSourcesCall(script, updates) => UpdateAllowedSources(cfg, st, who, script, updates)
    case UpdateRevocationListCall(updates) => UpdateCertificateRevocationList(cfg, st, who, updates)
    case AdvertiseCall(ad) => Advertise(cfg, st, who, ad)
    case DeleteAdvertisementCall => DeleteAdvertisement(st, who)
    case ProposeMatchingCall(matches) => StoreOf(ProposeMatching(cfg, now, st, who, matches))
    case AcknowledgeMatchCall(jobId) => AcknowledgeMatch(st, who, jobId)
    case ReportCall(jobId, last) => StoreOf(Report(cfg, now, st, who, jobId, last))
  }

  /**
    The invariants of the shared storage: a registration is stored under its
    own script; every job with a status is registered; every provider with
    an assignment, a capacity or a price has advertised.
    */
  ghost predicate Valid(st: Store)
  {
    && (forall k :: k in st.registrations ==> st.registrations[k].script == k.script)
    && (forall k :: k in st.jobStatus ==> k in st.registrations)
    && (forall key :: key in st.matches ==> key.0 in st.restrictions)
    && (forall s :: s in st.capacity ==> s in st.restrictions)
    && (forall key :: key in st.pricing ==> key.0 in st.restrictions)
    && (forall key :: key in st.matches ==> st.matches[key].sla.met <= st.matches[key].sla.total)
  }

  /** The empty store of a new chain. */
  function Genesis(): (st: Store)
    ensures Valid(st)
    ensures st.registrations == map[] && st.matches == map[] && st.restrictions == map[]
  {
    Store(map[], {}, map[], map[], map[], map[], map[])
  }

  /** The jobs a matching marks `Matched` are registered jobs. */
  lemma {:induction false} MatchedJobsRegistered(registrations: map<JobId, JobRegistration>, matches: seq<Match>, k: nat)
    requires k <= |matches|
    requires forall j :: j in registrations ==> registrations[j].script == j.script
    ensures forall j :: j in MatchedJobs(registrations, matches, k) ==> j in registrations
    decreases |matches| - k
  {
    if k < |matches| {
      MatchedJobsRegistered(registrations, matches, k + 1);
      var m := matches[k];
      if m.jobId in registrations {
        assert JobId(m.jobId.owner, registrations[m.jobId].script) == m.jobId;
      }
    }
  }

  /** A successful matching keeps the invariants. */
  lemma MatchingKeepsValid(cfg: Config, now: U64, st: Store, matches: seq<Match>)
    requires Valid(st)
    requires Matching(cfg, now, st, matches).Ok?
    ensures Valid(Matching(cfg, now, st, matches).value.0)
  {
    var st' := Matching(cfg, now, st, matches).value.0;
    MatchingChanges(cfg, now, st, matches);
    MatchingAssigns(cfg, now, st, matches);
    MatchedJobsRegistered(st.registrations, matches, 0);
    forall key | key in st'.matches
      ensures key.0 in st'.restrictions
    {
      if key !in st.matches {
        var k, i :| 0 <= k < |matches| && 0 <= i < |matches[k].sources| &&
          key == (matches[k].sources[i].source, matches[k].jobId);
        assert MatchPlanned(cfg, now, st, st'.matches, matches[k]);
        assert SlotPlanned(cfg, now, st.restrictions, st.pricing, st.matches, st'.matches,
                           matches[k].jobId, st.registrations[matches[k].jobId], i, matches[k].sources[i]);
      }
    }
  }

  /** `register` keeps the invariants. */
  lemma RegisterKeepsValid(cfg: Config, now: U64, st: Store, who: AccountId, registration: JobRegistration)
    requires Valid(st)
    requires Register(cfg, now, st, who, registration).Ok?
    ensures Valid(Register(cfg, now, st, who, registration).value.0)
  {
    var key := JobId(who, registration.script);
    var stored := st.(registrations := st.registrations[key := registration]);
    var withStatus := stored.(jobStatus := stored.jobStatus[key := Open]);
    assert Valid(withStatus);
    if registration.extra.instantMatch.Some? {
      MatchingKeepsValid(cfg, now, withStatus, [Match(key, registration.extra.instantMatch.value)]);
    }
  }

  /** `advertise` keeps the invariants. */
  lemma AdvertiseKeepsValid(cfg: Config, st: Store, who: AccountId, ad: Advertisement)
    requires Valid(st)
    requires Advertise(cfg, st, who, ad).Ok?
    ensures Valid(Advertise(cfg, st, who, ad).value)
  {
    var st' := Advertise(cfg, st, who, ad).value;
    forall key | key in st'.pricing
      ensures key.0 in st'.restrictions
    {
      PricingAfterLastWins(st.pricing, who, ad.pricing, key);
    }
  }

  /** `report` keeps the invariants. */
  lemma ReportKeepsValid(cfg: Config, now: U64, st: Store, who: AccountId, jobId: JobId, last: bool)
    requires Valid(st)
    requires Report(cfg, now, st, who, jobId, last).Ok?
    ensures Valid(Report(cfg, now, st, who, jobId, last).value.0)
  {
    assert who in st.restrictions;
  }

  /** `deregister` keeps the invariants. */
  lemma DeregisterKeepsValid(now: U64, st: Store, who: AccountId, script: Script)
    requires Valid(st)
    requires Deregister(now, st, who, script).Ok?
    ensures Valid(Deregister(now, st, who, script).value)
  {
  }

  /** `deregister` as written keeps the invariants: it succeeds only where the corrected one does, with the same store. */
  lemma DeregisterAsWrittenKeepsValid(now: U64, st: Store, who: AccountId, script: Script)
    requires Valid(st)
    requires DeregisterAsWritten(now, st, who, script).Ok?
    ensures Valid(DeregisterAsWritten(now, st, who, script).value)
  {
    DeregisterAgreesOnOpenJobs(now, st, who, script);
    DeregisterKeepsValid(now, st, who, script);
  }

  /** `update_allowed_sources` keeps the invariants. */
  lemma UpdateAllowedSourcesKeepsValid(cfg: Config, st: Store, who: AccountId, script: Script,
                                       updates: seq<ListUpdate<AccountId>>)
    requires Valid(st)
    requires UpdateAllowedSources(cfg, st, who, script, updates).Ok?
    ensures Valid(UpdateAllowedSources(cfg, st, who, script, updates).value)
  {
  }

  /** `delete_advertisement` keeps the invariants. */
  lemma DeleteAdvertisementKeepsValid(st: Store, who: AccountId)
    requires Valid(st)
    requires DeleteAdvertisement(st, who).Ok?
    ensures Valid(DeleteAdvertisement(st, who).value)
  {
    assert !HasMatches(st, who);
  }

  /** `acknowledge_match` keeps the invariants. */
  lemma AcknowledgeMatchKeepsValid(st: Store, who: AccountId, jobId: JobId)
    requires Valid(st)
    requires AcknowledgeMatch(st, who, jobId).Ok?
    ensures Valid(AcknowledgeMatch(st, who, jobId).value)
  {
  }

  /** Every call keeps the invariants of the storage. */
  lemma StepKeepsValid(cfg: Config, now: U64, st: Store, who: AccountId, call: Call)
    requires Valid(st)
    requires Step(cfg, now, st, who, call).Ok?
    ensures Valid(Step(cfg, now, st, who, call).value)
  {
    match call
    case RegisterCall(registration) => RegisterKeepsValid(cfg, now, st, who, registration);
    case DeregisterCall(script) => DeregisterAsWrittenKeepsValid(now, st, who, script);
    case UpdateAllowedSourcesCall(script, updates) => UpdateAllowedSourcesKeepsValid(cfg, st, who, script, updates);
    case UpdateRevocationListCall(updates) =>
    case AdvertiseCall(ad) => AdvertiseKeepsValid(cfg, st, who, ad);
    case DeleteAdvertisementCall => DeleteAdvertisementKeepsValid(st, who);
    case ProposeMatchingCall(matches) => MatchingKeepsValid(cfg, now, st, matches);
    case AcknowledgeMatchCall(jobId) => AcknowledgeMatchKeepsValid(st, who, jobId);
    case ReportCall(jobId, last) => ReportKeepsValid(cfg, now, st, who, jobId, last);
  }

  /**
    Only `update_certificate_revocation_list` touches the revocation list,
    and only `advertise` and `delete_advertisement` touch the advertisements
    and their pricing.
    */
  lemma StepFrame(cfg: Config, now: U64, st: Store, who: AccountId, call: Call)
    requires Step(cfg, now, st, who, call).Ok?
    ensures var st' := Step(cfg, now, st, who, call).value;
      !call.UpdateRevocationListCall? ==> st'.revokedCertificates == st.revokedCertificates
    ensures var st' := Step(cfg, now, st, who, call).value;
      !(call.AdvertiseCall? || call.DeleteAdvertisementCall?) ==>
        st'.restrictions == st.restrictions && st'.pricing == st.pricing
  {
    match call {
      case RegisterCall(registration) =>
        var key := JobId(who, registration.script);
        if registration.extra.instantMatch.Some? {
          var stored := st.(registrations := st.registrations[key := registration]);
          var withStatus := stored.(jobStatus := stored.jobStatus[key := Open]);
          MatchingChanges(cfg, now, withStatus, [Match(key, registration.extra.instantMatch.value)]);
        }
      case ProposeMatchingCall(matches) => MatchingChanges(cfg, now, st, matches);
      case _ =>
    }
  }

  /** Any sequence of calls from the empty store ends in a store that keeps the invariants. */
  function Run(cfg: Config, st: Store, calls: seq<(U64, AccountId, Call)>): (r: Store)
    requires Valid(st)
    ensures Valid(r)
    decreases |calls|
  {
    if calls == [] then st
    else
      var (now, who, call) := calls[0];
      match Step(cfg, now, st, who, call)
      case Err(_) => Run(cfg, st, calls[1..])
      case Ok(st1) =>
        StepKeepsValid(cfg, now, st, who, call);
        Run(cfg, st1, calls[1..])
  }
}

=== FILE: fee_manager.dfy ===
/**
  The fee-manager pallet: a versioned table of fee percentages. Every
  update bumps a `u16` version counter and writes the new fee under the new
  version; a version never written reads as the configured default.
  */
module Fees {
  import opened Wrappers
  import opened Arith
  import opened Types

  /** `sp_arithmetic::Percent`: a whole percentage. */
  type Percent = x: int | 0 <= x <= 100

  /** Who dispatches a call: the root origin, or a signed account. */
  datatype Origin = Root | Signed(who: AccountId)

  /** The event of an update: the new version and the fee stored under it. */
  datatype Event = FeeUpdated(version: U16, fee: Percent)

  /** The two storage items as one value: `Version` and the `FeePercentage` map. */
  datatype FeeTable = FeeTable(version: U16, fees: map<U16, Percent>)

  /** `FeePercentage` is a value query: an unwritten version yields the default. */
  function FeeAt(defaultFee: Percent, table: FeeTable, version: U16): (p: Percent)
  {
    if version in table.fees then table.fees[version] else defaultFee
  }

  /**
    `set_fee_percentage` on a value: the counter wraps from `u16::MAX` to 0,
    as release-build arithmetic does, and the fee goes under the new version.
    */
  function SetFee(table: FeeTable, fee: Percent): (r: FeeTable)
    ensures table.version < U16_MAX ==> r.version == table.version + 1
    ensures table.version == U16_MAX ==> r.version == 0
    ensures forall d: Percent :: FeeAt(d, r, r.version) == fee
    ensures forall d: Percent, v: U16 :: v != r.version ==> FeeAt(d, r, v) == FeeAt(d, table, v)
  {
    var version := WrappingIncU16(table.version);
    FeeTable(version, table.fees[version := fee])
  }

  /** The table after a sequence of updates, first to last. */
  function SetFees(table: FeeTable, fees: seq<Percent>): FeeTable
    decreases |fees|
  {
    if fees == [] then table
    else SetFee(SetFees(table, fees[..|fees| - 1]), fees[|fees| - 1])
  }

  /** The table of a new chain: version 0 and nothing written. */
  const Genesis: FeeTable := FeeTable(0, map[])

  /**
    Fewer than 65536 updates from genesis: the version counts the updates,
    version `v` holds the `v`-th fee, and every other version (0 and those
    not reached yet) reads as the default.
    */
  lemma {:induction false} FeeHistory(defaultFee: Percent, fees: seq<Percent>, v: U16)
    requires |fees| <= U16_MAX
    ensures SetFees(Genesis, fees).version == |fees|
    ensures 1 <= v <= |fees| ==> FeeAt(defaultFee, SetFees(Genesis, fees), v) == fees[v - 1]
    ensures v == 0 || v > |fees| ==> FeeAt(defaultFee, SetFees(Genesis, fees), v) == defaultFee
    decreases |fees|
  {
    if fees != [] {
      var prefix := fees[..|fees| - 1];
      FeeHistory(defaultFee, prefix, v);
      if 1 <= v < |fees| {
        assert prefix[v - 1] == fees[v - 1];
      }
    }
  }

  /**
    The counter wraps: the 65536th update writes version 0, which then no
    longer reads as the default, and the 65537th overwrites the fee of
    version 1.
    */
  lemma CounterWraps(defaultFee: Percent, fees: seq<Percent>, f1: Percent, f2: Percent)
    requires |fees| == U16_MAX
    ensures SetFees(Genesis, fees + [f1]).version == 0
    ensures FeeAt(defaultFee, SetFees(Genesis, fees + [f1]), 0) == f1
    ensures SetFees(Genesis, fees + [f1, f2]).version == 1
    ensures FeeAt(defaultFee, SetFees(Genesis, fees + [f1, f2]), 1) == f2
  {
    FeeHistory(defaultFee, fees, 0);
    assert (fees + [f1])[..|fees|] == fees;
    assert (fees + [f1, f2])[..|fees| + 1] == fees + [f1];
  }

  /** The fee manager's storage and its event log, updated in place. */
  class FeeManager {
    const defaultFee: Percent
    var version: U16
    var fees: map<U16, Percent>
    var events: seq<Event>

    function Table(): FeeTable
      reads this
    {
      FeeTable(version, fees)
    }

    /** The `fee_percentage` getter. */
    function FeePercentage(v: U16): (p: Percent)
      reads this
      ensures p == FeeAt(defaultFee, Table(), v)
    {
      if v in fees then fees[v] else defaultFee
    }

    /** The `fee_version` getter. */
    function FeeVersion(): (v: U16)
      reads this
      ensures v == Table().version
    {
      version
    }

    constructor(defaultFee: Percent)
      ensures this.defaultFee == defaultFee
      ensures Table() == Genesis && events == []
    {
      this.defaultFee := defaultFee;
      version := 0;
      fees := map[];
      events := [];
    }

    /** `set_fee_percentage`: bumps the version and stores the fee under it; returns the new version. */
    method SetFeePercentage(fee: Percent) returns (newVersion: U16)
      modifies this
      ensures Table() == SetFee(old(Table()), fee)
      ensures newVersion == version
      ensures events == old(events)
    {
      version := WrappingIncU16(version);
      newVersion := version;
      fees := fees[newVersion := fee];
    }

    /** `update_fee_percentage`: root only; records `FeeUpdated` with the new version and fee. */
    method UpdateFeePercentage(origin: Origin, fee: Percent) returns (r: Result<(), Error>)
      modifies this
      ensures origin != Root ==> r == Err(BadOrigin) && Table() == old(Table()) && events == old(events)
      ensures origin == Root ==>
        && r.Ok?
        && Table() == SetFee(old(Table()), fee)
        && events == old(events) + [FeeUpdated(version, fee)]
    {
      if origin != Root {
        return Err(BadOrigin);
      }
      var newVersion := SetFeePercentage(fee);
      events := events + [FeeUpdated(newVersion, fee)];
      r := Ok(());
    }
  }
}

=== FILE: marketplace.dfy ===
/**
  The marketplace pallet's calls and job hooks, each as a function from the
  store to the new store (or the error that makes the call revert):
  `advertise`, `delete_advertisement`, `propose_matching`,
  `acknowledge_match`, `report`, and the hooks the acurast pallet calls on
  `register`, `deregister` and `update_allowed_sources`.
  */
module Marketplace {
  import opened Wrappers
  import opened Arith
  import opened Scripts
  import opened Types
  import opened Pricing
  import opened MatchEngine

  // ---------------------------------------------------------------------------
  // Job hooks

  /** The tests `register_hook` makes of the schedule, the slots and the reward. */
  predicate RegistrationSchedulable(cfg: Config, now: U64, registration: JobRegistration)
  {
    var schedule := registration.schedule;
    && schedule.duration > 0
    && cfg.executionCount(schedule) <= cfg.maxExecutionsPerJob
    && cfg.executionCount(schedule) > 0
    && schedule.duration < schedule.interval
    && schedule.startTime >= now
    && schedule.startTime <= schedule.endTime
    && registration.extra.slots > 0
    && registration.extra.reward.amount > 0
  }

  /** The schedule, slot and reward tests of `register_hook`, in the source's order. */
  function ScheduleCheck(cfg: Config, now: U64, registration: JobRegistration): (r: Result<(), Error>)
    ensures r.Ok? <==> RegistrationSchedulable(cfg, now, registration)
    ensures r == Err(JobRegistrationZeroDuration) ==> registration.schedule.duration == 0
    ensures r == Err(JobRegistrationScheduleExceedsMaximumExecutions) ==>
      cfg.executionCount(registration.schedule) > cfg.maxExecutionsPerJob
    ensures r == Err(JobRegistrationScheduleContainsZeroExecutions) ==> cfg.executionCount(registration.schedule) == 0
    ensures r == Err(JobRegistrationDurationExceedsInterval) ==>
      registration.schedule.duration >= registration.schedule.interval
    ensures r == Err(JobRegistrationStartInPast) ==> registration.schedule.startTime < now
    ensures r == Err(JobRegistrationEndBeforeStart) ==> registration.schedule.startTime > registration.schedule.endTime
    ensures r == Err(JobRegistrationZeroSlots) ==> registration.extra.slots == 0
    ensures r == Err(JobRegistrationZeroReward) ==> registration.extra.reward.amount == 0
  {
    var schedule := registration.schedule;
    if !(schedule.duration > 0) then Err(JobRegistrationZeroDuration)
    else if !(cfg.executionCount(schedule) <= cfg.maxExecutionsPerJob) then Err(JobRegistrationScheduleExceedsMaximumExecutions)
    else if !(cfg.executionCount(schedule) > 0) then Err(JobRegistrationScheduleContainsZeroExecutions)
    else if !(schedule.duration < schedule.interval) then Err(JobRegistrationDurationExceedsInterval)
    else if !(schedule.startTime >= now) then Err(JobRegistrationStartInPast)
    else if !(schedule.startTime <= schedule.endTime) then Err(JobRegistrationEndBeforeStart)
    else if !(registration.extra.slots > 0) then Err(JobRegistrationZeroSlots)
    else if !(registration.extra.reward.amount > 0) then Err(JobRegistrationZeroReward)
    else Ok(())
  }

  /**
    `register_hook`: validates the schedule, opens (or keeps open) the job's
    status, runs the instant match if one is given, and locks the job's
    whole budget with the reward manager. Returns the new store and the
    locked reward.
    */
  function RegisterHook(cfg: Config, now: U64, st: Store, who: AccountId, registration: JobRegistration)
    : (r: Result<(Store, Reward), Error>)
    ensures ScheduleCheck(cfg, now, registration).Err? ==> r == Err(ScheduleCheck(cfg, now, registration).error)
    ensures r.Ok? ==> RegistrationSchedulable(cfg, now, registration)
    ensures var key := JobId(who, registration.script);
      r.Ok? ==> key !in st.jobStatus || st.jobStatus[key] == Open
    ensures var key := JobId(who, registration.script);
      RegistrationSchedulable(cfg, now, registration) && key in st.jobStatus && st.jobStatus[key] != Open ==>
        r == Err(JobRegistrationUnmodifiable)
    ensures r.Ok? ==>
      && r.value.1.asset == registration.extra.reward.asset
      && r.value.1.amount == JobBudget(cfg, registration)
      && cfg.rewardManagerAccepts(LockReward(r.value.1, who))
    ensures var withStatus := st.(jobStatus := st.jobStatus[JobId(who, registration.script) := Open]);
      r.Ok? && registration.extra.instantMatch.None? ==> r.value.0 == withStatus
    ensures var key := JobId(who, registration.script);
      var withStatus := st.(jobStatus := st.jobStatus[key := Open]);
      r.Ok? && registration.extra.instantMatch.Some? ==>
        && Matching(cfg, now, withStatus, [Match(key, registration.extra.instantMatch.value)]).Ok?
        && r.value.0 == Matching(cfg, now, withStatus, [Match(key, registration.extra.instantMatch.value)]).value.0
    ensures var key := JobId(who, registration.script);
      var withStatus := st.(jobStatus := st.jobStatus[key := Open]);
      var total := TotalRewardAmount(cfg, registration);
      r.Ok? <==>
        && RegistrationSchedulable(cfg, now, registration)
        && (key !in st.jobStatus || st.jobStatus[key] == Open)
        && (registration.extra.instantMatch.Some? ==>
              Matching(cfg, now, withStatus, [Match(key, registration.extra.instantMatch.value)]).Ok?)
        && total.Ok?
        && cfg.rewardManagerAccepts(LockReward(Reward(registration.extra.reward.asset, total.value), who))
    ensures var key := JobId(who, registration.script);
      var withStatus := st.(jobStatus := st.jobStatus[key := Open]);
      var total := TotalRewardAmount(cfg, registration);
      RegistrationSchedulable(cfg, now, registration) && (key !in st.jobStatus || st.jobStatus[key] == Open) ==>
        var matched := if registration.extra.instantMatch.Some?
                       then Matching(cfg, now, withStatus, [Match(key, registration.extra.instantMatch.value)]).Ok?
                       else true;
        && (registration.extra.instantMatch.Some? && !matched ==>
              r == Err(Matching(cfg, now, withStatus, [Match(key, registration.extra.instantMatch.value)]).error))
        && (matched && total.Err? ==> r == Err(total.error))
        && (matched && total.Ok? &&
            !cfg.rewardManagerAccepts(LockReward(Reward(registration.extra.reward.asset, total.value), who)) ==>
              r == Err(RewardManagerFailed))
  {
    var requirements := registration.extra;
    var key := JobId(who, registration.script);
    var checked := ScheduleCheck(cfg, now, registration);
    if checked.Err? then Err(checked.error)
    else if key in st.jobStatus && st.jobStatus[key] != Open then Err(JobRegistrationUnmodifiable)
    else
      var withStatus := if key in st.jobStatus then st else st.(jobStatus := st.jobStatus[key := Open]);
      assert withStatus == st.(jobStatus := st.jobStatus[key := Open]);
      var matched :=
        match requirements.instantMatch
        case None => Ok(withStatus)
        case Some(sources) =>
          match Matching(cfg, now, withStatus, [Match(key, sources)])
          case Err(e) => Err(e)
          case Ok((st', _)) => Ok(st');
      if matched.Err? then Err(matched.error)
      else match TotalRewardAmount(cfg, registration)
        case Err(e) => Err(e)
        case Ok(total) =>
          var reward := Reward(requirements.reward.asset, total);
          if !cfg.rewardManagerAccepts(LockReward(reward, who)) then Err(RewardManagerFailed)
          else Ok((matched.value, reward))
  }

  /** A job may be changed or removed while it is open, or once it is overdue. */
  predicate Deregistrable(now: U64, st: Store, key: JobId)
  {
    key in st.jobStatus &&
    (st.jobStatus[key] == Open || (key in st.registrations && now >= st.registrations[key].schedule.startTime))
  }

  /**
    `deregister_hook`: removes the job's status when the job is open or,
    checked lazily against the stored registration, overdue.
    */
  function DeregisterHook(now: U64, st: Store, who: AccountId, script: Script): (r: Result<Store, Error>)
    ensures r.Ok? <==> Deregistrable(now, st, JobId(who, script))
    ensures r.Ok? ==> r.value == st.(jobStatus := st.jobStatus - {JobId(who, script)})
    ensures JobId(who, script) !in st.jobStatus ==> r == Err(JobStatusNotFound)
    ensures var key := JobId(who, script);
      key in st.jobStatus && st.jobStatus[key] != Open && key !in st.registrations ==> r == Err(JobRegistrationNotFound)
  {
    var key := JobId(who, script);
    if key !in st.jobStatus then Err(JobStatusNotFound)
    else
      var overdue :=
        if st.jobStatus[key] == Open then Ok(true)
        else if key !in st.registrations then Err(JobRegistrationNotFound)
        else Ok(now >= st.registrations[key].schedule.startTime);
      if overdue.Err? then Err(overdue.error)
      else if !overdue.value then Err(JobRegistrationUnmodifiable)
      else Ok(st.(jobStatus := st.jobStatus - {key}))
  }

  /** `update_allowed_sources_hook`: only an open job's sources may change. */
  function UpdateAllowedSourcesHook(st: Store, who: AccountId, script: Script): (r: Result<(), Error>)
    ensures r.Ok? <==> JobId(who, script) in st.jobStatus && st.jobStatus[JobId(who, script)] == Open
    ensures JobId(who, script) !in st.jobStatus ==> r == Err(JobStatusNotFound)
    ensures r.Err? && JobId(who, script) in st.jobStatus ==> r == Err(JobRegistrationUnmodifiable)
  {
    var key := JobId(who, script);
    if key !in st.jobStatus then Err(JobStatusNotFound)
    else if st.jobStatus[key] != Open then Err(JobRegistrationUnmodifiable)
    else Ok(())
  }

  // ---------------------------------------------------------------------------
  // Advertisements

  /**
    The remaining capacity after re-advertising: `(c + new) - old`, where an
    overflowing sum saturates at `i64::MAX` and an overflowing difference
    falls back to 0.
    */
  function AdjustCapacity(remaining: I64, newTotal: U32, oldTotal: U32): (r: I64)
    ensures remaining + newTotal <= I64_MAX && I64_MIN <= remaining + newTotal - oldTotal ==>
      r == remaining + newTotal - oldTotal
    ensures remaining + newTotal <= I64_MAX && remaining + newTotal - oldTotal < I64_MIN ==> r == 0
    ensures remaining + newTotal > I64_MAX ==> r == I64_MAX - oldTotal
  {
    var sum := AddI64(remaining, newTotal);
    var base := if sum.Some? then sum.value else I64_MAX;
    var diff := SubI64(base, oldTotal);
    if diff.Some? then diff.value else 0
  }

  /** The pricing index after storing the variants in order, each under its asset. */
  function PricingAfter(pricing: map<(AccountId, AssetId), PricingVariant>, who: AccountId,
                        variants: seq<PricingVariant>): map<(AccountId, AssetId), PricingVariant>
    decreases |variants|
  {
    if variants == [] then pricing
    else PricingAfter(pricing, who, variants[..|variants| - 1])[(who, variants[|variants| - 1].rewardAsset) := variants[|variants| - 1]]
  }

  /** The first variant whose asset the validator rejects, if any. */
  function FirstRejected(cfg: Config, variants: seq<PricingVariant>): (r: Option<nat>)
    ensures r.None? <==> forall i :: 0 <= i < |variants| ==> cfg.assetValid(variants[i].rewardAsset)
    ensures r.Some? ==> r.value < |variants| && !cfg.assetValid(variants[r.value].rewardAsset)
    decreases |variants|
  {
    if variants == [] then None
    else if !cfg.assetValid(variants[0].rewardAsset) then Some(0)
    else
      match FirstRejected(cfg, variants[1..])
      case None => None
      case Some(i) => Some(i + 1)
  }

  /**
    `advertise`: a non-empty pricing list, the remaining capacity adjusted
    by the change of total capacity, the restriction replaced, and each
    pricing variant stored under its asset; any rejected asset reverts the
    call.
    */
  function Advertise(cfg: Config, st: Store, who: AccountId, ad: Advertisement): (r: Result<Store, Error>)
    ensures r.Ok? <==> |ad.pricing| > 0 && forall i :: 0 <= i < |ad.pricing| ==> cfg.assetValid(ad.pricing[i].rewardAsset)
    ensures |ad.pricing| == 0 ==> r == Err(EmptyPricing)
    ensures r.Err? && |ad.pricing| > 0 ==> r == Err(AssetRejected)
    ensures r.Ok? ==>
      && r.value.restrictions == st.restrictions[who := AdvertisementRestriction(ad.maxMemory, ad.networkRequestQuota,
                                                                               ad.storageCapacity, ad.allowedConsumers)]
      && r.value.pricing == PricingAfter(st.pricing, who, ad.pricing)
      && r.value.capacity.Keys == st.capacity.Keys + {who}
      && r.value == st.(restrictions := r.value.restrictions, pricing := r.value.pricing, capacity := r.value.capacity)
    ensures r.Ok? && who !in st.restrictions ==> r.value.capacity[who] == ad.storageCapacity
    ensures r.Ok? && who in st.restrictions ==>
      r.value.capacity[who] == AdjustCapacity(if who in st.capacity then st.capacity[who] else 0,
                                              ad.storageCapacity, st.restrictions[who].storageCapacity)
  {
    if !(|ad.pricing| > 0) then Err(EmptyPricing)
    else
      var capacity :=
        if who in st.restrictions then
          var previous := st.restrictions[who];
          AdjustCapacity(if who in st.capacity then st.capacity[who] else 0, ad.storageCapacity, previous.storageCapacity)
        else ad.storageCapacity;
      var restriction := AdvertisementRestriction(ad.maxMemory, ad.networkRequestQuota, ad.storageCapacity, ad.allowedConsumers);
      if FirstRejected(cfg, ad.pricing).Some? then Err(AssetRejected)
      else Ok(st.(capacity := st.capacity[who := capacity],
                  restrictions := st.restrictions[who := restriction],
                  pricing := PricingAfter(st.pricing, who, ad.pricing)))
  }

  /**
    After `advertise`, the provider's price in an asset is the last variant
    it listed for that asset; assets it did not list keep their earlier
    price, and other providers' prices are untouched.
    */
  lemma {:induction false} PricingAfterLastWins(pricing: map<(AccountId, AssetId), PricingVariant>, who: AccountId,
                                                variants: seq<PricingVariant>, key: (AccountId, AssetId))
    ensures var after := PricingAfter(pricing, who, variants);
      if key.0 == who && exists i :: 0 <= i < |variants| && variants[i].rewardAsset == key.1 then
        key in after &&
        exists i :: 0 <= i < |variants| && variants[i].rewardAsset == key.1 && after[key] == variants[i] &&
          forall i' :: i < i' < |variants| ==> variants[i'].rewardAsset != key.1
      else
        (key in after <==> key in pricing) && (key in pricing ==> after[key] == pricing[key])
    decreases |variants|
  {
    if variants != [] {
      var n := |variants| - 1;
      var prefix := variants[..n];
      PricingAfterLastWins(pricing, who, prefix, key);
      assert forall i :: 0 <= i < n ==> prefix[i] == variants[i];
      if key.0 == who && key.1 == variants[n].rewardAsset {
        assert variants[n].rewardAsset == key.1;
      } else if key.0 == who && exists i :: 0 <= i < |variants| && variants[i].rewardAsset == key.1 {
        var i :| 0 <= i < |variants| && variants[i].rewardAsset == key.1;
        assert i < n;
      }
    }
  }

  /** `has_matches`: whether any job is assigned to the provider. */
  function HasMatches(st: Store, source: AccountId): (r: bool)
    ensures r <==> exists j :: (source, j) in st.matches
  {
    JobsOf(st.matches, source) != {}
  }

  /**
    `delete_advertisement`: only an advertised provider without assignments
    may withdraw; its restriction, capacity and every pricing variant go.
    */
  function DeleteAdvertisement(st: Store, who: AccountId): (r: Result<Store, Error>)
    ensures who !in st.restrictions ==> r == Err(AdvertisementNotFound)
    ensures who in st.restrictions && HasMatches(st, who) ==> r == Err(CannotDeleteAdvertisementWhileMatched)
    ensures r.Ok? <==> who in st.restrictions && !HasMatches(st, who)
    ensures r.Ok? ==>
      && who !in r.value.restrictions && who !in r.value.capacity
      && (forall key :: key in r.value.pricing <==> key in st.pricing && key.0 != who)
      && r.value == st.(restrictions := st.restrictions - {who}, capacity := st.capacity - {who},
                        pricing := r.value.pricing)
  {
    if who !in st.restrictions then Err(AdvertisementNotFound)
    else if HasMatches(st, who) then Err(CannotDeleteAdvertisementWhileMatched)
    else
      var pricing := map key | key in st.pricing && key.0 != who :: st.pricing[key];
      Ok(st.(pricing := pricing, capacity := st.capacity - {who}, restrictions := st.restrictions - {who}))
  }

  // ---------------------------------------------------------------------------
  // Matching, acknowledgement, reports

  /**
    `propose_matching`: runs the matching and pays the unspent reward to the
    matcher; if the reward manager refuses the payment, the call reverts.
    */
  function ProposeMatching(cfg: Config, now: U64, st: Store, who: AccountId, matches: seq<Match>)
    : (r: Result<(Store, Reward), Error>)
    ensures Matching(cfg, now, st, matches).Err? ==> r == Err(Matching(cfg, now, st, matches).error)
    ensures r.Ok? <==>
      Matching(cfg, now, st, matches).Ok? &&
      cfg.rewardManagerAccepts(PayMatcherReward(Matching(cfg, now, st, matches).value.1, who))
    ensures r.Ok? ==> r.value == Matching(cfg, now, st, matches).value
  {
    match Matching(cfg, now, st, matches)
    case Err(e) => Err(e)
    case Ok((st', remaining)) =>
      if !cfg.rewardManagerAccepts(PayMatcherReward(remaining, who)) then Err(RewardManagerFailed)
      else Ok((st', remaining))
  }

  /** The job status after one more acknowledged slot (a `u8` count that wraps). */
  function Acknowledged(status: JobStatus): (r: Result<JobStatus, Error>)
    ensures status == Open ==> r == Err(CannotAcknowledgeWhenNotMatched)
    ensures status == Matched ==> r == Ok(Assigned(1))
    ensures status.Assigned? && status.count < U8_MAX ==> r == Ok(Assigned(status.count + 1))
    ensures status == Assigned(U8_MAX) ==> r == Ok(Assigned(0))
  {
    match status
    case Open => Err(CannotAcknowledgeWhenNotMatched)
    case Matched => Ok(Assigned(1))
    case Assigned(count) => Ok(Assigned(WrappingIncU8(count)))
  }

  /**
    `acknowledge_match`: the matched provider acknowledges its assignment; the
    first acknowledgement counts one more assigned slot in the job status,
    a repeated one changes nothing.
    */
  function AcknowledgeMatch(st: Store, who: AccountId, jobId: JobId): (r: Result<Store, Error>)
    ensures (who, jobId) !in st.matches ==> r == Err(CannotAcknowledgeWhenNotMatched)
    ensures (who, jobId) in st.matches && st.matches[(who, jobId)].acknowledged ==> r == Ok(st)
    ensures (who, jobId) in st.matches && !st.matches[(who, jobId)].acknowledged && jobId !in st.jobStatus ==>
      r == Err(JobStatusNotFound)
    ensures r.Ok? <==>
      (who, jobId) in st.matches &&
      (st.matches[(who, jobId)].acknowledged || (jobId in st.jobStatus && st.jobStatus[jobId] != Open))
    ensures r.Ok? ==>
      && (who, jobId) in st.matches
      && r.value.matches == st.matches[(who, jobId) := st.matches[(who, jobId)].(acknowledged := true)]
      && (!st.matches[(who, jobId)].acknowledged ==>
            jobId in st.jobStatus && Acknowledged(st.jobStatus[jobId]).Ok? &&
            r.value == st.(matches := r.value.matches, jobStatus := st.jobStatus[jobId := Acknowledged(st.jobStatus[jobId]).value]))
  {
    if (who, jobId) !in st.matches then Err(CannotAcknowledgeWhenNotMatched)
    else
      var assignment := st.matches[(who, jobId)];
      if assignment.acknowledged then
        assert st.matches[(who, jobId) := assignment.(acknowledged := true)] == st.matches;
        Ok(st)
      else if jobId !in st.jobStatus then Err(JobStatusNotFound)
      else match Acknowledged(st.jobStatus[jobId])
        case Err(e) => Err(e)
        case Ok(status) =>
          Ok(st.(matches := st.matches[(who, jobId) := assignment.(acknowledged := true)],
                 jobStatus := st.jobStatus[jobId := status]))
  }

  /** The tests a report passes before anything changes. */
  predicate ReportAccepted(cfg: Config, now: U64, st: Store, who: AccountId, jobId: JobId)
  {
    && (who, jobId) in st.matches
    && st.matches[(who, jobId)].acknowledged
    && st.matches[(who, jobId)].sla.met < st.matches[(who, jobId)].sla.total
    && jobId in st.registrations
    && now + cfg.reportTolerance <= U64_MAX
    && cfg.overlaps(st.registrations[jobId].schedule, st.matches[(who, jobId)].startDelay,
                    now, now + cfg.reportTolerance) == Some(true)
  }

  /**
    `report`: an acknowledged provider reports one execution inside the
    schedule (within the report tolerance), one more met execution is
    counted and the fee per execution paid. The last report removes the
    assignment, the job status and the registration and gives the job's
    storage back to the provider.
    */
  function Report(cfg: Config, now: U64, st: Store, who: AccountId, jobId: JobId, last: bool)
    : (r: Result<(Store, Reward), Error>)
    ensures (who, jobId) !in st.matches ==> r == Err(ReportFromUnassignedSource)
    ensures (who, jobId) in st.matches && !st.matches[(who, jobId)].acknowledged ==> r == Err(CannotReportWhenNotAcknowledged)
    ensures (who, jobId) in st.matches && st.matches[(who, jobId)].acknowledged ==>
      var a := st.matches[(who, jobId)];
      && (a.sla.met >= a.sla.total ==> r == Err(MoreReportsThanExpected))
      && (a.sla.met < a.sla.total && jobId !in st.registrations ==> r == Err(JobRegistrationNotFound))
      && (a.sla.met < a.sla.total && jobId in st.registrations ==>
            var inside := if now + cfg.reportTolerance <= U64_MAX
                          then cfg.overlaps(st.registrations[jobId].schedule, a.startDelay, now, now + cfg.reportTolerance)
                          else None;
            && (inside.None? ==> r == Err(CalculationOverflow))
            && (inside == Some(false) ==> r == Err(ReportOutsideSchedule))
            && (inside == Some(true) && !cfg.rewardManagerAccepts(PayReward(a.feePerExecution, who)) ==>
                  r == Err(RewardManagerFailed)))
    ensures r.Ok? <==>
      ReportAccepted(cfg, now, st, who, jobId) &&
      cfg.rewardManagerAccepts(PayReward(st.matches[(who, jobId)].feePerExecution, who))
    ensures r.Ok? ==> r.value.1 == st.matches[(who, jobId)].feePerExecution
    ensures r.Ok? && !last ==>
      var a := st.matches[(who, jobId)];
      r.value.0 == st.(matches := st.matches[(who, jobId) := a.(sla := a.sla.(met := a.sla.met + 1))])
    ensures r.Ok? && last ==>
      var c := (if who in st.capacity then st.capacity[who] else 0) + st.registrations[jobId].storage;
      r.value.0 == st.(matches := st.matches - {(who, jobId)},
                       jobStatus := st.jobStatus - {jobId},
                       registrations := st.registrations - {jobId},
                       capacity := if c <= I64_MAX then st.capacity[who := c] else st.capacity - {who})
  {
    if (who, jobId) !in st.matches then Err(ReportFromUnassignedSource)
    else
      var assignment := st.matches[(who, jobId)];
      if !assignment.acknowledged then Err(CannotReportWhenNotAcknowledged)
      else if !(assignment.sla.met < assignment.sla.total) then Err(MoreReportsThanExpected)
      else
        var reported := assignment.(sla := assignment.sla.(met := assignment.sla.met + 1));
        if jobId !in st.registrations then Err(JobRegistrationNotFound)
        else
          var registration := st.registrations[jobId];
          var nowMax := AddU64(now, cfg.reportTolerance);
          if nowMax.None? then Err(CalculationOverflow)
          else match cfg.overlaps(registration.schedule, assignment.startDelay, now, nowMax.value)
            case None => Err(CalculationOverflow)
            case Some(inside) =>
              if !inside then Err(ReportOutsideSchedule)
              else
                var st1 := st.(matches := st.matches[(who, jobId) := reported]);
                var st2 :=
                  if last then
                    var freed := AddI64(if who in st1.capacity then st1.capacity[who] else 0, registration.storage);
                    st1.(matches := st1.matches - {(who, jobId)},
                         jobStatus := st1.jobStatus - {jobId},
                         capacity := if freed.Some? then st1.capacity[who := freed.value] else st1.capacity - {who},
                         registrations := st1.registrations - {jobId})
                  else st1;
                if !cfg.rewardManagerAccepts(PayReward(reported.feePerExecution, who)) then Err(RewardManagerFailed)
                else Ok((st2, reported.feePerExecution))
  }
}

=== FILE: matching.dfy ===
/**
  The matching engine of the marketplace pallet: the admission tests of one
  slot, the provider-wide schedule check (`fits_schedule`), and
  `process_matching`, which commits assignments, lowers capacities, marks jobs
  matched and accumulates the unspent reward.

  `Matching` is the reference definition, a left fold over the proposed
  matches and their slots; `ProcessMatching` is the loop of the source, proved
  to compute it. Both work on a `Store` value: a failing call leaves the
  caller's store untouched, as the transactional dispatch of the source does.
  */
module MatchEngine {
  import opened Wrappers
  import opened Arith
  import opened Types
  import opened Whitelist
  import opened Pricing
  import opened ScheduleFit

  // ---------------------------------------------------------------------------
  // fits_schedule

  /**
    The loop of `fits_schedule` from position `i` of the storage order `js`
    of the provider's assigned jobs.
    */
  function FitsFrom(cfg: Config, registrations: map<JobId, JobRegistration>,
                    matches: map<(AccountId, JobId), Assignment>, source: AccountId,
                    schedule: Schedule, startDelay: U64, js: seq<JobId>, i: nat): (r: Result<(), Error>)
    requires i <= |js|
    ensures r.Err? ==> r.error in {JobRegistrationNotFound, CalculationOverflow, ScheduleOverlapInMatch}
    decreases |js| - i
  {
    if i == |js| then Ok(())
    else
      var j := js[i];
      if (source, j) !in matches then FitsFrom(cfg, registrations, matches, source, schedule, startDelay, js, i + 1)
      else if j !in registrations then Err(JobRegistrationNotFound)
      else match PairFits(cfg, schedule, startDelay, registrations[j].schedule, matches[(source, j)].startDelay)
        case Err(e) => Err(e)
        case Ok(_) => FitsFrom(cfg, registrations, matches, source, schedule, startDelay, js, i + 1)
  }

  /** `fits_schedule` as a function: the loop over the provider's assignments in storage order. */
  function FitsAll(cfg: Config, registrations: map<JobId, JobRegistration>,
                   matches: map<(AccountId, JobId), Assignment>, source: AccountId,
                   schedule: Schedule, startDelay: U64): Result<(), Error>
  {
    FitsFrom(cfg, registrations, matches, source, schedule, startDelay, cfg.storageOrder(JobsOf(matches, source)), 0)
  }

  /** Every job assigned to the provider is registered and its schedule fits the new one. */
  ghost predicate FitsEveryAssignment(cfg: Config, registrations: map<JobId, JobRegistration>,
                                      matches: map<(AccountId, JobId), Assignment>, source: AccountId,
                                      schedule: Schedule, startDelay: U64)
  {
    forall j :: (source, j) in matches ==>
      j in registrations &&
      PairFits(cfg, schedule, startDelay, registrations[j].schedule, matches[(source, j)].startDelay).Ok?
  }

  lemma {:induction false} FitsFromOk(cfg: Config, registrations: map<JobId, JobRegistration>,
                                      matches: map<(AccountId, JobId), Assignment>, source: AccountId,
                                      schedule: Schedule, startDelay: U64, js: seq<JobId>, i: nat)
    requires i <= |js|
    ensures FitsFrom(cfg, registrations, matches, source, schedule, startDelay, js, i).Ok? <==>
      forall k :: i <= k < |js| && (source, js[k]) in matches ==>
        js[k] in registrations &&
        PairFits(cfg, schedule, startDelay, registrations[js[k]].schedule, matches[(source, js[k])].startDelay).Ok?
    decreases |js| - i
  {
    if i < |js| {
      FitsFromOk(cfg, registrations, matches, source, schedule, startDelay, js, i + 1);
    }
  }

  /**
    When storage visits each assigned job once, the schedule check passes
    exactly when every job assigned to the provider is registered and fits.
    */
  lemma FitsAllMeaning(cfg: Config, registrations: map<JobId, JobRegistration>,
                       matches: map<(AccountId, JobId), Assignment>, source: AccountId,
                       schedule: Schedule, startDelay: U64)
    requires EnumeratesOnce(cfg.storageOrder(JobsOf(matches, source)), JobsOf(matches, source))
    ensures FitsAll(cfg, registrations, matches, source, schedule, startDelay).Ok? <==>
      FitsEveryAssignment(cfg, registrations, matches, source, schedule, startDelay)
  {
    var js := cfg.storageOrder(JobsOf(matches, source));
    FitsFromOk(cfg, registrations, matches, source, schedule, startDelay, js, 0);
    if FitsAll(cfg, registrations, matches, source, schedule, startDelay).Ok? {
      forall j | (source, j) in matches
        ensures j in registrations &&
          PairFits(cfg, schedule, startDelay, registrations[j].schedule, matches[(source, j)].startDelay).Ok?
      {
        assert j in JobsOf(matches, source);
        var k :| 0 <= k < |js| && js[k] == j;
      }
    }
  }

  /** `fits_schedule`: the loop over the provider's assignments, in storage order. */
  method FitsSchedule(cfg: Config, registrations: map<JobId, JobRegistration>,
                      matches: map<(AccountId, JobId), Assignment>, source: AccountId,
                      schedule: Schedule, startDelay: U64) returns (r: Result<(), Error>)
    ensures r == FitsAll(cfg, registrations, matches, source, schedule, startDelay)
    ensures EnumeratesOnce(cfg.storageOrder(JobsOf(matches, source)), JobsOf(matches, source)) ==>
      (r.Ok? <==> FitsEveryAssignment(cfg, registrations, matches, source, schedule, startDelay))
  {
    var js := cfg.storageOrder(JobsOf(matches, source));
    if EnumeratesOnce(js, JobsOf(matches, source)) {
      FitsAllMeaning(cfg, registrations, matches, source, schedule, startDelay);
    }
    var i := 0;
    while i < |js|
      invariant 0 <= i <= |js|
      invariant FitsFrom(cfg, registrations, matches, source, schedule, startDelay, js, 0)
             == FitsFrom(cfg, registrations, matches, source, schedule, startDelay, js, i)
    {
      var j := js[i];
      if (source, j) in matches {
        var assignment := matches[(source, j)];
        if j !in registrations {
          return Err(JobRegistrationNotFound);
        }
        var other := registrations[j];
        var fit := PairFits(cfg, schedule, startDelay, other.schedule, assignment.startDelay);
        if fit.Err? {
          return Err(fit.error);
        }
      }
      i := i + 1;
    }
    return Ok(());
  }

  // ---------------------------------------------------------------------------
  // Admission of one slot

  /** The attestation test: passes unless the job wants verified sources and this one is not. */
  predicate SourceVerified(cfg: Config, registration: JobRegistration, source: AccountId)
  {
    !registration.allowOnlyVerifiedSources || cfg.isVerified(source)
  }

  /** The last moment the job's executions reach, with the slot's start delay. */
  function LastEnd(registration: JobRegistration, pe: PlannedExecution): int
  {
    registration.schedule.endTime + pe.startDelay
  }

  /** The scheduling-window test overflows `u64`. */
  predicate WindowOverflows(now: U64, window: SchedulingWindow, registration: JobRegistration, pe: PlannedExecution)
  {
    LastEnd(registration, pe) > U64_MAX || (window.Delta? && now + window.delta > U64_MAX)
  }

  /** The provider's window reaches the job's (delayed) end. */
  predicate WindowAdmits(now: U64, window: SchedulingWindow, registration: JobRegistration, pe: PlannedExecution)
  {
    match window
    case End(end) => end >= LastEnd(registration, pe)
    case Delta(delta) => now + delta >= LastEnd(registration, pe)
  }

  /**
    The network quota test, `duration · quota >= network_requests · 1000`,
    where an overflowing product counts as 0.
    */
  predicate QuotaSufficient(registration: JobRegistration, ad: AdvertisementRestriction)
  {
    var offered := registration.schedule.duration * ad.networkRequestQuota;
    registration.networkRequests == 0 || (offered <= U64_MAX && offered >= registration.networkRequests * 1000)
  }

  /**
    The scheduling-window test: `end` (or `now + delta`) must reach the
    job's end plus the slot's start delay, each sum checked.
    */
  function WindowCheck(now: U64, window: SchedulingWindow, registration: JobRegistration, pe: PlannedExecution)
    : (r: Result<bool, Error>)
    ensures r.Err? <==> WindowOverflows(now, window, registration, pe)
    ensures r.Err? ==> r.error == CalculationOverflow
    ensures r.Ok? ==> (r.value <==> WindowAdmits(now, window, registration, pe))
  {
    var lastEnd := AddU64(registration.schedule.endTime, pe.startDelay);
    match window
    case End(end) =>
      if lastEnd.None? then Err(CalculationOverflow) else Ok(end >= lastEnd.value)
    case Delta(delta) =>
      var reach := AddU64(now, delta);
      if reach.None? then Err(CalculationOverflow)
      else if lastEnd.None? then Err(CalculationOverflow)
      else Ok(reach.value >= lastEnd.value)
  }

  /**
    The network quota test with the source's fallbacks: an overflowing
    offer counts as 0, an overflowing demand as `u64::MAX`.
    */
  function QuotaCheck(registration: JobRegistration, ad: AdvertisementRestriction): (r: bool)
    ensures r <==> QuotaSufficient(registration, ad)
  {
    var offered := MulU64(registration.schedule.duration, ad.networkRequestQuota);
    var needed := MulU64(registration.networkRequests, 1000);
    (if offered.Some? then offered.value else 0) >= (if needed.Some? then needed.value else U64_MAX)
  }

  /**
    The admission tests of one slot that read only the advertisements and
    the pricing, which matching never changes.
    */
  ghost predicate StaticAdmissible(cfg: Config, now: U64, restrictions: map<AccountId, AdvertisementRestriction>,
                                   pricing: map<(AccountId, AssetId), PricingVariant>, jobId: JobId,
                                   registration: JobRegistration, pe: PlannedExecution)
  {
    var asset := registration.extra.reward.asset;
    && SourceVerified(cfg, registration, pe.source)
    && pe.source in restrictions
    && (pe.source, asset) in pricing
    && !WindowOverflows(now, pricing[(pe.source, asset)].schedulingWindow, registration, pe)
    && WindowAdmits(now, pricing[(pe.source, asset)].schedulingWindow, registration, pe)
    && restrictions[pe.source].maxMemory >= registration.memory
    && QuotaSufficient(registration, restrictions[pe.source])
    && (registration.allowedSources.Some? ==> pe.source in registration.allowedSources.value)
    && (restrictions[pe.source].allowedConsumers.Some? ==> jobId.owner in restrictions[pe.source].allowedConsumers.value)
  }

  /** All admission tests of one slot: the static ones and a positive remaining capacity. */
  ghost predicate SlotAdmissible(cfg: Config, now: U64, st: Store, jobId: JobId, registration: JobRegistration,
                                 pe: PlannedExecution)
  {
    && StaticAdmissible(cfg, now, st.restrictions, st.pricing, jobId, registration, pe)
    && pe.source in st.capacity
    && st.capacity[pe.source] > 0
  }

  /** What the admission tests read: the advertisement, the pricing and the remaining capacity. */
  datatype Admission = Admission(ad: AdvertisementRestriction, pricing: PricingVariant, capacity: I64)

  /**
    The admission tests of one slot, in the order of the source. The slot is
    admitted exactly when every test passes, and each error names a test
    that failed.
    */
  function AdmitSlot(cfg: Config, now: U64, st: Store, jobId: JobId, registration: JobRegistration,
                     pe: PlannedExecution): (r: Result<Admission, Error>)
    ensures r.Ok? <==> SlotAdmissible(cfg, now, st, jobId, registration, pe)
    ensures r.Ok? ==> r.value == Admission(st.restrictions[pe.source],
                                           st.pricing[(pe.source, registration.extra.reward.asset)],
                                           st.capacity[pe.source])
    ensures r == Err(UnverifiedSourceInMatch) ==> !SourceVerified(cfg, registration, pe.source)
    ensures r == Err(AdvertisementNotFound) ==> pe.source !in st.restrictions
    ensures r == Err(AdvertisementPricingNotFound) ==> (pe.source, registration.extra.reward.asset) !in st.pricing
    ensures r == Err(CalculationOverflow) ==>
      (pe.source, registration.extra.reward.asset) in st.pricing &&
      WindowOverflows(now, st.pricing[(pe.source, registration.extra.reward.asset)].schedulingWindow, registration, pe)
    ensures r == Err(SchedulingWindowExceededInMatch) ==>
      (pe.source, registration.extra.reward.asset) in st.pricing &&
      !WindowAdmits(now, st.pricing[(pe.source, registration.extra.reward.asset)].schedulingWindow, registration, pe)
    ensures r == Err(MaxMemoryExceededInMatch) ==> pe.source in st.restrictions && st.restrictions[pe.source].maxMemory < registration.memory
    ensures r == Err(NetworkRequestQuotaExceededInMatch) ==>
      pe.source in st.restrictions && !QuotaSufficient(registration, st.restrictions[pe.source])
    ensures r == Err(CapacityNotFound) ==> pe.source !in st.capacity
    ensures r == Err(InsufficientStorageCapacityInMatch) ==> pe.source in st.capacity && st.capacity[pe.source] <= 0
    ensures r == Err(SourceNotAllowedInMatch) ==>
      registration.allowedSources.Some? && pe.source !in registration.allowedSources.value
    ensures r == Err(ConsumerNotAllowedInMatch) ==>
      pe.source in st.restrictions &&
      st.restrictions[pe.source].allowedConsumers.Some? &&
      jobId.owner !in st.restrictions[pe.source].allowedConsumers.value
  {
    var source := pe.source;
    var asset := registration.extra.reward.asset;
    if !(!registration.allowOnlyVerifiedSources || cfg.isVerified(source)) then Err(UnverifiedSourceInMatch)
    else if source !in st.restrictions then Err(AdvertisementNotFound)
    else
      var ad := st.restrictions[source];
      if (source, asset) !in st.pricing then Err(AdvertisementPricingNotFound)
      else
        var pricing := st.pricing[(source, asset)];
        var window := WindowCheck(now, pricing.schedulingWindow, registration, pe);
        if window.Err? then Err(window.error)
        else if !window.value then Err(SchedulingWindowExceededInMatch)
        else if !(ad.maxMemory >= registration.memory) then Err(MaxMemoryExceededInMatch)
        else if !QuotaCheck(registration, ad) then Err(NetworkRequestQuotaExceededInMatch)
        else if source !in st.capacity then Err(CapacityNotFound)
        else
          var capacity := st.capacity[source];
          if !(capacity > 0) then Err(InsufficientStorageCapacityInMatch)
          else if !IsSourceWhitelisted(source, registration) then Err(SourceNotAllowedInMatch)
          else if !IsConsumerWhitelisted(jobId.owner, ad.allowedConsumers) then Err(ConsumerNotAllowedInMatch)
          else Ok(Admission(ad, pricing, capacity))
  }

  // ---------------------------------------------------------------------------
  // process_matching, as a fold

  /** `l: u8 = sources.len().try_into().unwrap_or(0)`: a count above 255 reads as 0. */
  function SourceCount(sources: seq<PlannedExecution>): (n: U8)
    ensures |sources| <= U8_MAX ==> n == |sources|
    ensures |sources| > U8_MAX ==> n == 0
  {
    if |sources| <= U8_MAX then |sources| else 0
  }

  /** The assignment a slot commits. */
  function NewAssignment(cfg: Config, registration: JobRegistration, slot: nat, pe: PlannedExecution, fee: U128): Assignment
  {
    Assignment(slot % (U8_MAX + 1), pe.startDelay, Reward(registration.extra.reward.asset, fee), false,
               SLA(cfg.executionCount(registration.schedule), 0))
  }

  /**
    One slot of the inner loop: admission, schedule check, fee, the running
    total fee, the new assignment and the lowered capacity.
    */
  function SlotStep(cfg: Config, now: U64, jobId: JobId, registration: JobRegistration,
                    st: Store, totalFee: U128, slot: nat, pe: PlannedExecution): Result<(Store, U128), Error>
  {
    match AdmitSlot(cfg, now, st, jobId, registration, pe)
    case Err(e) => Err(e)
    case Ok(admission) =>
      match FitsAll(cfg, st.registrations, st.matches, pe.source, registration.schedule, pe.startDelay)
      case Err(e) => Err(e)
      case Ok(_) =>
        match FeePerExecution(registration, admission.pricing)
        case Err(e) => Err(e)
        case Ok(fee) =>
          if !(fee <= registration.extra.reward.amount) then Err(InsufficientRewardInMatch)
          else
            var feeAllExecutions := MulU128(fee, cfg.executionCount(registration.schedule));
            if feeAllExecutions.None? then Err(CalculationOverflow)
            else
              var newTotal := AddU128(totalFee, feeAllExecutions.value);
              if newTotal.None? then Err(CalculationOverflow)
              else if (pe.source, jobId) in st.matches then Err(DuplicateSourceInMatch)
              else
                var remaining := SubI64(admission.capacity, registration.storage);
                var capacity := if remaining.Some? then st.capacity[pe.source := remaining.value]
                                else st.capacity - {pe.source};
                Ok((st.(matches := st.matches[(pe.source, jobId) := NewAssignment(cfg, registration, slot, pe, fee)],
                        capacity := capacity),
                    newTotal.value))
  }

  /** The inner loop, from slot `i` on. */
  function SlotsFrom(cfg: Config, now: U64, jobId: JobId, registration: JobRegistration,
                     st: Store, totalFee: U128, sources: seq<PlannedExecution>, i: nat): Result<(Store, U128), Error>
    requires i <= |sources|
    decreases |sources| - i
  {
    if i == |sources| then Ok((st, totalFee))
    else match SlotStep(cfg, now, jobId, registration, st, totalFee, i, sources[i])
      case Err(e) => Err(e)
      case Ok((st', totalFee')) => SlotsFrom(cfg, now, jobId, registration, st', totalFee', sources, i + 1)
  }

  /** The reward accumulated so far, in the one reward the matched jobs share. */
  datatype Remaining = Remaining(reward: Reward, amount: U128)

  /** One iteration of the outer loop: one proposed match. */
  function JobStep(cfg: Config, now: U64, st: Store, acc: Option<Remaining>, m: Match): (r: Result<(Store, Remaining), Error>)
    ensures m.jobId !in st.registrations ==> r == Err(JobRegistrationNotFound)
    ensures m.jobId in st.registrations && now >= st.registrations[m.jobId].schedule.startTime ==> r == Err(OverdueMatch)
    ensures (m.jobId in st.registrations && now < st.registrations[m.jobId].schedule.startTime &&
             SourceCount(m.sources) != st.registrations[m.jobId].extra.slots) ==> r == Err(IncorrectSourceCountInMatch)
    ensures m.jobId in st.registrations ==>
      var registration := st.registrations[m.jobId];
      now < registration.schedule.startTime && SourceCount(m.sources) == registration.extra.slots ==>
        && (!cfg.assetValid(registration.extra.reward.asset) ==> r == Err(AssetRejected))
        && (cfg.assetValid(registration.extra.reward.asset) ==>
              var slots := SlotsFrom(cfg, now, m.jobId, registration, st, 0, m.sources, 0);
              && (slots.Err? ==> r == Err(slots.error))
              && (slots.Ok? && TotalRewardAmount(cfg, registration).Err? ==> r == Err(TotalRewardAmount(cfg, registration).error))
              && ((slots.Ok? && TotalRewardAmount(cfg, registration).Ok? &&
                   TotalRewardAmount(cfg, registration).value < slots.value.1) ==> r == Err(InsufficientRewardInMatch))
              && ((slots.Ok? && TotalRewardAmount(cfg, registration).Ok? &&
                   slots.value.1 <= TotalRewardAmount(cfg, registration).value &&
                   acc.Some? && acc.value.reward != registration.extra.reward) ==> r == Err(MultipleRewardAssetsInMatch)))
  {
    if m.jobId !in st.registrations then Err(JobRegistrationNotFound)
    else
      var registration := st.registrations[m.jobId];
      var requirements := registration.extra;
      if !(now < registration.schedule.startTime) then Err(OverdueMatch)
      else if SourceCount(m.sources) != requirements.slots then Err(IncorrectSourceCountInMatch)
      else if !cfg.assetValid(requirements.reward.asset) then Err(AssetRejected)
      else match SlotsFrom(cfg, now, m.jobId, registration, st, 0, m.sources, 0)
        case Err(e) => Err(e)
        case Ok((st', totalFee)) =>
          match TotalRewardAmount(cfg, registration)
          case Err(e) => Err(e)
          case Ok(total) =>
            var diff := SubU128(total, totalFee);
            if diff.None? then Err(InsufficientRewardInMatch)
            else
              var acc' :=
                match acc
                case None => Ok(Remaining(requirements.reward, diff.value))
                case Some(a) =>
                  if a.reward != requirements.reward then Err(MultipleRewardAssetsInMatch)
                  else
                    var sum := AddU128(a.amount, diff.value);
                    if sum.None? then Err(CalculationOverflow) else Ok(Remaining(a.reward, sum.value));
              match acc'
              case Err(e) => Err(e)
              case Ok(a') =>
                Ok((st'.(jobStatus := st'.jobStatus[JobId(m.jobId.owner, registration.script) := Matched]), a'))
  }

  /** The outer loop, from match `k` on. */
  function MatchesFrom(cfg: Config, now: U64, st: Store, acc: Option<Remaining>, matches: seq<Match>, k: nat)
    : Result<(Store, Option<Remaining>), Error>
    requires k <= |matches|
    decreases |matches| - k
  {
    if k == |matches| then Ok((st, acc))
    else match JobStep(cfg, now, st, acc, matches[k])
      case Err(e) => Err(e)
      case Ok((st', a)) => MatchesFrom(cfg, now, st', Some(a), matches, k + 1)
  }

  /**
    `process_matching`: the new store and the unspent reward to hand to the
    matcher, or the first error met.
    */
  function Matching(cfg: Config, now: U64, st: Store, matches: seq<Match>): (r: Result<(Store, Reward), Error>)
    ensures matches == [] ==> r == Err(EmptyMatching)
  {
    match MatchesFrom(cfg, now, st, None, matches, 0)
    case Err(e) => Err(e)
    case Ok((st', acc)) =>
      match acc
      case None => Err(EmptyMatching)
      case Some(a) => Ok((st', Reward(a.reward.asset, a.amount)))
  }

  // ---------------------------------------------------------------------------
  // process_matching, as the loops of the source

  /** The body of the inner loop: one slot of one match. */
  method AssignSlot(cfg: Config, now: U64, jobId: JobId, registration: JobRegistration,
                    st: Store, totalFee: U128, slot: nat, pe: PlannedExecution) returns (r: Result<(Store, U128), Error>)
    ensures r == SlotStep(cfg, now, jobId, registration, st, totalFee, slot, pe)
  {
    var admission := AdmitSlot(cfg, now, st, jobId, registration, pe);
    if admission.Err? {
      return Err(admission.error);
    }
    var fit := FitsSchedule(cfg, st.registrations, st.matches, pe.source, registration.schedule, pe.startDelay);
    if fit.Err? {
      return Err(fit.error);
    }
    var fee := FeePerExecution(registration, admission.value.pricing);
    if fee.Err? {
      return Err(fee.error);
    }
    if !(fee.value <= registration.extra.reward.amount) {
      return Err(InsufficientRewardInMatch);
    }
    var feeAllExecutions := MulU128(fee.value, cfg.executionCount(registration.schedule));
    if feeAllExecutions.None? {
      return Err(CalculationOverflow);
    }
    var newTotal := AddU128(totalFee, feeAllExecutions.value);
    if newTotal.None? {
      return Err(CalculationOverflow);
    }
    if (pe.source, jobId) in st.matches {
      return Err(DuplicateSourceInMatch);
    }
    var work := st.(matches := st.matches[(pe.source, jobId) := NewAssignment(cfg, registration, slot, pe, fee.value)]);
    var capacity := SubI64(admission.value.capacity, registration.storage);
    if capacity.Some? {
      work := work.(capacity := work.capacity[pe.source := capacity.value]);
    } else {
      work := work.(capacity := work.capacity - {pe.source});
    }
    return Ok((work, newTotal.value));
  }

  /** The body of the outer loop: one proposed match, with the inner loop over its slots. */
  method MatchJob(cfg: Config, now: U64, st: Store, remaining: Option<Remaining>, m: Match)
    returns (r: Result<(Store, Remaining), Error>)
    ensures r == JobStep(cfg, now, st, remaining, m)
  {
    if m.jobId !in st.registrations {
      return Err(JobRegistrationNotFound);
    }
    var registration := st.registrations[m.jobId];
    var requirements := registration.extra;
    if !(now < registration.schedule.startTime) {
      return Err(OverdueMatch);
    }
    if SourceCount(m.sources) != requirements.slots {
      return Err(IncorrectSourceCountInMatch);
    }
    if !cfg.assetValid(requirements.reward.asset) {
      return Err(AssetRejected);
    }
    var totalFee: U128 := 0;
    var work := st;
    var slot := 0;
    while slot < |m.sources|
      invariant 0 <= slot <= |m.sources|
      invariant SlotsFrom(cfg, now, m.jobId, registration, st, 0, m.sources, 0)
             == SlotsFrom(cfg, now, m.jobId, registration, work, totalFee, m.sources, slot)
    {
      var step := AssignSlot(cfg, now, m.jobId, registration, work, totalFee, slot, m.sources[slot]);
      if step.Err? {
        return Err(step.error);
      }
      work, totalFee := step.value.0, step.value.1;
      slot := slot + 1;
    }
    var total := TotalRewardAmount(cfg, registration);
    if total.Err? {
      return Err(total.error);
    }
    var diff := SubU128(total.value, totalFee);
    if diff.None? {
      return Err(InsufficientRewardInMatch);
    }
    var remaining' := Remaining(requirements.reward, diff.value);
    if remaining.Some? {
      if remaining.value.reward != requirements.reward {
        return Err(MultipleRewardAssetsInMatch);
      }
      var sum := AddU128(remaining.value.amount, diff.value);
      if sum.None? {
        return Err(CalculationOverflow);
      }
      remaining' := Remaining(remaining.value.reward, sum.value);
    }
    return Ok((work.(jobStatus := work.jobStatus[JobId(m.jobId.owner, registration.script) := Matched]), remaining'));
  }

  /** `process_matching`: the loop over the proposed matches. */
  method ProcessMatching(cfg: Config, now: U64, st: Store, matches: seq<Match>) returns (r: Result<(Store, Reward), Error>)
    ensures r == Matching(cfg, now, st, matches)
  {
    var cur := st;
    var remaining: Option<Remaining> := None;
    var k := 0;
    while k < |matches|
      invariant 0 <= k <= |matches|
      invariant MatchesFrom(cfg, now, st, None, matches, 0) == MatchesFrom(cfg, now, cur, remaining, matches, k)
    {
      var step := MatchJob(cfg, now, cur, remaining, matches[k]);
      if step.Err? {
        return Err(step.error);
      }
      cur, remaining := step.value.0, Some(step.value.1);
      k := k + 1;
    }
    if remaining.None? {
      return Err(EmptyMatching);
    }
    return Ok((cur, Reward(remaining.value.reward.asset, remaining.value.amount)));
  }
}

=== FILE: matching_props.dfy ===
/**
  What a successful `process_matching` does to the store: which assignments
  it adds and with which fees, how much capacity it takes, which jobs it
  marks matched, that the unspent reward plus the fees committed equals the
  reward budget of the matched jobs, and that no provider ends up with two
  assignments whose executions collide.
  */
module MatchingProps {
  import opened Wrappers
  import opened Arith
  import opened Types
  import opened Pricing
  import opened ScheduleFit
  import opened MatchEngine

  /** Entries of `m1` survive unchanged in `m2`. */
  ghost predicate Extends<K, V>(m1: map<K, V>, m2: map<K, V>)
  {
    forall key :: key in m1 ==> key in m2 && m2[key] == m1[key]
  }

  /** Storage hands out each assigned job of a provider exactly once. */
  ghost predicate StorageOrderFaithful(cfg: Config)
  {
    forall keys :: EnumeratesOnce(cfg.storageOrder(keys), keys)
  }

  /** The fee per execution a slot is charged: its provider's price for the job. */
  function PlannedFee(registration: JobRegistration, pricing: map<(AccountId, AssetId), PricingVariant>,
                      pe: PlannedExecution): int
  {
    if (pe.source, registration.extra.reward.asset) in pricing
    then FeeFormula(registration, pricing[(pe.source, registration.extra.reward.asset)])
    else 0
  }

  /**
    Slot `i` of the job was admitted and committed: its provider was not yet
    assigned to the job, passes the static admission tests, charges at most
    the reward per execution, and `after` holds its assignment.
    */
  ghost predicate SlotPlanned(cfg: Config, now: U64, restrictions: map<AccountId, AdvertisementRestriction>,
                              pricing: map<(AccountId, AssetId), PricingVariant>,
                              before: map<(AccountId, JobId), Assignment>, after: map<(AccountId, JobId), Assignment>,
                              jobId: JobId, registration: JobRegistration, i: nat, pe: PlannedExecution)
  {
    && (pe.source, jobId) !in before
    && (pe.source, jobId) in after
    && StaticAdmissible(cfg, now, restrictions, pricing, jobId, registration, pe)
    && PlannedFee(registration, pricing, pe) <= registration.extra.reward.amount
    && after[(pe.source, jobId)] == NewAssignment(cfg, registration, i, pe, PlannedFee(registration, pricing, pe))
  }

  /** One successful slot, unfolded: the new assignment, the lowered capacity, the running total. */
  lemma SlotStepOk(cfg: Config, now: U64, jobId: JobId, registration: JobRegistration,
                   st: Store, totalFee: U128, slot: nat, pe: PlannedExecution)
    requires SlotStep(cfg, now, jobId, registration, st, totalFee, slot, pe).Ok?
    ensures var (st1, total1) := SlotStep(cfg, now, jobId, registration, st, totalFee, slot, pe).value;
      var fee := PlannedFee(registration, st.pricing, pe);
      && pe.source in st.capacity && st.capacity[pe.source] > 0
      && (pe.source, jobId) !in st.matches
      && 0 <= fee <= registration.extra.reward.amount
      && total1 == totalFee + fee * cfg.executionCount(registration.schedule)
      && st1 == st.(matches := st.matches[(pe.source, jobId) := NewAssignment(cfg, registration, slot, pe, fee)],
                    capacity := st.capacity[pe.source := st.capacity[pe.source] - registration.storage])
  {
    var admission := AdmitSlot(cfg, now, st, jobId, registration, pe);
    assert admission.Ok?;
    var fee := FeePerExecution(registration, admission.value.pricing);
    assert fee.Ok?;
    assert SubI64(admission.value.capacity, registration.storage).Some?;
  }

  /** A successful slot loop that has not finished took one successful step. */
  lemma SlotsFromNext(cfg: Config, now: U64, jobId: JobId, registration: JobRegistration,
                      st: Store, totalFee: U128, sources: seq<PlannedExecution>, i: nat)
    requires i < |sources|
    requires SlotsFrom(cfg, now, jobId, registration, st, totalFee, sources, i).Ok?
    ensures SlotStep(cfg, now, jobId, registration, st, totalFee, i, sources[i]).Ok?
    ensures var (st1, total1) := SlotStep(cfg, now, jobId, registration, st, totalFee, i, sources[i]).value;
      SlotsFrom(cfg, now, jobId, registration, st, totalFee, sources, i)
        == SlotsFrom(cfg, now, jobId, registration, st1, total1, sources, i + 1)
  {
  }

  /** A successful slot adds exactly the key of its provider and the job, which was absent. */
  lemma SlotStepKeys(cfg: Config, now: U64, jobId: JobId, registration: JobRegistration,
                     st: Store, totalFee: U128, slot: nat, pe: PlannedExecution)
    requires SlotStep(cfg, now, jobId, registration, st, totalFee, slot, pe).Ok?
    ensures var st1 := SlotStep(cfg, now, jobId, registration, st, totalFee, slot, pe).value.0;
      && (pe.source, jobId) !in st.matches
      && st1.matches.Keys == st.matches.Keys + {(pe.source, jobId)}
  {
    SlotStepOk(cfg, now, jobId, registration, st, totalFee, slot, pe);
  }

  /** A successful slot passed the static admission tests and the schedule check. */
  lemma SlotStepAdmits(cfg: Config, now: U64, jobId: JobId, registration: JobRegistration,
                       st: Store, totalFee: U128, slot: nat, pe: PlannedExecution)
    requires SlotStep(cfg, now, jobId, registration, st, totalFee, slot, pe).Ok?
    ensures StaticAdmissible(cfg, now, st.restrictions, st.pricing, jobId, registration, pe)
    ensures FitsAll(cfg, st.registrations, st.matches, pe.source, registration.schedule, pe.startDelay).Ok?
  {
    assert AdmitSlot(cfg, now, st, jobId, registration, pe).Ok?;
  }

  /** Matching only ever adds assignments and keeps the providers with capacity. */
  lemma {:induction false} SlotsFromFrame(cfg: Config, now: U64, jobId: JobId, registration: JobRegistration,
                                          st: Store, totalFee: U128, sources: seq<PlannedExecution>, i: nat)
    requires i <= |sources|
    requires SlotsFrom(cfg, now, jobId, registration, st, totalFee, sources, i).Ok?
    ensures var st' := SlotsFrom(cfg, now, jobId, registration, st, totalFee, sources, i).value.0;
      && st' == st.(matches := st'.matches, capacity := st'.capacity)
      && Extends(st.matches, st'.matches)
      && st'.capacity.Keys == st.capacity.Keys
      && (forall key :: key in st'.matches ==>
            key in st.matches || (key.1 == jobId && exists i' :: i <= i' < |sources| && key.0 == sources[i'].source))
    decreases |sources| - i
  {
    if i < |sources| {
      SlotStepOk(cfg, now, jobId, registration, st, totalFee, i, sources[i]);
      var (st1, total1) := SlotStep(cfg, now, jobId, registration, st, totalFee, i, sources[i]).value;
      SlotsFromFrame(cfg, now, jobId, registration, st1, total1, sources, i + 1);
    }
  }

  /** Every slot of the job ends up assigned as planned. */
  lemma {:induction false} SlotsFromAssigns(cfg: Config, now: U64, jobId: JobId, registration: JobRegistration,
                                            st: Store, totalFee: U128, sources: seq<PlannedExecution>, i: nat)
    requires i <= |sources|
    requires SlotsFrom(cfg, now, jobId, registration, st, totalFee, sources, i).Ok?
    ensures var st' := SlotsFrom(cfg, now, jobId, registration, st, totalFee, sources, i).value.0;
      forall i' :: i <= i' < |sources| ==>
        SlotPlanned(cfg, now, st.restrictions, st.pricing, st.matches, st'.matches, jobId, registration, i', sources[i'])
    decreases |sources| - i
  {
    if i < |sources| {
      SlotStepOk(cfg, now, jobId, registration, st, totalFee, i, sources[i]);
      var (st1, total1) := SlotStep(cfg, now, jobId, registration, st, totalFee, i, sources[i]).value;
      SlotsFromAssigns(cfg, now, jobId, registration, st1, total1, sources, i + 1);
      SlotsFromFrame(cfg, now, jobId, registration, st1, total1, sources, i + 1);
      var st' := SlotsFrom(cfg, now, jobId, registration, st1, total1, sources, i + 1).value.0;
      assert SlotsFrom(cfg, now, jobId, registration, st, totalFee, sources, i).value.0 == st';
      SlotStepAdmits(cfg, now, jobId, registration, st, totalFee, i, sources[i]);
      assert st1.restrictions == st.restrictions && st1.pricing == st.pricing;
      assert SlotPlanned(cfg, now, st.restrictions, st.pricing, st.matches, st1.matches, jobId, registration, i, sources[i]);
      SlotPlannedMoves(cfg, now, st.restrictions, st.pricing, st.matches, st.matches, st1.matches, st'.matches,
                       jobId, registration, i, sources[i]);
      forall i' | i < i' < |sources|
        ensures SlotPlanned(cfg, now, st.restrictions, st.pricing, st.matches, st'.matches, jobId, registration, i', sources[i'])
      {
        SlotPlannedMoves(cfg, now, st.restrictions, st.pricing, st.matches, st1.matches, st'.matches, st'.matches,
                         jobId, registration, i', sources[i']);
      }
    }
  }

  /** The fees per execution committed for slots `i..` of a job, as recorded in `assignments`. */
  function CommittedFees(assignments: map<(AccountId, JobId), Assignment>, jobId: JobId,
                         sources: seq<PlannedExecution>, i: nat): int
    requires i <= |sources|
    decreases |sources| - i
  {
    if i == |sources| then 0
    else
      (if (sources[i].source, jobId) in assignments then assignments[(sources[i].source, jobId)].feePerExecution.amount else 0)
      + CommittedFees(assignments, jobId, sources, i + 1)
  }

  /** Committed fees read the same from any store that keeps the job's assignments. */
  lemma {:induction false} CommittedFeesStable(m1: map<(AccountId, JobId), Assignment>, m2: map<(AccountId, JobId), Assignment>,
                                               jobId: JobId, sources: seq<PlannedExecution>, i: nat)
    requires i <= |sources|
    requires Extends(m1, m2)
    requires forall i' :: i <= i' < |sources| ==> (sources[i'].source, jobId) in m1
    ensures CommittedFees(m1, jobId, sources, i) == CommittedFees(m2, jobId, sources, i)
    decreases |sources| - i
  {
    if i < |sources| {
      CommittedFeesStable(m1, m2, jobId, sources, i + 1);
    }
  }

  /**
    Helper: multiplication distributes over addition, stated apart so that
    `SlotsFromFees` gets it without non-linear reasoning in its own context.
    */
  lemma Distributes(a: int, b: int, c: int)
    ensures (a + b) * c == a * c + b * c
  {
  }

  /** The running total fee of a job is the sum of the committed fees times the execution count. */
  lemma {:induction false} SlotsFromFees(cfg: Config, now: U64, jobId: JobId, registration: JobRegistration,
                                         st: Store, totalFee: U128, sources: seq<PlannedExecution>, i: nat)
    requires i <= |sources|
    requires SlotsFrom(cfg, now, jobId, registration, st, totalFee, sources, i).Ok?
    ensures var (st', total') := SlotsFrom(cfg, now, jobId, registration, st, totalFee, sources, i).value;
      total' == totalFee + CommittedFees(st'.matches, jobId, sources, i) * cfg.executionCount(registration.schedule)
    decreases |sources| - i
  {
    if i < |sources| {
      SlotStepOk(cfg, now, jobId, registration, st, totalFee, i, sources[i]);
      var (st1, total1) := SlotStep(cfg, now, jobId, registration, st, totalFee, i, sources[i]).value;
      var (st', total') := SlotsFrom(cfg, now, jobId, registration, st1, total1, sources, i + 1).value;
      SlotsFromFees(cfg, now, jobId, registration, st1, total1, sources, i + 1);
      SlotsFromFrame(cfg, now, jobId, registration, st1, total1, sources, i + 1);
      var fee := PlannedFee(registration, st.pricing, sources[i]);
      var ec := cfg.executionCount(registration.schedule);
      var rest := CommittedFees(st'.matches, jobId, sources, i + 1);
      assert SlotsFrom(cfg, now, jobId, registration, st, totalFee, sources, i).value == (st', total');
      assert st'.matches[(sources[i].source, jobId)].feePerExecution.amount == fee;
      assert CommittedFees(st'.matches, jobId, sources, i) == fee + rest;
      Distributes(fee, rest, ec);
    }
  }

  /** The storage slots `i..` of a job ask of provider `source`. */
  function SlotDemand(sources: seq<PlannedExecution>, i: nat, source: AccountId, storage: U32): nat
    requires i <= |sources|
    decreases |sources| - i
  {
    if i == |sources| then 0
    else (if sources[i].source == source then storage else 0) + SlotDemand(sources, i + 1, source, storage)
  }

  /** Each slot takes the job's storage from its provider's capacity. */
  lemma {:induction false} SlotsFromCapacity(cfg: Config, now: U64, jobId: JobId, registration: JobRegistration,
                                             st: Store, totalFee: U128, sources: seq<PlannedExecution>, i: nat)
    requires i <= |sources|
    requires SlotsFrom(cfg, now, jobId, registration, st, totalFee, sources, i).Ok?
    ensures var st' := SlotsFrom(cfg, now, jobId, registration, st, totalFee, sources, i).value.0;
      forall s :: s in st.capacity ==>
        s in st'.capacity && st'.capacity[s] == st.capacity[s] - SlotDemand(sources, i, s, registration.storage)
    decreases |sources| - i
  {
    if i < |sources| {
      SlotStepOk(cfg, now, jobId, registration, st, totalFee, i, sources[i]);
      var (st1, total1) := SlotStep(cfg, now, jobId, registration, st, totalFee, i, sources[i]).value;
      SlotsFromCapacity(cfg, now, jobId, registration, st1, total1, sources, i + 1);
      var st' := SlotsFrom(cfg, now, jobId, registration, st1, total1, sources, i + 1).value.0;
      assert SlotsFrom(cfg, now, jobId, registration, st, totalFee, sources, i).value.0 == st';
    }
  }

  /**
    No provider holds two assignments whose schedules the schedule check
    would refuse to combine: for every two distinct jobs of one provider the
    check passes in at least one direction.
    */
  ghost predicate Separated(cfg: Config, registrations: map<JobId, JobRegistration>,
                            matches: map<(AccountId, JobId), Assignment>)
  {
    forall s, j1, j2 :: (s, j1) in matches && (s, j2) in matches && j1 != j2 ==>
      && j1 in registrations && j2 in registrations
      && (PairFits(cfg, registrations[j1].schedule, matches[(s, j1)].startDelay,
                   registrations[j2].schedule, matches[(s, j2)].startDelay).Ok?
          || PairFits(cfg, registrations[j2].schedule, matches[(s, j2)].startDelay,
                      registrations[j1].schedule, matches[(s, j1)].startDelay).Ok?)
  }

  /** Inserting an assignment that fits every assignment of its provider keeps the assignments separated. */
  lemma InsertSeparated(cfg: Config, registrations: map<JobId, JobRegistration>,
                        matches: map<(AccountId, JobId), Assignment>, source: AccountId, jobId: JobId,
                        assignment: Assignment)
    requires jobId in registrations
    requires Separated(cfg, registrations, matches)
    requires FitsEveryAssignment(cfg, registrations, matches, source,
                                 registrations[jobId].schedule, assignment.startDelay)
    ensures Separated(cfg, registrations, matches[(source, jobId) := assignment])
  {
    var matches1 := matches[(source, jobId) := assignment];
    forall s, j1, j2 | (s, j1) in matches1 && (s, j2) in matches1 && j1 != j2
      ensures j1 in registrations && j2 in registrations
      ensures PairFits(cfg, registrations[j1].schedule, matches1[(s, j1)].startDelay,
                       registrations[j2].schedule, matches1[(s, j2)].startDelay).Ok?
           || PairFits(cfg, registrations[j2].schedule, matches1[(s, j2)].startDelay,
                       registrations[j1].schedule, matches1[(s, j1)].startDelay).Ok?
    {
      if (s, j1) == (source, jobId) {
        assert (s, j2) in matches;
      } else if (s, j2) == (source, jobId) {
        assert (s, j1) in matches;
      }
    }
  }

  /** A committed slot keeps the providers' assignments separated. */
  lemma SlotStepSeparated(cfg: Config, now: U64, jobId: JobId, registration: JobRegistration,
                          st: Store, totalFee: U128, slot: nat, pe: PlannedExecution)
    requires StorageOrderFaithful(cfg)
    requires jobId in st.registrations && st.registrations[jobId] == registration
    requires Separated(cfg, st.registrations, st.matches)
    requires SlotStep(cfg, now, jobId, registration, st, totalFee, slot, pe).Ok?
    ensures var st1 := SlotStep(cfg, now, jobId, registration, st, totalFee, slot, pe).value.0;
      Separated(cfg, st1.registrations, st1.matches)
  {
    SlotStepOk(cfg, now, jobId, registration, st, totalFee, slot, pe);
    SlotStepAdmits(cfg, now, jobId, registration, st, totalFee, slot, pe);
    assert EnumeratesOnce(cfg.storageOrder(JobsOf(st.matches, pe.source)), JobsOf(st.matches, pe.source));
    FitsAllMeaning(cfg, st.registrations, st.matches, pe.source, registration.schedule, pe.startDelay);
    var fee := PlannedFee(registration, st.pricing, pe);
    InsertSeparated(cfg, st.registrations, st.matches, pe.source, jobId, NewAssignment(cfg, registration, slot, pe, fee));
  }

  /** The slot loop of a job keeps the providers' assignments separated. */
  lemma {:induction false} SlotsFromSeparated(cfg: Config, now: U64, jobId: JobId, registration: JobRegistration,
                                              st: Store, totalFee: U128, sources: seq<PlannedExecution>, i: nat)
    requires i <= |sources|
    requires StorageOrderFaithful(cfg)
    requires jobId in st.registrations && st.registrations[jobId] == registration
    requires Separated(cfg, st.registrations, st.matches)
    requires SlotsFrom(cfg, now, jobId, registration, st, totalFee, sources, i).Ok?
    ensures var st' := SlotsFrom(cfg, now, jobId, registration, st, totalFee, sources, i).value.0;
      Separated(cfg, st'.registrations, st'.matches)
    decreases |sources| - i
  {
    if i < |sources| {
      SlotStepOk(cfg, now, jobId, registration, st, totalFee, i, sources[i]);
      SlotStepSeparated(cfg, now, jobId, registration, st, totalFee, i, sources[i]);
      var (st1, total1) := SlotStep(cfg, now, jobId, registration, st, totalFee, i, sources[i]).value;
      SlotsFromSeparated(cfg, now, jobId, registration, st1, total1, sources, i + 1);
    }
  }

  // ---------------------------------------------------------------------------
  // The loop over matches

  /** The job-level tests a match passed. */
  predicate JobAccepted(cfg: Config, now: U64, registration: JobRegistration, m: Match)
  {
    && now < registration.schedule.startTime
    && SourceCount(m.sources) == registration.extra.slots
    && cfg.assetValid(registration.extra.reward.asset)
  }

  function AccAmount(acc: Option<Remaining>): int
  {
    if acc.Some? then acc.value.amount else 0
  }

  /** One successful match, unfolded. */
  lemma JobStepOk(cfg: Config, now: U64, st: Store, acc: Option<Remaining>, m: Match)
    requires JobStep(cfg, now, st, acc, m).Ok?
    ensures m.jobId in st.registrations
    ensures var registration := st.registrations[m.jobId];
      var (st1, a1) := JobStep(cfg, now, st, acc, m).value;
      && JobAccepted(cfg, now, registration, m)
      && SlotsFrom(cfg, now, m.jobId, registration, st, 0, m.sources, 0).Ok?
      && var (st2, totalFee) := SlotsFrom(cfg, now, m.jobId, registration, st, 0, m.sources, 0).value;
         && st1 == st2.(jobStatus := st2.jobStatus[JobId(m.jobId.owner, registration.script) := Matched])
         && totalFee <= JobBudget(cfg, registration)
         && a1.reward == registration.extra.reward
         && a1.amount == AccAmount(acc) + JobBudget(cfg, registration) - totalFee
         && (acc.Some? ==> acc.value.reward == registration.extra.reward)
  {
    var registration := st.registrations[m.jobId];
    assert TotalRewardAmount(cfg, registration).Ok?;
  }

  /** The status keys `(owner, script)` of matches `k..` whose jobs are registered. */
  function MatchedJobs(registrations: map<JobId, JobRegistration>, matches: seq<Match>, k: nat): set<JobId>
    requires k <= |matches|
    decreases |matches| - k
  {
    if k == |matches| then {}
    else
      (if matches[k].jobId in registrations
       then {JobId(matches[k].jobId.owner, registrations[matches[k].jobId].script)} else {})
      + MatchedJobs(registrations, matches, k + 1)
  }

  /**
    Matching changes only assignments, capacities and job statuses; it adds
    only the proposed slots' assignments, keeps the set of providers with a
    capacity and marks exactly the matched jobs `Matched`.
    */
  lemma {:induction false} MatchesFromFrame(cfg: Config, now: U64, st: Store, acc: Option<Remaining>,
                                            matches: seq<Match>, k: nat)
    requires k <= |matches|
    requires MatchesFrom(cfg, now, st, acc, matches, k).Ok?
    ensures var st' := MatchesFrom(cfg, now, st, acc, matches, k).value.0;
      && st' == st.(matches := st'.matches, capacity := st'.capacity, jobStatus := st'.jobStatus)
      && Extends(st.matches, st'.matches)
      && st'.capacity.Keys == st.capacity.Keys
      && (forall key :: key in st'.matches ==>
            key in st.matches ||
            exists k', i' :: k <= k' < |matches| && 0 <= i' < |matches[k'].sources| &&
              key == (matches[k'].sources[i'].source, matches[k'].jobId))
      && (forall j :: j in st'.jobStatus <==> j in st.jobStatus || j in MatchedJobs(st.registrations, matches, k))
      && (forall j :: j in st'.jobStatus ==>
            st'.jobStatus[j] == if j in MatchedJobs(st.registrations, matches, k) then Matched else st.jobStatus[j])
    decreases |matches| - k
  {
    if k < |matches| {
      var m := matches[k];
      JobStepOk(cfg, now, st, acc, m);
      var registration := st.registrations[m.jobId];
      SlotsFromFrame(cfg, now, m.jobId, registration, st, 0, m.sources, 0);
      var (st1, a1) := JobStep(cfg, now, st, acc, m).value;
      MatchesFromFrame(cfg, now, st1, Some(a1), matches, k + 1);
      var st' := MatchesFrom(cfg, now, st1, Some(a1), matches, k + 1).value.0;
      assert MatchesFrom(cfg, now, st, acc, matches, k).value.0 == st';
      forall key | key in st'.matches
        ensures key in st.matches ||
          exists k', i' :: k <= k' < |matches| && 0 <= i' < |matches[k'].sources| &&
            key == (matches[k'].sources[i'].source, matches[k'].jobId)
      {
        if key !in st1.matches {
          var k', i' :| k + 1 <= k' < |matches| && 0 <= i' < |matches[k'].sources| &&
            key == (matches[k'].sources[i'].source, matches[k'].jobId);
        } else if key !in st.matches {
          var i' :| 0 <= i' < |m.sources| && key.0 == m.sources[i'].source;
          assert key == (matches[k].sources[i'].source, matches[k].jobId);
        }
      }
    }
  }

  /**
    Every proposed match names a registered job that passed the job-level
    tests and asks for the same reward as the first match.
    */
  lemma {:induction false} MatchesFromAccepts(cfg: Config, now: U64, st: Store, acc: Option<Remaining>,
                                              matches: seq<Match>, k: nat, reward: Reward)
    requires k <= |matches|
    requires acc.Some? ==> acc.value.reward == reward
    requires acc.None? && k < |matches| && matches[k].jobId in st.registrations ==>
      st.registrations[matches[k].jobId].extra.reward == reward
    requires MatchesFrom(cfg, now, st, acc, matches, k).Ok?
    ensures var (st', acc') := MatchesFrom(cfg, now, st, acc, matches, k).value;
      && (k < |matches| ==> acc'.Some?)
      && (acc'.Some? ==> acc'.value.reward == reward)
      && forall k' :: k <= k' < |matches| ==>
           matches[k'].jobId in st.registrations &&
           JobAccepted(cfg, now, st.registrations[matches[k'].jobId], matches[k']) &&
           st.registrations[matches[k'].jobId].extra.reward == reward
    decreases |matches| - k
  {
    if k < |matches| {
      var m := matches[k];
      JobStepOk(cfg, now, st, acc, m);
      SlotsFromFrame(cfg, now, m.jobId, st.registrations[m.jobId], st, 0, m.sources, 0);
      var (st1, a1) := JobStep(cfg, now, st, acc, m).value;
      MatchesFromAccepts(cfg, now, st1, Some(a1), matches, k + 1, reward);
      MatchesFromFrame(cfg, now, st1, Some(a1), matches, k + 1);
      assert MatchesFrom(cfg, now, st, acc, matches, k) == MatchesFrom(cfg, now, st1, Some(a1), matches, k + 1);
    }
  }

  lemma SlotPlannedMoves(cfg: Config, now: U64, restrictions: map<AccountId, AdvertisementRestriction>,
                         pricing: map<(AccountId, AssetId), PricingVariant>,
                         before0: map<(AccountId, JobId), Assignment>, before1: map<(AccountId, JobId), Assignment>,
                         after1: map<(AccountId, JobId), Assignment>, after2: map<(AccountId, JobId), Assignment>,
                         jobId: JobId, registration: JobRegistration, i: nat, pe: PlannedExecution)
    requires SlotPlanned(cfg, now, restrictions, pricing, before1, after1, jobId, registration, i, pe)
    requires before0.Keys <= before1.Keys
    requires Extends(after1, after2)
    ensures SlotPlanned(cfg, now, restrictions, pricing, before0, after2, jobId, registration, i, pe)
  {
  }

  /** Every slot of match `m` was admitted and is assigned as planned. */
  ghost predicate MatchPlanned(cfg: Config, now: U64, st: Store, after: map<(AccountId, JobId), Assignment>, m: Match)
  {
    && m.jobId in st.registrations
    && forall i :: 0 <= i < |m.sources| ==>
         SlotPlanned(cfg, now, st.restrictions, st.pricing, st.matches, after,
                     m.jobId, st.registrations[m.jobId], i, m.sources[i])
  }

  lemma MatchPlannedMoves(cfg: Config, now: U64, st0: Store, st1: Store,
                          after1: map<(AccountId, JobId), Assignment>, after2: map<(AccountId, JobId), Assignment>, m: Match)
    requires MatchPlanned(cfg, now, st1, after1, m)
    requires st0.registrations == st1.registrations && st0.restrictions == st1.restrictions && st0.pricing == st1.pricing
    requires st0.matches.Keys <= st1.matches.Keys
    requires Extends(after1, after2)
    ensures MatchPlanned(cfg, now, st0, after2, m)
  {
    forall i | 0 <= i < |m.sources|
      ensures SlotPlanned(cfg, now, st0.restrictions, st0.pricing, st0.matches, after2,
                          m.jobId, st0.registrations[m.jobId], i, m.sources[i])
    {
      SlotPlannedMoves(cfg, now, st0.restrictions, st0.pricing, st0.matches, st1.matches, after1, after2,
                       m.jobId, st0.registrations[m.jobId], i, m.sources[i]);
    }
  }

  /** Every slot of every proposed match ends up assigned as planned. */
  lemma {:induction false} MatchesFromAssigns(cfg: Config, now: U64, st: Store, acc: Option<Remaining>,
                                              matches: seq<Match>, k: nat)
    requires k <= |matches|
    requires MatchesFrom(cfg, now, st, acc, matches, k).Ok?
    ensures var st' := MatchesFrom(cfg, now, st, acc, matches, k).value.0;
      forall k' :: k <= k' < |matches| ==> MatchPlanned(cfg, now, st, st'.matches, matches[k'])
    decreases |matches| - k
  {
    if k < |matches| {
      var m := matches[k];
      JobStepOk(cfg, now, st, acc, m);
      var registration := st.registrations[m.jobId];
      SlotsFromFrame(cfg, now, m.jobId, registration, st, 0, m.sources, 0);
      SlotsFromAssigns(cfg, now, m.jobId, registration, st, 0, m.sources, 0);
      var st2 := SlotsFrom(cfg, now, m.jobId, registration, st, 0, m.sources, 0).value.0;
      var (st1, a1) := JobStep(cfg, now, st, acc, m).value;
      MatchesFromAssigns(cfg, now, st1, Some(a1), matches, k + 1);
      MatchesFromFrame(cfg, now, st1, Some(a1), matches, k + 1);
      var st' := MatchesFrom(cfg, now, st1, Some(a1), matches, k + 1).value.0;
      assert MatchesFrom(cfg, now, st, acc, matches, k).value.0 == st';
      assert MatchPlanned(cfg, now, st, st2.matches, m);
      MatchPlannedMoves(cfg, now, st, st, st2.matches, st'.matches, m);
      forall k' | k < k' < |matches|
        ensures MatchPlanned(cfg, now, st, st'.matches, matches[k'])
      {
        MatchPlannedMoves(cfg, now, st, st1, st'.matches, st'.matches, matches[k']);
      }
    }
  }

  /** The storage matches `k..` ask of provider `source`. */
  function Demand(registrations: map<JobId, JobRegistration>, matches: seq<Match>, k: nat, source: AccountId): nat
    requires k <= |matches|
    decreases |matches| - k
  {
    if k == |matches| then 0
    else
      (if matches[k].jobId in registrations
       then SlotDemand(matches[k].sources, 0, source, registrations[matches[k].jobId].storage) else 0)
      + Demand(registrations, matches, k + 1, source)
  }

  /** Every provider loses exactly the storage its new slots ask for. */
  lemma {:induction false} MatchesFromCapacity(cfg: Config, now: U64, st: Store, acc: Option<Remaining>,
                                               matches: seq<Match>, k: nat)
    requires k <= |matches|
    requires MatchesFrom(cfg, now, st, acc, matches, k).Ok?
    ensures var st' := MatchesFrom(cfg, now, st, acc, matches, k).value.0;
      forall s :: s in st.capacity ==>
        s in st'.capacity && st'.capacity[s] == st.capacity[s] - Demand(st.registrations, matches, k, s)
    decreases |matches| - k
  {
    if k < |matches| {
      var m := matches[k];
      JobStepOk(cfg, now, st, acc, m);
      var registration := st.registrations[m.jobId];
      SlotsFromFrame(cfg, now, m.jobId, registration, st, 0, m.sources, 0);
      SlotsFromCapacity(cfg, now, m.jobId, registration, st, 0, m.sources, 0);
      var (st1, a1) := JobStep(cfg, now, st, acc, m).value;
      MatchesFromCapacity(cfg, now, st1, Some(a1), matches, k + 1);
      var st' := MatchesFrom(cfg, now, st1, Some(a1), matches, k + 1).value.0;
      assert MatchesFrom(cfg, now, st, acc, matches, k).value.0 == st';
      assert st1.registrations == st.registrations;
    }
  }

  /** The fees matches `k..` commit, over all their executions, as recorded in `assignments`. */
  function PaidFees(cfg: Config, registrations: map<JobId, JobRegistration>,
                    assignments: map<(AccountId, JobId), Assignment>, matches: seq<Match>, k: nat): int
    requires k <= |matches|
    decreases |matches| - k
  {
    if k == |matches| then 0
    else
      (if matches[k].jobId in registrations
       then CommittedFees(assignments, matches[k].jobId, matches[k].sources, 0)
            * cfg.executionCount(registrations[matches[k].jobId].schedule)
       else 0)
      + PaidFees(cfg, registrations, assignments, matches, k + 1)
  }

  /** The reward budget of the jobs of matches `k..`. */
  function TotalBudget(cfg: Config, registrations: map<JobId, JobRegistration>, matches: seq<Match>, k: nat): int
    requires k <= |matches|
    decreases |matches| - k
  {
    if k == |matches| then 0
    else
      (if matches[k].jobId in registrations then JobBudget(cfg, registrations[matches[k].jobId]) else 0)
      + TotalBudget(cfg, registrations, matches, k + 1)
  }

  /** The accumulated reward plus the committed fees is the budget of the matched jobs. */
  lemma {:induction false} MatchesFromConserves(cfg: Config, now: U64, st: Store, acc: Option<Remaining>,
                                                matches: seq<Match>, k: nat)
    requires k <= |matches|
    requires MatchesFrom(cfg, now, st, acc, matches, k).Ok?
    ensures var (st', acc') := MatchesFrom(cfg, now, st, acc, matches, k).value;
      AccAmount(acc') + PaidFees(cfg, st.registrations, st'.matches, matches, k)
        == AccAmount(acc) + TotalBudget(cfg, st.registrations, matches, k)
    decreases |matches| - k
  {
    if k < |matches| {
      var m := matches[k];
      JobStepOk(cfg, now, st, acc, m);
      var registration := st.registrations[m.jobId];
      SlotsFromFrame(cfg, now, m.jobId, registration, st, 0, m.sources, 0);
      SlotsFromAssigns(cfg, now, m.jobId, registration, st, 0, m.sources, 0);
      SlotsFromFees(cfg, now, m.jobId, registration, st, 0, m.sources, 0);
      var (st2, totalFee) := SlotsFrom(cfg, now, m.jobId, registration, st, 0, m.sources, 0).value;
      var (st1, a1) := JobStep(cfg, now, st, acc, m).value;
      MatchesFromConserves(cfg, now, st1, Some(a1), matches, k + 1);
      MatchesFromFrame(cfg, now, st1, Some(a1), matches, k + 1);
      var (st', acc') := MatchesFrom(cfg, now, st1, Some(a1), matches, k + 1).value;
      assert MatchesFrom(cfg, now, st, acc, matches, k).value == (st', acc');
      assert st1.registrations == st.registrations && st1.matches == st2.matches;
      CommittedFeesStable(st2.matches, st'.matches, m.jobId, m.sources, 0);
    }
  }

  /** The loop over matches keeps the providers' assignments separated. */
  lemma {:induction false} MatchesFromSeparated(cfg: Config, now: U64, st: Store, acc: Option<Remaining>,
                                                matches: seq<Match>, k: nat)
    requires k <= |matches|
    requires StorageOrderFaithful(cfg)
    requires Separated(cfg, st.registrations, st.matches)
    requires MatchesFrom(cfg, now, st, acc, matches, k).Ok?
    ensures var st' := MatchesFrom(cfg, now, st, acc, matches, k).value.0;
      Separated(cfg, st'.registrations, st'.matches)
    decreases |matches| - k
  {
    if k < |matches| {
      var m := matches[k];
      JobStepOk(cfg, now, st, acc, m);
      var registration := st.registrations[m.jobId];
      SlotsFromSeparated(cfg, now, m.jobId, registration, st, 0, m.sources, 0);
      var (st1, a1) := JobStep(cfg, now, st, acc, m).value;
      MatchesFromSeparated(cfg, now, st1, Some(a1), matches, k + 1);
      assert MatchesFrom(cfg, now, st, acc, matches, k) == MatchesFrom(cfg, now, st1, Some(a1), matches, k + 1);
    }
  }

  /** A successful slot loop never assigns one provider twice to the job. */
  lemma {:induction false} SlotsFromDistinct(cfg: Config, now: U64, jobId: JobId, registration: JobRegistration,
                                             st: Store, totalFee: U128, sources: seq<PlannedExecution>, i: nat)
    requires i <= |sources|
    requires SlotsFrom(cfg, now, jobId, registration, st, totalFee, sources, i).Ok?
    ensures forall i1, i2 :: i <= i1 < i2 < |sources| ==> sources[i1].source != sources[i2].source
    decreases |sources| - i
  {
    if i < |sources| {
      SlotsFromNext(cfg, now, jobId, registration, st, totalFee, sources, i);
      SlotStepKeys(cfg, now, jobId, registration, st, totalFee, i, sources[i]);
      var (st1, total1) := SlotStep(cfg, now, jobId, registration, st, totalFee, i, sources[i]).value;
      SlotsFromDistinct(cfg, now, jobId, registration, st1, total1, sources, i + 1);
      SlotsFromAssigns(cfg, now, jobId, registration, st1, total1, sources, i + 1);
      assert (sources[i].source, jobId) in st1.matches;
    }
  }

  // ---------------------------------------------------------------------------
  // process_matching as a whole

  /**
    A successful matching names at least one match; every match is of a
    registered job, not yet started, with as many sources as slots and an
    accepted reward asset; all matched jobs ask for the same reward, which
    is what the unspent amount is paid in; no provider appears twice in a
    match.
    */
  lemma MatchingAccepts(cfg: Config, now: U64, st: Store, matches: seq<Match>)
    requires Matching(cfg, now, st, matches).Ok?
    ensures |matches| > 0 && matches[0].jobId in st.registrations
    ensures var reward := st.registrations[matches[0].jobId].extra.reward;
      && Matching(cfg, now, st, matches).value.1.asset == reward.asset
      && forall k :: 0 <= k < |matches| ==>
           && matches[k].jobId in st.registrations
           && JobAccepted(cfg, now, st.registrations[matches[k].jobId], matches[k])
           && st.registrations[matches[k].jobId].extra.reward == reward
           && (forall i1, i2 :: 0 <= i1 < i2 < |matches[k].sources| ==>
                 matches[k].sources[i1].source != matches[k].sources[i2].source)
  {
    JobStepOk(cfg, now, st, None, matches[0]);
    var reward := st.registrations[matches[0].jobId].extra.reward;
    MatchesFromAccepts(cfg, now, st, None, matches, 0, reward);
    MatchesFromAssigns(cfg, now, st, None, matches, 0);
    forall k | 0 <= k < |matches|
      ensures forall i1, i2 :: 0 <= i1 < i2 < |matches[k].sources| ==>
                matches[k].sources[i1].source != matches[k].sources[i2].source
    {
      MatchSourcesDistinct(cfg, now, st, matches, k);
    }
  }

  /** No provider appears twice among the sources of one match of a successful matching. */
  lemma {:induction false} MatchSourcesDistinct(cfg: Config, now: U64, st: Store, matches: seq<Match>, k: nat)
    requires k < |matches|
    requires MatchesFrom(cfg, now, st, None, matches, 0).Ok?
    ensures forall i1, i2 :: 0 <= i1 < i2 < |matches[k].sources| ==>
              matches[k].sources[i1].source != matches[k].sources[i2].source
  {
    var j := 0;
    var cur, acc := st, None;
    while j < k
      invariant 0 <= j <= k
      invariant MatchesFrom(cfg, now, cur, acc, matches, j).Ok?
    {
      var (st1, a1) := JobStep(cfg, now, cur, acc, matches[j]).value;
      cur, acc := st1, Some(a1);
      j := j + 1;
    }
    JobStepOk(cfg, now, cur, acc, matches[k]);
    SlotsFromDistinct(cfg, now, matches[k].jobId, cur.registrations[matches[k].jobId], cur, 0, matches[k].sources, 0);
  }

  /**
    A successful matching changes only assignments, capacities and job
    statuses. It keeps every earlier assignment and adds only assignments of
    the proposed slots. It keeps the set of providers with a capacity. It
    marks exactly the matched jobs `Matched`.
    */
  lemma MatchingChanges(cfg: Config, now: U64, st: Store, matches: seq<Match>)
    requires Matching(cfg, now, st, matches).Ok?
    ensures var st' := Matching(cfg, now, st, matches).value.0;
      && st' == st.(matches := st'.matches, capacity := st'.capacity, jobStatus := st'.jobStatus)
      && Extends(st.matches, st'.matches)
      && st'.capacity.Keys == st.capacity.Keys
      && (forall key :: key in st'.matches ==>
            key in st.matches ||
            exists k, i :: 0 <= k < |matches| && 0 <= i < |matches[k].sources| &&
              key == (matches[k].sources[i].source, matches[k].jobId))
      && (forall j :: j in st'.jobStatus <==> j in st.jobStatus || j in MatchedJobs(st.registrations, matches, 0))
      && (forall j :: j in st'.jobStatus ==>
            st'.jobStatus[j] == if j in MatchedJobs(st.registrations, matches, 0) then Matched else st.jobStatus[j])
  {
    MatchesFromFrame(cfg, now, st, None, matches, 0);
  }

  /**
    Every slot of every match of a successful matching is assigned to its
    provider: the pair was not assigned before, the provider passed the
    admission tests, and the assignment carries the slot number, the start
    delay, the provider's fee (at most the reward per execution), no
    acknowledgement and an SLA expecting every execution.
    */
  lemma MatchingAssigns(cfg: Config, now: U64, st: Store, matches: seq<Match>)
    requires Matching(cfg, now, st, matches).Ok?
    ensures var st' := Matching(cfg, now, st, matches).value.0;
      forall k :: 0 <= k < |matches| ==> MatchPlanned(cfg, now, st, st'.matches, matches[k])
  {
    MatchesFromAssigns(cfg, now, st, None, matches, 0);
  }

  /** Every provider's capacity drops by the storage of the slots it was matched to. */
  lemma MatchingCapacity(cfg: Config, now: U64, st: Store, matches: seq<Match>)
    requires Matching(cfg, now, st, matches).Ok?
    ensures var st' := Matching(cfg, now, st, matches).value.0;
      forall s :: s in st.capacity ==>
        s in st'.capacity && st'.capacity[s] == st.capacity[s] - Demand(st.registrations, matches, 0, s)
  {
    MatchesFromCapacity(cfg, now, st, None, matches, 0);
  }

  /**
    The unspent reward handed to the matcher plus the fees committed to the
    providers, over all executions, is the reward budget of the matched
    jobs: nothing is created or lost.
    */
  lemma MatchingConservesReward(cfg: Config, now: U64, st: Store, matches: seq<Match>)
    requires Matching(cfg, now, st, matches).Ok?
    ensures var (st', reward) := Matching(cfg, now, st, matches).value;
      reward.amount + PaidFees(cfg, st.registrations, st'.matches, matches, 0)
        == TotalBudget(cfg, st.registrations, matches, 0)
  {
    MatchesFromConserves(cfg, now, st, None, matches, 0);
  }

  /**
    When storage hands out each assigned job once, a successful matching
    keeps every provider's assignments pairwise accepted by the schedule
    check.
    */
  lemma MatchingKeepsSeparated(cfg: Config, now: U64, st: Store, matches: seq<Match>)
    requires StorageOrderFaithful(cfg)
    requires Separated(cfg, st.registrations, st.matches)
    requires Matching(cfg, now, st, matches).Ok?
    ensures var st' := Matching(cfg, now, st, matches).value.0;
      Separated(cfg, st'.registrations, st'.matches)
  {
    MatchesFromSeparated(cfg, now, st, None, matches, 0);
  }

  /** A matching that proposes a job whose schedule has already started fails. */
  lemma MatchingRejectsOverdue(cfg: Config, now: U64, st: Store, matches: seq<Match>, k: nat)
    requires k < |matches| && matches[k].jobId in st.registrations
    requires now >= st.registrations[matches[k].jobId].schedule.startTime
    ensures Matching(cfg, now, st, matches).Err?
    ensures k == 0 ==> Matching(cfg, now, st, matches) == Err(OverdueMatch)
  {
    if Matching(cfg, now, st, matches).Ok? {
      MatchingAccepts(cfg, now, st, matches);
    }
  }

  /** A matching that names one provider twice for the same job fails. */
  lemma MatchingRejectsDuplicate(cfg: Config, now: U64, st: Store, matches: seq<Match>, k: nat, i1: nat, i2: nat)
    requires k < |matches| && i1 < i2 < |matches[k].sources|
    requires matches[k].sources[i1].source == matches[k].sources[i2].source
    ensures Matching(cfg, now, st, matches).Err?
  {
    if Matching(cfg, now, st, matches).Ok? {
      MatchingAccepts(cfg, now, st, matches);
    }
  }
}

=== FILE: node.dfy ===
/**
  The runtime as an object: the storage items of both pallets are fields,
  and each call is a method that updates them in place when it succeeds and
  leaves them untouched when it fails (a failing call reverts). Every method
  is proved to end in the store its transition function in `Chain` computes,
  and to keep the storage invariants.
  */
module Node {
  import opened Wrappers
  import opened Arith
  import opened Scripts
  import opened Types
  import opened Acurast
  import opened Marketplace
  import opened MatchEngine
  import Chain

  class Runtime {
    const cfg: Config
    var registrations: map<JobId, JobRegistration>
    var revokedCertificates: set<SerialNumber>
    var jobStatus: map<JobId, JobStatus>
    var restrictions: map<AccountId, AdvertisementRestriction>
    var pricing: map<(AccountId, AssetId), PricingVariant>
    var capacity: map<AccountId, I64>
    var matches: map<(AccountId, JobId), Assignment>

    /** The storage items as one value. */
    function Snapshot(): Store
      reads this
    {
      Store(registrations, revokedCertificates, jobStatus, restrictions, pricing, capacity, matches)
    }

    ghost predicate Valid()
      reads this
    {
      Chain.Valid(Snapshot())
    }

    /** A new chain with empty storage. */
    constructor(cfg: Config)
      ensures this.cfg == cfg
      ensures Snapshot() == Chain.Genesis()
      ensures Valid()
    {
      this.cfg := cfg;
      registrations := map[];
      revokedCertificates := {};
      jobStatus := map[];
      restrictions := map[];
      pricing := map[];
      capacity := map[];
      matches := map[];
    }

    /** Writes a whole store into the fields. */
    method Commit(st: Store)
      modifies this
      ensures Snapshot() == st
    {
      registrations := st.registrations;
      revokedCertificates := st.revokedCertificates;
      jobStatus := st.jobStatus;
      restrictions := st.restrictions;
      pricing := st.pricing;
      capacity := st.capacity;
      matches := st.matches;
    }

    /** `register`, returning the reward locked for the job. */
    method Register(now: U64, who: AccountId, registration: JobRegistration) returns (r: Result<Reward, Error>)
      requires Valid()
      modifies this
      ensures Valid()
      ensures var expected := Chain.Register(cfg, now, old(Snapshot()), who, registration);
        if expected.Ok? then r == Ok(expected.value.1) && Snapshot() == expected.value.0
        else r == Err(expected.error) && Snapshot() == old(Snapshot())
    {
      var expected := Chain.Register(cfg, now, Snapshot(), who, registration);
      if expected.Err? {
        return Err(expected.error);
      }
      Chain.RegisterKeepsValid(cfg, now, Snapshot(), who, registration);
      Commit(expected.value.0);
      r := Ok(expected.value.1);
    }

    /**
      `deregister` in the order of the source: the registration is removed
      first, the hook then runs on the store without it, and a failing hook
      reverts the removal.
      */
    method Deregister(now: U64, who: AccountId, script: Script) returns (r: Result<(), Error>)
      requires Valid()
      modifies this
      ensures Valid()
      ensures var expected := Chain.DeregisterAsWritten(now, old(Snapshot()), who, script);
        if expected.Ok? then r.Ok? && Snapshot() == expected.value
        else r == Err(expected.error) && Snapshot() == old(Snapshot())
    {
      var key := JobId(who, script);
      var saved := registrations;
      ghost var before := Snapshot();
      registrations := registrations - {key};
      var hooked := DeregisterHook(now, Snapshot(), who, script);
      if hooked.Err? {
        registrations := saved;
        return Err(hooked.error);
      }
      Chain.DeregisterAsWrittenKeepsValid(now, before, who, script);
      jobStatus := jobStatus - {key};
      r := Ok(());
    }

    /**
      `update_allowed_sources`: the loop of the source over the updates,
      adding an absent account at the end and removing the first occurrence
      of a present one.
      */
    method UpdateAllowedSources(who: AccountId, script: Script, updates: seq<ListUpdate<AccountId>>)
      returns (r: Result<(), Error>)
      requires Valid()
      modifies this
      ensures Valid()
      ensures var expected := Chain.UpdateAllowedSources(cfg, old(Snapshot()), who, script, updates);
        if expected.Ok? then r.Ok? && Snapshot() == expected.value
        else r == Err(expected.error) && Snapshot() == old(Snapshot())
    {
      var key := JobId(who, script);
      if key !in registrations {
        return Err(JobRegistrationNotFound);
      }
      var registration := registrations[key];
      var current := Chain.SourcesOf(registration);
      var i := 0;
      while i < |updates|
        invariant 0 <= i <= |updates|
        invariant current == ApplySourceUpdates(Chain.SourcesOf(registration), updates[..i])
      {
        var update := updates[i];
        if update.item !in current && update.operation == Add {
          current := current + [update.item];
        } else if update.item in current && update.operation == Remove {
          current := RemoveFirst(current, update.item);
        }
        assert updates[..i + 1][..i] == updates[..i];
        i := i + 1;
      }
      assert updates[..|updates|] == updates;
      if !(|current| <= cfg.maxAllowedSources) {
        return Err(TooManyAllowedSources);
      }
      var allowed := if current == [] then None else Some(current);
      var hooked := UpdateAllowedSourcesHook(Snapshot(), who, script);
      if hooked.Err? {
        return Err(hooked.error);
      }
      Chain.UpdateAllowedSourcesKeepsValid(cfg, Snapshot(), who, script, updates);
      registrations := registrations[key := registration.(allowedSources := allowed)];
      r := Ok(());
    }

    /**
      `update_certificate_revocation_list`: once the barrier accepts the
      caller, each update revokes or reinstates one serial number in place.
      */
    method UpdateCertificateRevocationList(who: AccountId, updates: seq<ListUpdate<SerialNumber>>)
      returns (r: Result<(), Error>)
      requires Valid()
      modifies this
      ensures Valid()
      ensures var expected := Chain.UpdateCertificateRevocationList(cfg, old(Snapshot()), who, updates);
        if expected.Ok? then r.Ok? && Snapshot() == expected.value
        else r == Err(expected.error) && Snapshot() == old(Snapshot())
    {
      if !cfg.canUpdateRevocationList(who, updates) {
        return Err(CertificateRevocationListUpdateNotAllowed);
      }
      var i := 0;
      while i < |updates|
        invariant 0 <= i <= |updates|
        invariant revokedCertificates == ApplyRevocationUpdates(old(revokedCertificates), updates[..i])
        invariant Snapshot() == old(Snapshot()).(revokedCertificates := revokedCertificates)
      {
        var update := updates[i];
        match update.operation {
          case Add => revokedCertificates := revokedCertificates + {update.item};
          case Remove => revokedCertificates := revokedCertificates - {update.item};
        }
        assert updates[..i + 1][..i] == updates[..i];
        i := i + 1;
      }
      assert updates[..|updates|] == updates;
      r := Ok(());
    }

    /**
      The pricing loop of `advertise`: each variant's asset is validated
      before the variant is stored under it; `None` when one is rejected.
      */
    method StorePricing(who: AccountId, variants: seq<PricingVariant>)
      returns (r: Option<map<(AccountId, AssetId), PricingVariant>>)
      ensures r.None? <==> FirstRejected(cfg, variants).Some?
      ensures r.Some? ==> r.value == PricingAfter(pricing, who, variants)
    {
      var index := pricing;
      var i := 0;
      while i < |variants|
        invariant 0 <= i <= |variants|
        invariant index == PricingAfter(pricing, who, variants[..i])
        invariant forall j :: 0 <= j < i ==> cfg.assetValid(variants[j].rewardAsset)
      {
        var variant := variants[i];
        if !cfg.assetValid(variant.rewardAsset) {
          return None;
        }
        assert variants[..i + 1][..i] == variants[..i];
        index := index[(who, variant.rewardAsset) := variant];
        i := i + 1;
      }
      assert variants[..|variants|] == variants;
      r := Some(index);
    }

    /**
      `advertise`: the remaining capacity adjusted by the change of total
      capacity, the restriction replaced, and the pricing index updated.
      */
    method Advertise(who: AccountId, ad: Advertisement) returns (r: Result<(), Error>)
      requires Valid()
      modifies this
      ensures Valid()
      ensures var expected := Marketplace.Advertise(cfg, old(Snapshot()), who, ad);
        if expected.Ok? then r.Ok? && Snapshot() == expected.value
        else r == Err(expected.error) && Snapshot() == old(Snapshot())
    {
      if !(|ad.pricing| > 0) {
        return Err(EmptyPricing);
      }
      var newCapacity :=
        if who in restrictions then
          AdjustCapacity(if who in capacity then capacity[who] else 0, ad.storageCapacity,
                         restrictions[who].storageCapacity)
        else ad.storageCapacity;
      var restriction := AdvertisementRestriction(ad.maxMemory, ad.networkRequestQuota, ad.storageCapacity,
                                                  ad.allowedConsumers);
      var newPricing := StorePricing(who, ad.pricing);
      if newPricing.None? {
        return Err(AssetRejected);
      }
      Chain.AdvertiseKeepsValid(cfg, Snapshot(), who, ad);
      capacity := capacity[who := newCapacity];
      restrictions := restrictions[who := restriction];
      pricing := newPricing.value;
      r := Ok(());
    }

    /** `delete_advertisement`. */
    method DeleteAdvertisement(who: AccountId) returns (r: Result<(), Error>)
      requires Valid()
      modifies this
      ensures Valid()
      ensures var expected := Marketplace.DeleteAdvertisement(old(Snapshot()), who);
        if expected.Ok? then r.Ok? && Snapshot() == expected.value
        else r == Err(expected.error) && Snapshot() == old(Snapshot())
    {
      var expected := Marketplace.DeleteAdvertisement(Snapshot(), who);
      if expected.Err? {
        return Err(expected.error);
      }
      Chain.DeleteAdvertisementKeepsValid(Snapshot(), who);
      Commit(expected.value);
      r := Ok(());
    }

    /** `propose_matching`, running the loops of `process_matching`; returns the matcher's reward. */
    method ProposeMatching(now: U64, who: AccountId, proposed: seq<Match>) returns (r: Result<Reward, Error>)
      requires Valid()
      modifies this
      ensures Valid()
      ensures var expected := Marketplace.ProposeMatching(cfg, now, old(Snapshot()), who, proposed);
        if expected.Ok? then r == Ok(expected.value.1) && Snapshot() == expected.value.0
        else r == Err(expected.error) && Snapshot() == old(Snapshot())
    {
      var matched := ProcessMatching(cfg, now, Snapshot(), proposed);
      if matched.Err? {
        return Err(matched.error);
      }
      var (st', remaining) := matched.value;
      if !cfg.rewardManagerAccepts(PayMatcherReward(remaining, who)) {
        return Err(RewardManagerFailed);
      }
      Chain.MatchingKeepsValid(cfg, now, Snapshot(), proposed);
      Commit(st');
      r := Ok(remaining);
    }

    /** `acknowledge_match`. */
    method AcknowledgeMatch(who: AccountId, jobId: JobId) returns (r: Result<(), Error>)
      requires Valid()
      modifies this
      ensures Valid()
      ensures var expected := Marketplace.AcknowledgeMatch(old(Snapshot()), who, jobId);
        if expected.Ok? then r.Ok? && Snapshot() == expected.value
        else r == Err(expected.error) && Snapshot() == old(Snapshot())
    {
      var expected := Marketplace.AcknowledgeMatch(Snapshot(), who, jobId);
      if expected.Err? {
        return Err(expected.error);
      }
      Chain.AcknowledgeMatchKeepsValid(Snapshot(), who, jobId);
      Commit(expected.value);
      r := Ok(());
    }

    /** `report`, returning the fee paid for the reported execution. */
    method Report(now: U64, who: AccountId, jobId: JobId, last: bool) returns (r: Result<Reward, Error>)
      requires Valid()
      modifies this
      ensures Valid()
      ensures var expected := Marketplace.Report(cfg, now, old(Snapshot()), who, jobId, last);
        if expected.Ok? then r == Ok(expected.value.1) && Snapshot() == expected.value.0
        else r == Err(expected.error) && Snapshot() == old(Snapshot())
    {
      var expected := Marketplace.Report(cfg, now, Snapshot(), who, jobId, last);
      if expected.Err? {
        return Err(expected.error);
      }
      Chain.ReportKeepsValid(cfg, now, Snapshot(), who, jobId, last);
      Commit(expected.value.0);
      r := Ok(expected.value.1);
    }
  }
}

=== FILE: pricing.dfy ===
/** The marketplace's fee and reward formulas, under checked `u128` arithmetic. */
module Pricing {
  import opened Wrappers
  import opened Arith
  import opened Types

  /** The mathematical fee of one execution. */
  function FeeFormula(registration: JobRegistration, pricing: PricingVariant): int
  {
    pricing.feePerMillisecond * registration.schedule.duration
    + pricing.feePerStorageByte * registration.storage
    + pricing.baseFeePerExecution
  }

  /** The reward a job locks: the reward per execution, for every slot and every execution. */
  function JobBudget(cfg: Config, registration: JobRegistration): int
  {
    registration.extra.reward.amount * registration.extra.slots * cfg.executionCount(registration.schedule)
  }

  /**
    `fee_per_execution`: the fee is exact whenever it fits in the asset amount,
    and any overflow of the checked chain surfaces as `CalculationOverflow`.
    */
  function FeePerExecution(registration: JobRegistration, pricing: PricingVariant): (r: Result<U128, Error>)
    ensures r.Ok? <==> FeeFormula(registration, pricing) <= U128_MAX
    ensures r.Ok? ==> r.value == FeeFormula(registration, pricing)
    ensures r.Err? ==> r.error == CalculationOverflow
  {
    var byTime := MulU128(pricing.feePerMillisecond, registration.schedule.duration);
    if byTime.None? then Err(CalculationOverflow) else
    var byStorage := MulU128(pricing.feePerStorageByte, registration.storage);
    if byStorage.None? then Err(CalculationOverflow) else
    var variable := AddU128(byTime.value, byStorage.value);
    if variable.None? then Err(CalculationOverflow) else
    var total := AddU128(variable.value, pricing.baseFeePerExecution);
    if total.None? then Err(CalculationOverflow) else
    Ok(total.value)
  }

  /**
    `total_reward_amount`: reward per slot execution times slots times
    executions, exact unless a checked multiplication overflows.
    */
  function TotalRewardAmount(cfg: Config, registration: JobRegistration): (r: Result<U128, Error>)
    ensures var perSlots := registration.extra.reward.amount * registration.extra.slots;
      r.Ok? <==> perSlots <= U128_MAX && perSlots * cfg.executionCount(registration.schedule) <= U128_MAX
    ensures r.Ok? ==> r.value == JobBudget(cfg, registration)
    ensures r.Err? ==> r.error == CalculationOverflow
  {
    var perSlots := MulU128(registration.extra.reward.amount, registration.extra.slots);
    if perSlots.None? then Err(CalculationOverflow) else
    var total := MulU128(perSlots.value, cfg.executionCount(registration.schedule));
    if total.None? then Err(CalculationOverflow) else
    Ok(total.value)
  }
}

=== FILE: schedule_fit.dfy ===
/**
  The pairwise schedule check of `fits_schedule`: two schedules whose periods
  overlap have their execution windows `[start, start + interval)` merged in
  ascending order and folded left to right, carrying the end of the previous
  window, starting from 0; a window starting before that end is a conflict.
  */
module ScheduleFit {
  import opened Wrappers
  import opened Arith
  import opened Types

  /** An execution window `[start, end)`. */
  datatype Interval = Interval(start: int, end: int)

  /** The window of the execution starting at `start`; `None` when `start + interval` overflows `u64`. */
  function Window(start: U64, interval: U64): Option<Interval>
  {
    if start + interval <= U64_MAX then Some(Interval(start, start + interval)) else None
  }

  /** The schedule's start times mapped to their (checked) windows. */
  function Windows(starts: seq<U64>, interval: U64): (r: seq<Option<Interval>>)
    ensures |r| == |starts|
    ensures forall k :: 0 <= k < |starts| ==> r[k] == Window(starts[k], interval)
  {
    seq(|starts|, k requires 0 <= k < |starts| => Window(starts[k], interval))
  }

  /** The order of the merged items: `None` first, then windows by start, then by end. */
  predicate Le(a: Option<Interval>, b: Option<Interval>)
  {
    match a
    case None => true
    case Some(x) =>
      match b
      case None => false
      case Some(y) => x.start < y.start || (x.start == y.start && x.end <= y.end)
  }

  /** The two-pointer merge; on a tie the item of the first sequence goes first. */
  function Merge(xs: seq<Option<Interval>>, ys: seq<Option<Interval>>): seq<Option<Interval>>
    decreases |xs| + |ys|
  {
    if xs == [] then ys
    else if ys == [] then xs
    else if Le(xs[0], ys[0]) then [xs[0]] + Merge(xs[1..], ys)
    else [ys[0]] + Merge(xs, ys[1..])
  }

  /**
    The fold over the merged windows: an overflowed window is `CalculationOverflow`,
    a window starting before the previous end is `ScheduleOverlapInMatch`,
    otherwise the result is the end of the last window.
    */
  function FoldEnds(ms: seq<Option<Interval>>, prevEnd: int): (r: Result<int, Error>)
    ensures r.Err? ==> r.error in {CalculationOverflow, ScheduleOverlapInMatch}
  {
    if ms == [] then Ok(prevEnd)
    else match ms[0]
      case None => Err(CalculationOverflow)
      case Some(w) => if prevEnd > w.start then Err(ScheduleOverlapInMatch) else FoldEnds(ms[1..], w.end)
  }

  /** True when the two schedules' whole `[start_time, end_time)` periods do not meet. */
  predicate PeriodsDisjoint(schedule: Schedule, other: Schedule)
  {
    schedule.startTime >= other.endTime || schedule.endTime <= other.startTime
  }

  /**
    One iteration of the loop in `fits_schedule`: the new schedule (with its
    start delay) against one schedule already assigned to the provider.
    */
  function PairFits(cfg: Config, schedule: Schedule, startDelay: U64, other: Schedule, otherDelay: U64): (r: Result<(), Error>)
    ensures PeriodsDisjoint(schedule, other) ==> r.Ok?
    ensures r.Err? ==> r.error in {CalculationOverflow, ScheduleOverlapInMatch}
  {
    if PeriodsDisjoint(schedule, other) then Ok(())
    else match cfg.iter(schedule, startDelay)
      case None => Err(CalculationOverflow)
      case Some(xs) =>
        match cfg.iter(other, otherDelay)
        case None => Err(CalculationOverflow)
        case Some(ys) =>
          match FoldEnds(Merge(Windows(xs, schedule.interval), Windows(ys, other.interval)), 0)
          case Err(e) => Err(e)
          case Ok(_) => Ok(())
  }

  // ---------------------------------------------------------------------------
  // Vocabulary for the properties of the fold

  predicate StrictlyIncreasing(xs: seq<U64>)
  {
    forall i, j :: 0 <= i < j < |xs| ==> xs[i] < xs[j]
  }

  predicate Sorted(s: seq<Option<Interval>>)
  {
    forall i, j :: 0 <= i < j < |s| ==> Le(s[i], s[j])
  }

  predicate AllSome(s: seq<Option<Interval>>)
  {
    forall i :: 0 <= i < |s| ==> s[i].Some?
  }

  /** Every window is non-empty. */
  predicate NonEmpty(s: seq<Option<Interval>>)
  {
    forall i :: 0 <= i < |s| && s[i].Some? ==> s[i].value.start < s[i].value.end
  }

  /** Each window starts at or after the end of the one before it (the first at or after `prevEnd`). */
  predicate Chained(s: seq<Option<Interval>>, prevEnd: int)
    requires AllSome(s)
  {
    && (|s| > 0 ==> prevEnd <= s[0].value.start)
    && (forall k :: 0 < k < |s| ==> s[k - 1].value.end <= s[k].value.start)
  }

  predicate Disjoint(a: Interval, b: Interval)
  {
    a.end <= b.start || b.end <= a.start
  }

  /** No two windows of the sequence (at distinct positions) intersect. */
  predicate PairwiseDisjoint(s: seq<Option<Interval>>)
    requires AllSome(s)
  {
    forall i, j :: 0 <= i < j < |s| ==> Disjoint(s[i].value, s[j].value)
  }

  // ---------------------------------------------------------------------------
  // The merge

  lemma LeTotal(a: Option<Interval>, b: Option<Interval>)
    ensures Le(a, b) || Le(b, a)
  {
  }

  lemma LeTrans(a: Option<Interval>, b: Option<Interval>, c: Option<Interval>)
    requires Le(a, b) && Le(b, c)
    ensures Le(a, c)
  {
  }

  /** The merge is a permutation of its two inputs. */
  lemma {:induction false} MergePermutes(xs: seq<Option<Interval>>, ys: seq<Option<Interval>>)
    ensures multiset(Merge(xs, ys)) == multiset(xs) + multiset(ys)
    decreases |xs| + |ys|
  {
    if xs == [] || ys == [] {
    } else if Le(xs[0], ys[0]) {
      MergePermutes(xs[1..], ys);
      assert Merge(xs, ys) == [xs[0]] + Merge(xs[1..], ys);
      assert xs == [xs[0]] + xs[1..];
      assert multiset(xs) == multiset{xs[0]} + multiset(xs[1..]);
    } else {
      MergePermutes(xs, ys[1..]);
      assert Merge(xs, ys) == [ys[0]] + Merge(xs, ys[1..]);
      assert ys == [ys[0]] + ys[1..];
      assert multiset(ys) == multiset{ys[0]} + multiset(ys[1..]);
    }
  }

  /** Everything after the head of a sorted sequence is at least the head. */
  lemma HeadIsLeast(a: Option<Interval>, s: seq<Option<Interval>>, x: Option<Interval>)
    requires Sorted([a] + s) && x in s
    ensures Le(a, x)
  {
    var p :| 0 <= p < |s| && s[p] == x;
    assert ([a] + s)[0] == a && ([a] + s)[p + 1] == x;
    assert Le(([a] + s)[0], ([a] + s)[p + 1]);
  }

  /** A head that is below everything in a sorted tail gives a sorted sequence. */
  lemma ConsSorted(head: Option<Interval>, rest: seq<Option<Interval>>)
    requires Sorted(rest)
    requires forall x :: x in rest ==> Le(head, x)
    ensures Sorted([head] + rest)
  {
    forall i, j | 0 <= i < j < |[head] + rest| ensures Le(([head] + rest)[i], ([head] + rest)[j]) {
      if i > 0 {
        assert ([head] + rest)[i] == rest[i - 1] && ([head] + rest)[j] == rest[j - 1];
      } else {
        assert ([head] + rest)[j] == rest[j - 1];
        assert rest[j - 1] in rest;
      }
    }
  }

  /** Every item of a sorted sequence is at least its head. */
  lemma AboveHead(xs: seq<Option<Interval>>, x: Option<Interval>)
    requires Sorted(xs) && x in xs
    ensures Le(xs[0], x)
  {
    var p :| 0 <= p < |xs| && xs[p] == x;
    if p > 0 { assert Le(xs[0], xs[p]); }
  }

  /** What the merge emits after a head `h` is at least `h`, when `h` is below both inputs' heads. */
  lemma MergeAbove(h: Option<Interval>, xs: seq<Option<Interval>>, ys: seq<Option<Interval>>)
    requires Sorted(xs) && Sorted(ys)
    requires xs != [] ==> Le(h, xs[0])
    requires ys != [] ==> Le(h, ys[0])
    ensures forall x :: x in Merge(xs, ys) ==> Le(h, x)
  {
    MergePermutes(xs, ys);
    forall x | x in Merge(xs, ys) ensures Le(h, x) {
      assert x in multiset(Merge(xs, ys));
      if x in xs {
        AboveHead(xs, x);
        LeTrans(h, xs[0], x);
      } else {
        assert x in ys;
        AboveHead(ys, x);
        LeTrans(h, ys[0], x);
      }
    }
  }

  lemma SortedTail(xs: seq<Option<Interval>>)
    requires Sorted(xs) && xs != []
    ensures Sorted(xs[1..])
  {
    forall i, j | 0 <= i < j < |xs[1..]| ensures Le(xs[1..][i], xs[1..][j]) {
      assert xs[1..][i] == xs[i + 1] && xs[1..][j] == xs[j + 1];
    }
  }

  /** Merging two sorted sequences gives a sorted sequence. */
  lemma {:induction false} MergeSorted(xs: seq<Option<Interval>>, ys: seq<Option<Interval>>)
    requires Sorted(xs) && Sorted(ys)
    ensures Sorted(Merge(xs, ys))
    decreases |xs| + |ys|
  {
    if xs == [] || ys == [] {
    } else if Le(xs[0], ys[0]) {
      SortedTail(xs);
      MergeSorted(xs[1..], ys);
      if |xs| > 1 { assert Le(xs[0], xs[1]); assert xs[1..][0] == xs[1]; }
      MergeAbove(xs[0], xs[1..], ys);
      ConsSorted(xs[0], Merge(xs[1..], ys));
    } else {
      LeTotal(xs[0], ys[0]);
      SortedTail(ys);
      MergeSorted(xs, ys[1..]);
      if |ys| > 1 { assert Le(ys[0], ys[1]); assert ys[1..][0] == ys[1]; }
      MergeAbove(ys[0], xs, ys[1..]);
      ConsSorted(ys[0], Merge(xs, ys[1..]));
    }
  }

  /** A value occurring twice in a sequence sits at two distinct positions. */
  lemma {:induction false} TwoPositions(s: seq<Option<Interval>>, v: Option<Interval>)
    requires multiset(s)[v] >= 2
    ensures exists i, j :: 0 <= i < j < |s| && s[i] == v && s[j] == v
  {
    assert s == [s[0]] + s[1..];
    if s[0] == v {
      assert v in multiset(s[1..]);
      var q :| 0 <= q < |s[1..]| && s[1..][q] == v;
      assert s[0] == v && s[q + 1] == v;
    } else {
      TwoPositions(s[1..], v);
      var i, j :| 0 <= i < j < |s[1..]| && s[1..][i] == v && s[1..][j] == v;
      assert s[i + 1] == v && s[j + 1] == v;
    }
  }

  // ---------------------------------------------------------------------------
  // The fold

  /** The fold succeeds exactly when no window overflowed and the windows are chained. */
  lemma {:induction false} FoldOkIffChained(ms: seq<Option<Interval>>, prevEnd: int)
    ensures FoldEnds(ms, prevEnd).Ok? <==> AllSome(ms) && Chained(ms, prevEnd)
  {
    if ms != [] {
      FoldOkIffChained(ms[1..], if ms[0].Some? then ms[0].value.end else 0);
      if ms[0].Some? && AllSome(ms[1..]) {
        assert forall k :: 0 < k < |ms[1..]| ==> ms[1..][k - 1] == ms[k] && ms[1..][k] == ms[k + 1];
      }
      if AllSome(ms) {
        assert AllSome(ms[1..]) by {
          forall k | 0 <= k < |ms[1..]| ensures ms[1..][k].Some? { assert ms[1..][k] == ms[k + 1]; }
        }
      }
    }
  }

  /** When no window overflowed, the only way the fold fails is a conflict. */
  lemma {:induction false} FoldFailsOnlyByOverlap(ms: seq<Option<Interval>>, prevEnd: int)
    requires AllSome(ms)
    ensures FoldEnds(ms, prevEnd).Err? ==> FoldEnds(ms, prevEnd).error == ScheduleOverlapInMatch
  {
    if ms != [] {
      assert AllSome(ms[1..]) by {
        forall k | 0 <= k < |ms[1..]| ensures ms[1..][k].Some? { assert ms[1..][k] == ms[k + 1]; }
      }
      FoldFailsOnlyByOverlap(ms[1..], ms[0].value.end);
    }
  }

  /** Chained non-empty windows are ordered: every earlier window ends before every later one starts. */
  lemma ChainedOrdered(s: seq<Option<Interval>>, prevEnd: int)
    requires AllSome(s) && NonEmpty(s) && Chained(s, prevEnd)
    ensures forall i, j :: 0 <= i < j < |s| ==> s[i].value.end <= s[j].value.start
  {
    forall i, j | 0 <= i < j < |s| ensures s[i].value.end <= s[j].value.start {
      var k := i + 1;
      while k < j
        invariant i < k <= j
        invariant s[i].value.end <= s[k].value.start
      {
        k := k + 1;
      }
    }
  }

  /** Sorted, pairwise disjoint, non-empty windows are chained. */
  lemma SortedDisjointChained(s: seq<Option<Interval>>)
    requires AllSome(s) && NonEmpty(s) && Sorted(s) && PairwiseDisjoint(s)
    requires forall i :: 0 <= i < |s| ==> 0 <= s[i].value.start
    ensures Chained(s, 0)
  {
    forall k | 0 < k < |s| ensures s[k - 1].value.end <= s[k].value.start {
      assert Le(s[k - 1], s[k]);
      assert Disjoint(s[k - 1].value, s[k].value);
    }
  }

  // ---------------------------------------------------------------------------
  // What the check decides about two schedules' executions

  /**
    The fold over the merged windows succeeds exactly when, among all
    windows of both schedules, no two intersect (given strictly increasing
    start times, a positive interval and no overflow).
    */
  lemma FoldDecidesDisjointness(xs: seq<U64>, i1: U64, ys: seq<U64>, i2: U64)
    requires StrictlyIncreasing(xs) && StrictlyIncreasing(ys)
    requires 0 < i1 && 0 < i2
    requires AllSome(Windows(xs, i1)) && AllSome(Windows(ys, i2))
    ensures var m := Merge(Windows(xs, i1), Windows(ys, i2));
      AllSome(m) && (FoldEnds(m, 0).Ok? <==> PairwiseDisjoint(m))
    ensures var m := Merge(Windows(xs, i1), Windows(ys, i2));
      FoldEnds(m, 0).Err? ==> FoldEnds(m, 0).error == ScheduleOverlapInMatch
  {
    var a, b := Windows(xs, i1), Windows(ys, i2);
    var m := Merge(a, b);
    MergePermutes(a, b);
    forall i | 0 <= i < |m| ensures m[i].Some? && m[i].value.start < m[i].value.end && 0 <= m[i].value.start {
      assert m[i] in multiset(m);
      assert m[i] in a || m[i] in b;
    }
    assert Sorted(a) by {
      forall i, j | 0 <= i < j < |a| ensures Le(a[i], a[j]) { assert xs[i] < xs[j]; }
    }
    assert Sorted(b) by {
      forall i, j | 0 <= i < j < |b| ensures Le(b[i], b[j]) { assert ys[i] < ys[j]; }
    }
    MergeSorted(a, b);
    FoldOkIffChained(m, 0);
    FoldFailsOnlyByOverlap(m, 0);
    if FoldEnds(m, 0).Ok? {
      ChainedOrdered(m, 0);
    }
    if PairwiseDisjoint(m) {
      SortedDisjointChained(m);
    }
  }

  /** Two items of the first and second input of a merge sit at two distinct positions of it. */
  lemma MergePositions(a: seq<Option<Interval>>, b: seq<Option<Interval>>, p: nat, q: nat)
    returns (i: nat, j: nat)
    requires p < |a| && q < |b|
    ensures var m := Merge(a, b);
      i < |m| && j < |m| && i != j && m[i] == a[p] && m[j] == b[q]
  {
    var m := Merge(a, b);
    MergePermutes(a, b);
    var x, y := a[p], b[q];
    assert x in multiset(a) && y in multiset(b);
    if x == y {
      assert multiset(m)[x] >= 2;
      TwoPositions(m, x);
      i, j :| 0 <= i < j < |m| && m[i] == x && m[j] == x;
    } else {
      assert x in multiset(m) && y in multiset(m);
      i :| 0 <= i < |m| && m[i] == x;
      j :| 0 <= j < |m| && m[j] == y;
    }
  }

  /** Windows built with a positive interval are non-empty, and so are those of their merge. */
  lemma MergeNonEmpty(xs: seq<U64>, i1: U64, ys: seq<U64>, i2: U64)
    requires 0 < i1 && 0 < i2
    ensures NonEmpty(Merge(Windows(xs, i1), Windows(ys, i2)))
  {
    var a, b := Windows(xs, i1), Windows(ys, i2);
    var m := Merge(a, b);
    MergePermutes(a, b);
    forall i | 0 <= i < |m| && m[i].Some? ensures m[i].value.start < m[i].value.end {
      assert m[i] in multiset(m);
      assert m[i] in a || m[i] in b;
    }
  }

  /**
    Soundness across the two schedules: when the fold succeeds, every
    execution window of the first schedule is disjoint from every execution
    window of the second (no sortedness needed, only a positive interval).
    */
  lemma FoldOkSeparatesSchedules(xs: seq<U64>, i1: U64, ys: seq<U64>, i2: U64)
    requires 0 < i1 && 0 < i2
    requires FoldEnds(Merge(Windows(xs, i1), Windows(ys, i2)), 0).Ok?
    ensures forall p, q :: 0 <= p < |xs| && 0 <= q < |ys| ==>
      xs[p] + i1 <= U64_MAX && ys[q] + i2 <= U64_MAX &&
      Disjoint(Interval(xs[p], xs[p] + i1), Interval(ys[q], ys[q] + i2))
  {
    var a, b := Windows(xs, i1), Windows(ys, i2);
    var m := Merge(a, b);
    FoldOkIffChained(m, 0);
    MergeNonEmpty(xs, i1, ys, i2);
    ChainedOrdered(m, 0);
    forall p, q | 0 <= p < |xs| && 0 <= q < |ys|
      ensures xs[p] + i1 <= U64_MAX && ys[q] + i2 <= U64_MAX
      ensures Disjoint(Interval(xs[p], xs[p] + i1), Interval(ys[q], ys[q] + i2))
    {
      var i, j := MergePositions(a, b, p, q);
      assert m[i].Some? && m[j].Some?;
      if i < j {
        assert m[i].value.end <= m[j].value.start;
      } else {
        assert m[j].value.end <= m[i].value.start;
      }
    }
  }

  /**
    `PairFits` in terms of the executions: when the periods meet and both
    schedules iterate, the check passes exactly when no two execution windows
    of the two schedules intersect, and otherwise fails with
    `ScheduleOverlapInMatch`.
    */
  lemma PairFitsDecides(cfg: Config, schedule: Schedule, startDelay: U64, other: Schedule, otherDelay: U64,
                        xs: seq<U64>, ys: seq<U64>)
    requires !PeriodsDisjoint(schedule, other)
    requires cfg.iter(schedule, startDelay) == Some(xs) && cfg.iter(other, otherDelay) == Some(ys)
    requires StrictlyIncreasing(xs) && StrictlyIncreasing(ys)
    requires 0 < schedule.interval && 0 < other.interval
    requires AllSome(Windows(xs, schedule.interval)) && AllSome(Windows(ys, other.interval))
    ensures var m := Merge(Windows(xs, schedule.interval), Windows(ys, other.interval));
      AllSome(m) && (PairFits(cfg, schedule, startDelay, other, otherDelay).Ok? <==> PairwiseDisjoint(m))
    ensures PairFits(cfg, schedule, startDelay, other, otherDelay).Err? ==>
      PairFits(cfg, schedule, startDelay, other, otherDelay).error == ScheduleOverlapInMatch
  {
    FoldDecidesDisjointness(xs, schedule.interval, ys, other.interval);
  }

  /** Passing `PairFits` with overlapping periods keeps every pair of executions apart. */
  lemma PairFitsSeparates(cfg: Config, schedule: Schedule, startDelay: U64, other: Schedule, otherDelay: U64,
                          xs: seq<U64>, ys: seq<U64>)
    requires !PeriodsDisjoint(schedule, other)
    requires cfg.iter(schedule, startDelay) == Some(xs) && cfg.iter(other, otherDelay) == Some(ys)
    requires 0 < schedule.interval && 0 < other.interval
    requires PairFits(cfg, schedule, startDelay, other, otherDelay).Ok?
    ensures forall p, q :: 0 <= p < |xs| && 0 <= q < |ys| ==>
      Disjoint(Interval(xs[p], xs[p] + schedule.interval), Interval(ys[q], ys[q] + other.interval))
  {
    FoldOkSeparatesSchedules(xs, schedule.interval, ys, other.interval);
  }
}

=== FILE: script.dfy ===
/**
  The job script identifier of the acurast common types: the UTF-8 bytes of an
  `ipfs://` URL, held in a vector bounded to 53 bytes.
  */
module Scripts {
  import opened Arith

  /** `SCRIPT_LENGTH`: the only length a valid script may have, and the bound of the vector. */
  const SCRIPT_LENGTH: nat := 53

  /** `SCRIPT_PREFIX`: the bytes of "ipfs://". */
  const SCRIPT_PREFIX: seq<U8> := [0x69, 0x70, 0x66, 0x73, 0x3A, 0x2F, 0x2F]

  /** A script: a byte vector of at most `SCRIPT_LENGTH` bytes (a `BoundedVec`). */
  type Script = s: seq<U8> | |s| <= SCRIPT_LENGTH

  /** True when the script has exactly `SCRIPT_LENGTH` bytes and starts with "ipfs://". */
  predicate IsValidScript(script: Script)
  {
    |script| == SCRIPT_LENGTH && SCRIPT_PREFIX <= script
  }

  /** A valid script is 53 bytes long and its first seven bytes spell "ipfs://". */
  lemma ValidScriptShape(script: Script)
    requires IsValidScript(script)
    ensures |script| == 53
    ensures script[0] == 'i' as int && script[1] == 'p' as int && script[2] == 'f' as int
    ensures script[3] == 's' as int && script[4] == ':' as int
    ensures script[5] == '/' as int && script[6] == '/' as int
  {
  }

  /** Every 53-byte script whose first seven bytes spell "ipfs://" is valid. */
  lemma ValidScriptComplete(script: Script)
    requires |script| == 53
    requires script[0] == 'i' as int && script[1] == 'p' as int && script[2] == 'f' as int
    requires script[3] == 's' as int && script[4] == ':' as int
    requires script[5] == '/' as int && script[6] == '/' as int
    ensures IsValidScript(script)
  {
    assert script[..7] == SCRIPT_PREFIX;
  }

  /** A script of any other length is invalid, whatever its bytes. */
  lemma WrongLengthInvalid(script: Script)
    requires |script| != SCRIPT_LENGTH
    ensures !IsValidScript(script)
  {
  }
}

=== FILE: types.dfy ===
/**
  The data model shared by the acurast and marketplace pallets: job
  registrations and their requirements, advertisements, assignments, job
  status, the errors the calls fail with, the runtime configuration and the
  storage of both pallets as one value.
  */
module Types {
  import opened Wrappers
  import opened Arith
  import opened Scripts

  type AccountId = nat
  type AssetId = nat
  /** A certificate serial number (a bounded byte vector in the source). */
  type SerialNumber = seq<U8>

  /** A job is identified by the account that registered it and its script. */
  datatype JobId = JobId(owner: AccountId, script: Script)

  /** A recurring execution plan; all times in milliseconds. */
  datatype Schedule = Schedule(duration: U64, startTime: U64, endTime: U64, interval: U64)

  /** A reward: an asset and an amount of it. */
  datatype Reward = Reward(asset: AssetId, amount: U128)

  /** One planned execution slot of a match: the provider and its start delay. */
  datatype PlannedExecution = PlannedExecution(source: AccountId, startDelay: U64)

  /** A proposed match of providers to the slots of one job. */
  datatype Match = Match(jobId: JobId, sources: seq<PlannedExecution>)

  /** The marketplace's requirements carried in a registration's extra field. */
  datatype JobRequirements = JobRequirements(
    slots: U8,
    reward: Reward,
    instantMatch: Option<seq<PlannedExecution>>)

  /** A job registration, with the fields the marketplace reads. */
  datatype JobRegistration = JobRegistration(
    script: Script,
    allowedSources: Option<seq<AccountId>>,
    allowOnlyVerifiedSources: bool,
    schedule: Schedule,
    memory: U32,
    networkRequests: U32,
    storage: U32,
    extra: JobRequirements)

  /** The marketplace lifecycle of a job. */
  datatype JobStatus = Open | Matched | Assigned(count: U8)

  /** The deadline a provider guarantees availability until. */
  datatype SchedulingWindow = End(end: U64) | Delta(delta: U64)

  /** A provider's price in one reward asset. */
  datatype PricingVariant = PricingVariant(
    rewardAsset: AssetId,
    feePerMillisecond: U128,
    feePerStorageByte: U128,
    baseFeePerExecution: U128,
    schedulingWindow: SchedulingWindow)

  /** A provider's capability envelope (the advertisement without its pricing). */
  datatype AdvertisementRestriction = AdvertisementRestriction(
    maxMemory: U32,
    networkRequestQuota: U8,
    storageCapacity: U32,
    allowedConsumers: Option<seq<AccountId>>)

  /** The argument of `advertise`. */
  datatype Advertisement = Advertisement(
    pricing: seq<PricingVariant>,
    maxMemory: U32,
    networkRequestQuota: U8,
    storageCapacity: U32,
    allowedConsumers: Option<seq<AccountId>>)

  /** Expected and met executions of an assignment. */
  datatype SLA = SLA(total: U64, met: U64)

  /** A committed pairing of one provider with one slot of one job. */
  datatype Assignment = Assignment(
    slot: U8,
    startDelay: U64,
    feePerExecution: Reward,
    acknowledged: bool,
    sla: SLA)

  datatype ListUpdateOperation = Add | Remove

  /** One update of a list (allowed sources, revoked certificates). */
  datatype ListUpdate<T> = ListUpdate(operation: ListUpdateOperation, item: T)

  /** A transfer handed to the reward manager. */
  datatype Payment =
    | LockReward(reward: Reward, payer: AccountId)
    | PayReward(reward: Reward, payee: AccountId)
    | PayMatcherReward(reward: Reward, payee: AccountId)

  datatype Error =
    // acurast pallet
    | JobRegistrationNotFound
    | TooManyAllowedSources
    | TooFewAllowedSources
    | InvalidScriptValue
    | CertificateRevocationListUpdateNotAllowed
    // marketplace pallet
    | CalculationOverflow
    | JobRegistrationZeroDuration
    | JobRegistrationScheduleExceedsMaximumExecutions
    | JobRegistrationScheduleContainsZeroExecutions
    | JobRegistrationDurationExceedsInterval
    | JobRegistrationStartInPast
    | JobRegistrationEndBeforeStart
    | JobRegistrationZeroSlots
    | JobRegistrationZeroReward
    | JobStatusNotFound
    | JobRegistrationUnmodifiable
    | CannotAcknowledgeWhenNotMatched
    | CannotReportWhenNotAcknowledged
    | AdvertisementNotFound
    | AdvertisementPricingNotFound
    | EmptyPricing
    | CannotDeleteAdvertisementWhileMatched
    | CapacityNotFound
    | EmptyMatching
    | OverdueMatch
    | IncorrectSourceCountInMatch
    | DuplicateSourceInMatch
    | UnverifiedSourceInMatch
    | MultipleRewardAssetsInMatch
    | SchedulingWindowExceededInMatch
    | MaxMemoryExceededInMatch
    | NetworkRequestQuotaExceededInMatch
    | InsufficientStorageCapacityInMatch
    | SourceNotAllowedInMatch
    | ConsumerNotAllowedInMatch
    | InsufficientRewardInMatch
    | ScheduleOverlapInMatch
    | ReportFromUnassignedSource
    | MoreReportsThanExpected
    | ReportOutsideSchedule
    // collaborators
    | AssetRejected
    | RewardManagerFailed
    | BadOrigin

  /**
    The runtime configuration and the collaborators the core calls but does not
    define: the schedule arithmetic (`execution_count`, `iter`, `overlaps`),
    the attestation check, the asset validator, the reward manager, the
    revocation-list barrier and the order in which storage iterates the
    assignments of one provider.
    */
  datatype Config = Config(
    maxAllowedSources: U16,
    reportTolerance: U64,
    maxExecutionsPerJob: U64,
    executionCount: Schedule -> U64,
    iter: (Schedule, U64) -> Option<seq<U64>>,
    overlaps: (Schedule, U64, U64, U64) -> Option<bool>,
    isVerified: AccountId -> bool,
    assetValid: AssetId -> bool,
    rewardManagerAccepts: Payment -> bool,
    canUpdateRevocationList: (AccountId, seq<ListUpdate<SerialNumber>>) -> bool,
    storageOrder: set<JobId> -> seq<JobId>)

  /** The storage order lists every key of the set exactly once. */
  ghost predicate EnumeratesOnce(js: seq<JobId>, keys: set<JobId>)
  {
    && (forall j :: j in js <==> j in keys)
    && (forall a, b :: 0 <= a < b < |js| ==> js[a] != js[b])
  }

  /** The storage items of both pallets, as one value. */
  datatype Store = Store(
    registrations: map<JobId, JobRegistration>,
    revokedCertificates: set<SerialNumber>,
    jobStatus: map<JobId, JobStatus>,
    restrictions: map<AccountId, AdvertisementRestriction>,
    pricing: map<(AccountId, AssetId), PricingVariant>,
    capacity: map<AccountId, I64>,
    matches: map<(AccountId, JobId), Assignment>)

  /** The job ids a provider holds an assignment for (the prefix of `StoredMatches`). */
  function JobsOf(matches: map<(AccountId, JobId), Assignment>, source: AccountId): (js: set<JobId>)
    ensures forall j :: j in js <==> (source, j) in matches
  {
    set k | k in matches.Keys && k.0 == source :: k.1
  }
}

=== FILE: whitelist.dfy ===
/** The marketplace's whitelist predicates (`utils.rs`). */
module Whitelist {
  import opened Wrappers
  import opened Types

  /** `iter().any(|x| x == account)`, scanning the list from the front. */
  function Any(list: seq<AccountId>, account: AccountId): (r: bool)
    ensures r <==> account in list
    decreases |list|
  {
    if list == [] then false
    else if list[0] == account then true
    else Any(list[1..], account)
  }

  /** A consumer is whitelisted when the provider lists no consumers, or lists it. */
  function IsConsumerWhitelisted(consumer: AccountId, allowedConsumers: Option<seq<AccountId>>): (r: bool)
    ensures allowedConsumers.None? ==> r
    ensures allowedConsumers.Some? ==> (r <==> consumer in allowedConsumers.value)
  {
    match allowedConsumers
    case None => true
    case Some(l) => Any(l, consumer)
  }

  /** A source is whitelisted when the job lists no sources, or lists it. */
  function IsSourceWhitelisted(source: AccountId, registration: JobRegistration): (r: bool)
    ensures registration.allowedSources.None? ==> r
    ensures registration.allowedSources.Some? ==> (r <==> source in registration.allowedSources.value)
  {
    match registration.allowedSources
    case None => true
    case Some(l) => Any(l, source)
  }

  /** An empty list rejects every account. */
  lemma EmptyListRejectsAll(account: AccountId, registration: JobRegistration)
    requires registration.allowedSources == Some([])
    ensures !IsConsumerWhitelisted(account, Some([]))
    ensures !IsSourceWhitelisted(account, registration)
  {
  }

  /** The accounts a list names, ignoring order and repetition. */
  function Elements(list: seq<AccountId>): (r: set<AccountId>)
    ensures forall x :: x in r <==> x in list
  {
    set x | x in list
  }

  /**
    Neither predicate depends on the order of the list or on duplicates in it:
    two lists with the same elements give the same answer.
    */
  lemma WhitelistsIgnoreOrder(account: AccountId, l1: seq<AccountId>, l2: seq<AccountId>, reg: JobRegistration)
    requires Elements(l1) == Elements(l2)
    ensures IsConsumerWhitelisted(account, Some(l1)) == IsConsumerWhitelisted(account, Some(l2))
    ensures IsSourceWhitelisted(account, reg.(allowedSources := Some(l1)))
         == IsSourceWhitelisted(account, reg.(allowedSources := Some(l2)))
  {
    assert account in l1 <==> account in Elements(l1);
  }
}

=== FILE: wrappers.dfy ===
/** Option and Result, the two failure-carrying datatypes of the model. */
module Wrappers {

  datatype Option<+T> = None | Some(value: T)

  /** The outcome of a dispatchable call or a fallible helper: a value, or the error it fails with. */
  datatype Result<+T, +E> = Ok(value: T) | Err(error: E)
}
